=== FILE: README.md ===
# IronWatch core in Dafny

IronWatch is a desktop USB monitor. It polls the USB bus, keeps a table of
the devices it saw on the previous poll, and reports a batch of changes on
each poll:

- devices that went away (Disconnected);
- devices that appeared, either Connected or Blocked by the security policy;
- devices whose previous record was marked Disconnected (Reconnected).

Alongside the diff it maintains per-device statistics, a connection history
and a security-event log, both capped at 1000 entries. It derives analytics
from them: class and vendor distributions and a 24-bucket hourly histogram.

The security policy is a whitelist and a blacklist of device rules.
Absent rule fields are wildcards, and text fields match by case-insensitive
substring. A background monitoring service talks to the GUI over a command
queue and an event queue. Each event also updates a cached status and
device list.

This project models that core as immutable datatypes and pure functions,
one module per source concern:

| module | file | models |
|---|---|---|
| `Wrappers`, `MachineInts` | wrappers.dfy, machine_ints.dfy | `Option`/`Result`, `u8`/`u16`/`u64` ranges |
| `OrderedMap` | ordered_map.dfy | a `HashMap` as an association list with unique keys |
| `BoundedLog` | bounded_log.dfy | a `Vec` capped at 1000 entries that drops index 0 on overflow |
| `Text` | text.dfy | substring search, ASCII lower-casing, decimal and hex rendering, `u64`/`bool` parsing |
| `Device` | device.dfy | `UsbDeviceInfo`, `ConnectionStatus`, `UsbDeviceChange`, the device key |
| `Errors` | errors.dfy | the error enums, their display text, conversions, `with_context`, friendly messages |
| `Config` | config.dfy | rule matching, the block decision, rule lists, `set_value`/`get_value`/`validate` |
| `UsbMonitor` | usb_monitor.dfy | the name filter, device table, security check, poll diff and statistics |
| `Analytics` | analytics.dfy | statistics lookups, connection history and `get_device_analytics` |
| `Communication` | communication.dfy | the hub: command and event queues, status mirroring, shutdown flag |
| `MonitoringService` | monitoring_service.dfy | the service's command handlers, monitoring cycle and main loop |
| `Output` | output.dfy | `truncate_string` and `escape_csv_field` on UTF-8 bytes |

Inputs the Rust code obtains from the outside world become parameters:

- The bus is a `BusSnapshot`. It is either the library's failure, or one
  entry per device, with `None` where a descriptor could not be read.
- The clock is a `now: nat` in seconds, one value per call.
- `check_usb_permissions` and USB context creation are fields of the
  service's `Env`.
- `tokio::select!` in the service loop is a schedule of branch choices.
  A choice is allowed only when its branch is enabled.

Three behaviours of the code are easy to misread; the model follows the
code in each:

- **Reconnection.** Records read from the bus carry status Connected. The
  new table replaces the previous one wholesale. So a device that is
  unplugged and plugged back in is reported Connected again, not
  Reconnected, and the Reconnected branch is never taken
  (`UsbMonitor.ReplugIsNotReconnection`, `UsbMonitor.ReconnectedUnreachable`).
- **Live connection count.** `connection_count` is floored at zero. The
  invariant kept is `connection_count <= total_connections`, not equality
  with connections minus disconnections (`UsbMonitor.CountIsFloored`).
- **Permission events.** A failed poll reaches the service as an `anyhow`
  error whose display shows only the outer context "Failed to get device
  list". The "Access"/"Permission" test in the monitoring cycle therefore
  never fires for it (`MonitoringService.BusFailureIsMonitoringError`).

Apart from the abstractions listed under "## Left out" (ASCII-only
case folding, unbounded counters, time in seconds and the like), the one
place where the model substitutes intended for as-written behaviour is the
device-name filter, whose manufacturer fallback compares the manufacturer
with itself.
Both filters are modelled; the poll and the service's listing use the
intended one (see "## Findings" and the `UsbMonitor.ConnectedDevices` line
under "## Left out").

## Model

| member | source | states |
|---|---|---|
| Device.DeviceKeyIdentifies | src/usb_monitor.rs:572-578 | two devices get the same `vid:pid:bus:addr` key exactly when they agree on vendor, product, bus and address |
| Device.SplitAtColon | src/usb_monitor.rs:572-578 | a digits-then-colon prefix is recovered uniquely from the joined text, so the key can be parsed back |
| Device.ChangeTypeIdentifiesKind | src/usb_monitor.rs:616-623 | two changes have the same type name exactly when they are of the same kind (the four names are distinct) |
| Device.WithStatus | src/usb_monitor.rs:334-356 | restamping a cloned record's status sets that status and leaves every other field, and so the identity key, unchanged |
| Text.ContainsIffOccurs | src/config.rs:114 | `contains` holds exactly when the needle occurs at some index of the text |
| Text.Lower | src/config.rs:114 | lower-casing keeps the length, leaves no upper-case ASCII letter, keeps every other character in place, and turns each upper-case letter into its lower-case one |
| Text.LowerIdempotent | src/config.rs:114 | lower-casing twice is lower-casing once, and text without upper-case letters is unchanged |
| Text.IgnoringCaseOfLowered | src/config.rs:114 | case-insensitive search gives the same answer when either side is lower-cased first |
| Text.DecimalRoundTrip | src/config.rs:333 | the decimal rendering of a number reads back as that number |
| Text.DecimalInjective | src/usb_monitor.rs:572-578 | distinct numbers have distinct decimal renderings |
| Text.ParseDecimalRoundTrip | src/config.rs:281-284 | parsing the rendering of any `u64` gives the number back |
| Text.ParseBool | src/config.rs:286-287 | exactly "true" and "false" parse, and each renders back to its own text |
| OrderedMap.Put | src/usb_monitor.rs:308 | inserting sets the key's value, keeps every other key's value, adds only that key and keeps keys unique |
| OrderedMap.PutGet | src/usb_monitor.rs:403 | lookup after insert gives the new value for that key and the old lookup for any other |
| BoundedLog.Push | src/usb_monitor.rs:395-400 | a push keeps the newest 1000 entries with the new one last, so the log never exceeds 1000 |
| BoundedLog.PushAllKeepsNewest | src/usb_monitor.rs:210-215 | any series of pushes leaves the newest 1000 of the old log followed by the pushed entries, never more |
| BoundedLog.NewestAbsorbs | src/usb_monitor.rs:228-233 | trimming early and trimming once at the end give the same log |
| Errors.FromRusb | src/error.rs:148-157 | Access becomes `DeviceAccessDenied(0, 0)`; NoDevice and NotFound become `NoDevicesFound`; every other error becomes `EnumerationFailed` with the library's text |
| Errors.FromJson | src/error.rs:160-164 | a JSON error becomes `InvalidFormat` and displays under the configuration-error heading |
| Errors.WithContext | src/error.rs:174-183 | a USB error becomes `MonitoringFailed("msg: inner")`; success and non-USB errors pass through unchanged |
| Errors.WithContextKeepsCause | src/error.rs:174-183 | the rewritten USB error still displays the original error's text at its end |
| Errors.HelpersWrapAndClassify | src/error.rs:186-218 | each helper constructor wraps into its stated variant, and only the access-denied, USB initialisation and file-not-found ones carry a remedy |
| Errors.UserFriendlyMessage | src/error.rs:241-260 | a suggestion is given exactly for access denied, USB initialisation failure, permission errors and a missing config file; otherwise the message is the error's display text |
| Config.MatchesDevice | src/config.rs:89-145 | a rule matches exactly when every present id equals the device's and every present text field is a case-insensitive substring of a present device field |
| Config.WildcardRuleMatchesAll | src/config.rs:74-87 | a rule with no fields set, such as a new rule, matches every device |
| Config.AbsentFieldNeverMatches | src/config.rs:111-142 | a text matcher against a device field that is absent never matches |
| Config.FirstFiring | src/config.rs:455-459 | the index found is the first enabled matching rule, and none is found exactly when no rule fires |
| Config.ShouldBlockDevice | src/config.rs:442-463 | an enabled whitelist without an enabled match blocks with "Device not in whitelist"; otherwise an enabled blacklist blocks with the first firing rule's reason; otherwise the device is allowed; a reason is given exactly when blocking |
| Config.DisabledRulesNeverBlock | src/config.rs:454-462 | with the whitelist off and the blacklist off or every blacklist rule disabled, nothing is blocked |
| Config.VendorRuleBlocks | src/config.rs:454-459 | a single enabled vendor rule blocks exactly the devices of that vendor, with its reason |
| Config.DefaultConfigProperties | src/config.rs:148-187 | the default configuration is valid, polls every 500 ms, has the blacklist on, the whitelist off, both lists empty, and blocks nothing |
| Config.AddRule | src/config.rs:388-401 | adding fails exactly when the list is disabled or already holds an equal rule; otherwise the rule is appended and the other list is untouched |
| Config.RemoveRule | src/config.rs:404-412 | removal fails exactly when the index is past the end; otherwise exactly that rule is removed and the rest keep their order |
| Config.AddThenRemoveRestores | src/config.rs:415-439 | removing the rule just added gives back the original configuration |
| Config.WithList | src/config.rs:388-439 | replacing one rule list leaves the other list as it was |
| Config.SetListEnabled | src/config.rs:466-475 | toggling one list sets its flag and changes neither list nor the other flag |
| Config.ParseKey | src/config.rs:280-323 | a key path is recognised exactly when it is the path of one of the nine settings |
| Config.KeyPathRoundTrip | src/config.rs:280-323 | the nine key paths are distinct and each parses back to its setting |
| Config.SetField | src/config.rs:281-320 | the poll interval accepts exactly `u64` text, flags accept exactly "true"/"false", the format and level accept only their listed values, and rules and filters are untouched |
| Config.SetValue | src/config.rs:321-322 | an unknown key path is rejected with "Unknown configuration key: " and the path |
| Config.GetValue | src/config.rs:331-346 | a value is returned exactly for the nine known key paths |
| Config.SetValueFrame | src/config.rs:277-346 | setting one key leaves every other key's value unchanged |
| Config.SetThenGet | src/config.rs:277-346 | reading a key just set gives the text written (the poll interval in canonical decimal), and writing it back changes nothing |
| Config.GetThenSet | src/config.rs:277-346 | on a valid configuration, writing back the value read for any key changes nothing |
| Config.Validate | src/config.rs:355-378 | a configuration is valid exactly when the interval is at least 100 ms and the format and level are among their listed values |
| Config.SetValuePreservesValidity | src/config.rs:277-378 | a successful set keeps a valid configuration valid unless it sets the poll interval below 100 ms |
| UsbMonitor.NewMonitor | src/usb_monitor.rs:95-108 | construction fails exactly when the USB context fails; otherwise the monitor is valid, with empty tables and logs and no filter or configuration |
| UsbMonitor.SetFilter | src/usb_monitor.rs:117-119 | only the filter changes |
| UsbMonitor.PassesFilterAsWritten | src/usb_monitor.rs:256-268 | as written: a device with a product must match the filter there; one with only a manufacturer always passes; one with neither is dropped |
| UsbMonitor.FilterDiscrepancy | src/usb_monitor.rs:262 | the code as written and the intended filter disagree exactly on devices with no product whose manufacturer does not contain the filter; the written one is never stricter |
| UsbMonitor.FilterDiscrepancyExample | src/usb_monitor.rs:261-264 | a device made by "Acme" with no product name passes the "Logitech" filter as written and fails the intended one |
| UsbMonitor.Readable | src/usb_monitor.rs:249-276 | the device list holds exactly the readable devices that pass the chosen filter (as written or intended) |
| UsbMonitor.ConnectedDevicesAsWritten | src/usb_monitor.rs:243-279 | as written: listing fails exactly when the bus fails, with the message "Failed to get device list"; otherwise a device is listed exactly when the bus read it and the filter as written passes it |
| UsbMonitor.ConnectedDevices | src/usb_monitor.rs:243-279 | the same listing with the intended filter: fails exactly when the bus fails, with the same message; otherwise a device is listed exactly when the bus read it and the intended filter passes it |
| UsbMonitor.ReadableAppend | src/usb_monitor.rs:249-275 | the listing of two runs of bus entries is the two listings concatenated, so bus order and repeats are kept |
| UsbMonitor.ReadableSingle | src/usb_monitor.rs:249-275 | one bus entry lists its device exactly when it was read and passes the filter, and nothing otherwise |
| UsbMonitor.ListingInBusOrder | src/usb_monitor.rs:243-279 | both listings split over a concatenated bus as the concatenation of the parts' listings, and a one-entry bus lists its device exactly when it was read and passes |
| UsbMonitor.ListingDiscrepancy | src/usb_monitor.rs:256-268 | the listing as written holds the intended listing plus exactly the read devices with a manufacturer, no product, and a manufacturer not containing the filter |
| UsbMonitor.BuildTable | src/usb_monitor.rs:305-309 | the current table has unique keys and files every device under its own identity key |
| UsbMonitor.BuildTableContents | src/usb_monitor.rs:305-309 | every listed device's key is in the table, and every table record came from the list |
| UsbMonitor.BuildTableLastWins | src/usb_monitor.rs:308 | a key maps to the last listed device with that key |
| UsbMonitor.SecurityEventFor | src/usb_monitor.rs:198-226 | the logged event is DeviceBlocked with action Blocked and the rule's reason exactly when the rules block; otherwise DeviceAllowed with "Device passed security checks" |
| UsbMonitor.CheckDeviceSecurity | src/usb_monitor.rs:195-239 | with a configuration the verdict is the rules' and exactly one event is appended to the capped log; without one nothing changes and the device is allowed |
| UsbMonitor.CheckAllLogs | src/usb_monitor.rs:328-332 | checking the new devices appends one event per device, in order, to the capped log and changes nothing else |
| UsbMonitor.Disconnect | src/usb_monitor.rs:315-317 | a departed record keeps its identity and contents, with status Disconnected and the poll's time |
| UsbMonitor.Departures | src/usb_monitor.rs:311-322 | a Disconnected change is produced for exactly the previous keys missing from the current table |
| UsbMonitor.DeparturesGet | src/usb_monitor.rs:313-321 | each departure is the previous record marked Disconnected |
| UsbMonitor.ArrivalsGet | src/usb_monitor.rs:328-362 | for each current key the arrival is Blocked or Connected when the key is new, Reconnected when the previous record is marked Disconnected, and absent otherwise |
| UsbMonitor.ArrivalsNeverReconnect | src/usb_monitor.rs:353-362 | against a previous table with no Disconnected record, no arrival is a reconnection |
| UsbMonitor.BatchPerKey | src/usb_monitor.rs:311-364 | a poll's batch holds at most one change per key, and it is exactly the per-key expected change |
| UsbMonitor.BatchDeparturesFirst | src/usb_monitor.rs:311-364 | every Disconnected change comes before every other change |
| UsbMonitor.Bump | src/usb_monitor.rs:415-434 | Connected and Reconnected add one to the connection total and the live count; Disconnected adds one to the disconnection total and lowers a positive live count by one, leaving zero at zero; Blocked adds one to the block total only; the live count never exceeds the connection total |
| UsbMonitor.FirstConnected | src/usb_monitor.rs:437-440 | the time found is that of the earliest Connected history entry for the key, and none is found exactly when there is none |
| UsbMonitor.Elapsed | src/usb_monitor.rs:441-443 | the duration is the time since the first connection, or zero if that lies in the future |
| UsbMonitor.UpdateStatistics | src/usb_monitor.rs:391-444 | one history entry is pushed; only this key's statistics change; its new record is the old one (or a fresh record stamped now) with the status's counter update, `last_seen` now, and `connection_duration` the time since the key's first Connected entry in the capped history, kept when there is none; the monitor stays valid |
| UsbMonitor.UpdateAllHistory | src/usb_monitor.rs:366-382 | after a series of updates the history is the newest 1000 of the old history followed by one entry per update in order |
| UsbMonitor.UpdateAllAppend | src/usb_monitor.rs:366-382 | running the departures', arrivals' and reconnections' updates one list after another is running their concatenation |
| UsbMonitor.UpdateAllTotals | src/usb_monitor.rs:415-434 | over a series of updates a key's connection total grows by exactly its Connected and Reconnected updates, its disconnection total by its Disconnected updates, its block total by its Blocked updates |
| UsbMonitor.MonitorChanges | src/usb_monitor.rs:300-388 | a poll fails exactly when the bus does; otherwise the current table becomes the previous one, the reported changes are the batch, and the monitor stays valid |
| UsbMonitor.MonitorChangesSteps | src/usb_monitor.rs:328-385 | a successful poll is the security checks of the new devices, then one run of the departures', arrivals' and reconnections' statistics updates in that order, then the table swap |
| UsbMonitor.MonitorChangesSecurityLog | src/usb_monitor.rs:328-332 | with a configuration a successful poll appends one security event per new device, in current-table order; without one the security log is untouched |
| UsbMonitor.MonitorChangesHistory | src/usb_monitor.rs:366-382 | a successful poll appends one history entry per departure, arrival and reconnection, in that order, keeping the newest 1000 |
| UsbMonitor.MonitorChangesTotals | src/usb_monitor.rs:366-382 | after a successful poll each key's connection, disconnection and block totals have grown by its updates of each kind |
| UsbMonitor.MonitorChangesPerKey | src/usb_monitor.rs:300-388 | per device key, a poll reports at most one change, exactly the expected one against the new previous table |
| UsbMonitor.ReplugIsNotReconnection | src/usb_monitor.rs:328-352 | a key missing from the previous table is always reported Connected or Blocked, never Reconnected |
| UsbMonitor.ReconnectedUnreachable | src/usb_monitor.rs:353-362 | while the previous table has no Disconnected record, no poll reports a reconnection, and a poll of a live snapshot keeps it that way |
| UsbMonitor.ReplayIsQuiet | src/usb_monitor.rs:385 | polling the same live snapshot again reports no changes |
| UsbMonitor.CountIsFloored | src/usb_monitor.rs:420-429 | a disconnection before any connection, then a connection, leaves a live count of one beside one disconnection on record |
| Analytics.DeviceStatisticsFor | src/usb_monitor.rs:122-124 | statistics are found exactly for keys in the table, and are that key's entry |
| Analytics.InfoFromKeyIsLookup | src/usb_monitor.rs:581-595 | on a valid monitor the fallback scan adds nothing: the result is the previous table's entry for the key |
| Analytics.FindByIdentity | src/usb_monitor.rs:588-592 | the scan finds a table record whose own key is the one asked for, or reports that none has it |
| Analytics.ConnectionHistoryOf | src/usb_monitor.rs:186-192 | a device's history holds exactly the (time, status) pairs of history entries for that key |
| Analytics.ConnectionHistorySingle | src/usb_monitor.rs:186-192 | one history entry contributes its (time, status) pair exactly when it is the device's |
| Analytics.ConnectionHistoryAppend | src/usb_monitor.rs:186-192 | the device history over two runs of the log is the two histories concatenated, keeping order and repeated entries |
| Analytics.ConnectedInSplit | src/usb_monitor.rs:163-169 | counting Connected entries over adjacent half-open windows adds up to the count over their union |
| Analytics.ConnectionFrequency | src/usb_monitor.rs:154-172 | the histogram has 24 buckets, the first starting one day before now and each one hour after the previous, the last ending at now, each counting the Connected entries in its half-open hour; together they count the Connected entries of the last day |
| Analytics.HourlyBucketsUnique | src/usb_monitor.rs:154-172 | the shape of the histogram (starts one hour apart from one day back, each counting its hour) fixes it completely |
| Analytics.BucketsCoverDay | src/usb_monitor.rs:154-172 | the counts of any such histogram add up to the number of Connected entries in the last 24 hours, and its last bucket ends at now |
| Analytics.TallyCounts | src/usb_monitor.rs:144-147 | the tally maps each value seen to the number of times it occurs, and has no entry for values never seen |
| Analytics.BlockedTotal | src/usb_monitor.rs:140-142 | the blocked total is zero exactly when no device was blocked, and is at least each device's block count |
| Analytics.GetDeviceAnalytics | src/usb_monitor.rs:132-183 | the returned buckets are the hourly histogram of the last day, and their counts add up to the Connected entries in it; violations equal the event-log length; devices seen equal the history length; unique devices equal the statistics keys; blocked devices are the sum of block counts |
| Analytics.Lookups | src/usb_monitor.rs:140-148 | the records gathered are exactly the previous-table records of the statistics keys that have one |
| Analytics.KnownDevicesAreLookups | src/usb_monitor.rs:140-148 | on a valid monitor the devices the analytics walk over are the previous-table records of the statistics keys, in statistics order |
| Analytics.AnalyticsCounts | src/usb_monitor.rs:140-148 | on a valid monitor unique devices equal the statistics entries, and the class distribution gives each class code (0 to 255) its number of known devices, and nothing else |
| Analytics.VendorCounts | src/usb_monitor.rs:140-148 | the vendor distribution gives each vendor id (0 to 65535) its number of known devices, and nothing else |
| Communication.NewHub | src/communication.rs:74-98 | a new hub has status Stopped, no cached devices, empty queues and both ends open |
| Communication.SendCommand | src/communication.rs:102-106 | sending succeeds exactly while the service end is open and appends the command to the queue, changing nothing else |
| Communication.HelpersEnqueue | src/communication.rs:133-155 | each hub helper enqueues exactly its own command |
| Communication.TryRecvEvent | src/communication.rs:109-115 | an event is returned exactly when one is queued, and it is the oldest |
| Communication.RecvCommand | src/communication.rs:199-201 | the oldest queued command is returned; the receive ends only when the queue is empty and the GUI end is closed |
| Communication.TryRecvCommand | src/communication.rs:204-206 | a command is returned exactly when one is queued, and it is the oldest |
| Communication.UpdateStatus | src/communication.rs:209-212 | only the cached status changes |
| Communication.Mirror | src/communication.rs:171-190 | device-list events replace the cached devices; started and stopped set Running and Stopped; the three error events set their prefixed error status; change events touch nothing |
| Communication.SendEvent | src/communication.rs:169-196 | the cache is updated first; the event is queued exactly once when the GUI end is open, and otherwise sending fails with a communication error |
| Communication.EventsFifo | src/communication.rs:193-195 | events sent in a row are received in the order sent |
| Communication.CommandsFifo | src/communication.rs:287-294 | commands sent in a row are received in the order sent |
| Communication.NewShutdownCoordinator | src/communication.rs:256-260 | the shutdown flag starts lowered |
| Communication.SignalShutdown | src/communication.rs:263-265 | signalling raises the flag |
| Communication.ShutdownMonotone | src/communication.rs:255-281 | after any series of signals and checks the flag is raised exactly when it was raised before or a signal occurred |
| MonitoringService.NewService | src/monitoring_service.rs:20-29 | a new service is not monitoring, has no monitor and no filter, and polls every 500 ms |
| MonitoringService.InitializeUsbMonitor | src/monitoring_service.rs:32-63 | initialisation succeeds exactly when permissions are fine and the USB context opens, installing a monitor with the service's filter; a permission failure emits PermissionError (another probe failure a "USB initialization failed: " error) and returns the probe's error; a context failure emits MonitoringError "Failed to initialize USB monitor: Failed to create USB context" and returns an initialisation failure with that text; when the GUI end is gone the send error is returned instead |
| MonitoringService.StartMonitoring | src/monitoring_service.rs:147-168 | starting while monitoring changes nothing; otherwise monitoring begins exactly when a monitor exists or can be initialised |
| MonitoringService.StartMonitoringEmits | src/monitoring_service.rs:160-165 | a successful start emits MonitoringStarted followed by the filtered device list, and the hub shows Running with that list |
| MonitoringService.StopMonitoring | src/monitoring_service.rs:171-181 | stopping when not monitoring changes nothing; otherwise the flag is cleared and exactly one MonitoringStopped is emitted |
| MonitoringService.RefreshDevices | src/monitoring_service.rs:184-205 | without a monitor an empty DevicesUpdated is emitted; with one, the filtered list is emitted, or, when the bus fails, MonitoringError "Failed to get device list: Failed to get device list" is emitted and a monitoring-failed error with that text returned (the send error when the GUI end is gone) |
| MonitoringService.SetFilter | src/monitoring_service.rs:208-218 | the filter is always stored; devices are refreshed only when a monitor exists |
| MonitoringService.SetPollingInterval | src/monitoring_service.rs:221-225 | only the interval changes |
| MonitoringService.EmitChangesInOrder | src/monitoring_service.rs:232-237 | one DeviceChanged event per change is emitted, in batch order |
| MonitoringService.PerformMonitoringCycle | src/monitoring_service.rs:228-256 | without a monitor nothing happens; a successful poll emits its changes; a failed one emits an error event and returns a monitoring-failed error |
| MonitoringService.BusFailureIsMonitoringError | src/monitoring_service.rs:239-250 | a bus failure is always reported as MonitoringError, never PermissionError |
| MonitoringService.HandleCommand | src/monitoring_service.rs:118-144 | Shutdown only raises the shutdown flag; no other command touches it |
| MonitoringService.LoopStep | src/monitoring_service.rs:79-108 | the loop ends exactly on the shutdown branch or when the command channel is closed, and a raised flag stays raised |
| MonitoringService.ShutdownSticky | src/monitoring_service.rs:78-109 | once the flag is raised it stays raised whatever the loop does next |
| MonitoringService.ShutdownLeaves | src/monitoring_service.rs:81-84 | with the flag raised the shutdown branch is enabled and leaves the loop with the service unchanged |
| MonitoringService.Run | src/monitoring_service.rs:66-115 | whenever the loop is left, monitoring is stopped and the service end is closed |
| MonitoringService.FinishStopsMonitoring | src/monitoring_service.rs:111-112 | leaving the loop while monitoring emits one MonitoringStopped and shows Stopped |
| MonitoringService.StartThenShutdown | src/monitoring_service.rs:66-144 | a StartMonitoring then Shutdown session emits MonitoringStarted, the device list and MonitoringStopped, in that order, and ends Stopped |
| Output.TruncateAsWritten | src/output.rs:577-583 | as written: text within the limit is returned whole; longer text is cut to `max_len - 3` bytes plus "...", which fails when the cut is not a character boundary |
| Output.TruncatePanicsMidCharacter | src/output.rs:581 | "ééé" cut to four bytes lands inside a character |
| Output.Truncate | src/output.rs:577-583 | text within the limit is returned whole; longer text is cut at a character boundary no later than `max_len - 3`, gets "...", and fits the limit when it is at least 3 |
| Output.TruncateAgreesWhereDefined | src/output.rs:578-581 | wherever the source returns, the corrected helper returns the same, exactly `max_len` bytes for `max_len >= 3` |
| Output.TruncateAscii | src/output.rs:581 | on ASCII text the helper as written does not panic, and it and the corrected one give the first `max_len - 3` bytes and "..." |
| Output.EscapeCsvField | src/output.rs:586-592 | a field is left alone exactly when it holds no comma, quote or line feed; otherwise it is quoted with its quotes doubled |
| Output.EscapeRoundTrip | src/output.rs:586-592 | reading an escaped field back gives the original field, and inside the quotes every quote is doubled |

## Left out

- libusb enumeration, descriptor and string reads (`get_device_info`, `get_string_descriptors`, `Context::devices`, `check_usb_permissions`): foreign I/O. The bus snapshot and the permission verdict are inputs.
- The tokio runtime: `select!` fairness, the interval timer, sleeps, spawned tasks and the recovery loop in `start_monitoring_service_with_recovery`. The loop is a schedule of enabled branch choices, and all effects are sequential.
- `MonitoringService.SetPollingInterval`: stores the interval only. The timer is built once, when `run` starts, and is never rebuilt, so the value has no effect on the loop.
- `Mutex`, the `broadcast` status channel and the atomic shutdown flag: concurrency internals. The cached status is a field; `try_recv_event` losing a lock race (returning `None` with events queued) is not modelled.
- `Utc::now` and `Duration`: time is a `nat` of seconds. `connection_duration`'s fallback to zero becomes saturating subtraction.
- `UsbMonitor.Bump`: the `u32` counters are unbounded; overflow after 2^32 updates is not modelled.
- `Analytics.GetDeviceAnalytics`: the `as u32` casts of the counts are not modelled.
- The order of `HashMap` iteration is unspecified. Tables are insertion-ordered lists, and properties are stated per key plus "departures first".
- `set_config_manager`: nothing in the program calls it. The monitor's configuration is an input that may be absent.
- `check_device_security_async` and `start_monitoring` on the monitor (the callback loop): not used by the service.
- `Text.Lower`: `to_lowercase` is modelled for ASCII letters only.
- UsbMonitor.ConnectedDevices: the poll (`UsbMonitor.MonitorChanges`) and the service's device listings (`MonitoringService.RefreshDevices`, `MonitoringService.StartMonitoringEmits`) are built on the intended filter, not the one the code runs. The code's listing is `UsbMonitor.ConnectedDevicesAsWritten`, and `UsbMonitor.ListingDiscrepancy` states exactly which extra devices it shows, so the poll as written sees those devices too.
- The display text of `rusb::Error` and of I/O and JSON errors is carried as a string: library text.
- Config file load/save, the default path and serde: I/O.
- `reset_to_defaults`: it installs `Config::default`, whose properties `Config.DefaultConfigProperties` states.
- The report assembly in output.rs (table, JSON, CSV writers, colours), the GUI, the system tray, the CLI and `main`: rendering and wiring.

## Findings

| source | as written | input that shows it | evidently intended | confidence | as-written member | corrected member |
|---|---|---|---|---|---|---|
| src/usb_monitor.rs:262 | the manufacturer branch tests whether the manufacturer contains itself, so a device with a manufacturer but no product string always passes the filter | filter "Logitech", a device with no product and manufacturer "Acme": shown | the manufacturer is tested against the filter text | high (not executed) | UsbMonitor.PassesFilterAsWritten, UsbMonitor.FilterDiscrepancyExample, UsbMonitor.ConnectedDevicesAsWritten | UsbMonitor.PassesFilter, UsbMonitor.FilterDiscrepancy, UsbMonitor.ListingDiscrepancy |
| src/output.rs:581 | `&s[..max_len - 3]` slices on bytes and panics when the cut falls inside a multi-byte character; latent, because the only callers (output.rs:408-409) pass a limit of 25 and names read as ASCII descriptor strings (usb_monitor.rs:540, 550), on which it never panics (`Output.TruncateAscii`) | "ééé" (six bytes) with `max_len` 4: the cut at byte 1 is inside "é" | the text is cut at the last character boundary that leaves room for "..." | high (not executed) | Output.TruncateAsWritten, Output.TruncatePanicsMidCharacter | Output.Truncate, Output.TruncateAgreesWhereDefined |

=== FILE: analytics.dfy ===
/** The read-only views of a monitor in src/usb_monitor.rs:
    `get_device_analytics`, `get_device_statistics`,
    `get_device_connection_history` and the key-to-record lookup they use. */
module Analytics {
  import opened Wrappers
  import opened Device
  import opened OrderedMap
  import opened UsbMonitor

  // ---------------------------------------------------------------------
  // Lookups
  // ---------------------------------------------------------------------

  /** `get_device_statistics`. */
  function DeviceStatisticsFor(m: Monitor, key: string): (r: Option<DeviceStatistics>)
    ensures r.None? <==> key !in Keys(m.statistics)
    ensures r.Some? ==> Entry(key, r.value) in m.statistics
  {
    Get(m.statistics, key)
  }

  /** The first previous record whose own identity renders as `key`. */
  function FindByIdentity(t: seq<Entry<string, UsbDeviceInfo>>, key: string): (r: Option<UsbDeviceInfo>)
    ensures r.Some? ==> DeviceKey(r.value) == key && exists e :: e in t && e.value == r.value
    ensures r.None? ==> forall i :: 0 <= i < |t| ==> DeviceKey(t[i].value) != key
    decreases |t|
  {
    if |t| == 0 then None
    else if DeviceKey(t[0].value) == key then Some(t[0].value)
    else
      var rest := FindByIdentity(t[1..], key);
      assert forall i :: 0 < i < |t| ==> t[i] == t[1..][i - 1];
      assert forall e :: e in t[1..] ==> e in t;
      rest
  }

  /** `get_device_info_from_key`: the previous table's entry for the key,
      else any previous record whose identity renders as the key. */
  function DeviceInfoFromKey(m: Monitor, key: string): Option<UsbDeviceInfo> {
    match Get(m.previous, key)
    case Some(d) => Some(d)
    case None => FindByIdentity(m.previous, key)
  }

  /** In a valid monitor the fallback scan never finds anything the direct
      lookup missed: the lookup is exactly the previous table's entry. */
  lemma InfoFromKeyIsLookup(m: Monitor, key: string)
    requires Valid(m)
    ensures DeviceInfoFromKey(m, key) == Get(m.previous, key)
  {
    if Get(m.previous, key).None? {
      KeysMember(m.previous, key);
    }
  }

  /** `get_device_connection_history`: the device's history entries in
      order, as (time, status) pairs. */
  function ConnectionHistoryOf(history: seq<HistoryEntry>, key: string): (r: seq<(nat, ConnectionStatus)>)
    ensures |r| <= |history|
    ensures forall p :: p in r <==> HistoryEntry(p.0, key, p.1) in history
    decreases |history|
  {
    if |history| == 0 then []
    else
      var rest := ConnectionHistoryOf(history[1..], key);
      assert forall h :: h in history <==> h == history[0] || h in history[1..];
      if history[0].key == key then [(history[0].time, history[0].status)] + rest else rest
  }

  /** One history entry contributes its (time, status) pair exactly when
      it belongs to the device. */
  lemma ConnectionHistorySingle(e: HistoryEntry, key: string)
    ensures ConnectionHistoryOf([e], key) == if e.key == key then [(e.time, e.status)] else []
  {
    assert [e][1..] == [];
  }

  /** The history of a device over two runs of the log is the history over
      each, concatenated: the source's in-order filter keeps order and
      repeated entries. */
  lemma {:induction false} ConnectionHistoryAppend(x: seq<HistoryEntry>, y: seq<HistoryEntry>, key: string)
    ensures ConnectionHistoryOf(x + y, key) == ConnectionHistoryOf(x, key) + ConnectionHistoryOf(y, key)
    decreases |x|
  {
    if |x| == 0 {
      assert x + y == y;
    } else {
      assert (x + y)[0] == x[0];
      assert (x + y)[1..] == x[1..] + y;
      ConnectionHistoryAppend(x[1..], y, key);
    }
  }

  // ---------------------------------------------------------------------
  // Connection frequency
  // ---------------------------------------------------------------------

  /** Seconds per bucket and buckets per day. */
  const HourSeconds: nat := 3600
  const BucketCount: nat := 24
  const DaySeconds: nat := 86400

  /** The number of Connected history entries with `lo <= time < hi`. Its
      bound is a side fact; how windows add up is `ConnectedInSplit`. */
  function ConnectedIn(history: seq<HistoryEntry>, lo: int, hi: int): (n: nat)
    ensures n <= |history|
    decreases |history|
  {
    if |history| == 0 then 0
    else
      var h := history[0];
      (if h.status == Connected && lo <= h.time < hi then 1 else 0) + ConnectedIn(history[1..], lo, hi)
  }

  /** Adjacent half-open windows count every entry exactly once. */
  lemma {:induction false} ConnectedInSplit(history: seq<HistoryEntry>, a: int, b: int, c: int)
    requires a <= b <= c
    ensures ConnectedIn(history, a, b) + ConnectedIn(history, b, c) == ConnectedIn(history, a, c)
    decreases |history|
  {
    if |history| > 0 {
      ConnectedInSplit(history[1..], a, b, c);
    }
  }

  /** An empty window counts nothing. */
  lemma {:induction false} ConnectedInEmpty(history: seq<HistoryEntry>, a: int)
    ensures ConnectedIn(history, a, a) == 0
    decreases |history|
  {
    if |history| > 0 {
      ConnectedInEmpty(history[1..], a);
    }
  }

  /** The start of bucket `h`: `h` hours after the moment one day before
      `now`. */
  function BucketStart(now: nat, h: nat): int {
    now - DaySeconds + h * HourSeconds
  }

  /** `b` is a valid hourly histogram of the last day: 24 buckets, the
      first starting one day before `now`, each starting one hour after the
      previous one, each holding its start and the number of connections
      recorded in its half-open hour. */
  predicate HourlyBuckets(history: seq<HistoryEntry>, now: nat, b: seq<(int, nat)>) {
    && |b| == BucketCount
    && b[0].0 == now - DaySeconds
    && (forall h :: 0 < h < BucketCount ==> b[h].0 == b[h - 1].0 + HourSeconds)
    && (forall h :: 0 <= h < BucketCount ==> b[h].1 == ConnectedIn(history, b[h].0, b[h].0 + HourSeconds))
  }

  /** In an hourly histogram bucket `h` starts `h` hours after the first. */
  lemma {:induction false} BucketOffset(history: seq<HistoryEntry>, now: nat, b: seq<(int, nat)>, h: nat)
    requires HourlyBuckets(history, now, b) && h < BucketCount
    ensures b[h].0 == BucketStart(now, h)
  {
    if h > 0 {
      BucketOffset(history, now, b, h - 1);
    }
  }

  /** There is only one hourly histogram of a history at a given time. */
  lemma HourlyBucketsUnique(history: seq<HistoryEntry>, now: nat, a: seq<(int, nat)>, b: seq<(int, nat)>)
    requires HourlyBuckets(history, now, a) && HourlyBuckets(history, now, b)
    ensures a == b
  {
    forall h | 0 <= h < BucketCount ensures a[h] == b[h] {
      BucketOffset(history, now, a, h);
      BucketOffset(history, now, b, h);
    }
  }

  /** `get_device_analytics`' hourly histogram; the last bucket ends at
      `now`, and the buckets together count the connections of the last
      day. */
  function ConnectionFrequency(history: seq<HistoryEntry>, now: nat): (r: seq<(int, nat)>)
    ensures HourlyBuckets(history, now, r)
    ensures r[BucketCount - 1].0 + HourSeconds == now
    ensures BucketTotal(r, BucketCount) == ConnectedIn(history, now - DaySeconds, now)
  {
    var r := seq(BucketCount, h requires 0 <= h < BucketCount =>
      (BucketStart(now, h), ConnectedIn(history, BucketStart(now, h), BucketStart(now, h) + HourSeconds)));
    BucketsCoverDay(history, now, r);
    r
  }

  /** The total of the first `n` buckets. */
  function BucketTotal(buckets: seq<(int, nat)>, n: nat): nat
    requires n <= |buckets|
  {
    if n == 0 then 0 else BucketTotal(buckets, n - 1) + buckets[n - 1].1
  }

  /** The first `n` buckets together count exactly the connections in the
      first `n` hours of the day. */
  lemma {:induction false} BucketsCoverPrefix(history: seq<HistoryEntry>, now: nat, b: seq<(int, nat)>, n: nat)
    requires HourlyBuckets(history, now, b) && n <= BucketCount
    ensures BucketTotal(b, n) == ConnectedIn(history, BucketStart(now, 0), BucketStart(now, n))
  {
    if n == 0 {
      ConnectedInEmpty(history, BucketStart(now, 0));
    } else {
      BucketsCoverPrefix(history, now, b, n - 1);
      BucketOffset(history, now, b, n - 1);
      assert BucketStart(now, n - 1) + HourSeconds == BucketStart(now, n);
      ConnectedInSplit(history, BucketStart(now, 0), BucketStart(now, n - 1), BucketStart(now, n));
    }
  }

  /** The buckets partition the last day: their counts add up to the
      number of connections recorded in `[now - 24 h, now)`. Entries at or
      after `now` are in no bucket. */
  lemma BucketsCoverDay(history: seq<HistoryEntry>, now: nat, b: seq<(int, nat)>)
    requires HourlyBuckets(history, now, b)
    ensures BucketTotal(b, BucketCount) == ConnectedIn(history, now - DaySeconds, now)
    ensures b[BucketCount - 1].0 + HourSeconds == now
  {
    BucketsCoverPrefix(history, now, b, BucketCount);
    BucketOffset(history, now, b, BucketCount - 1);
  }

  // ---------------------------------------------------------------------
  // Distributions and totals
  // ---------------------------------------------------------------------

  /** The count a tally holds for `x` (zero when absent). */
  function CountOf(t: seq<Entry<int, nat>>, x: int): nat {
    match Get(t, x) case None => 0 case Some(c) => c
  }

  /** Count the values `xs` into the tally `t`, one at a time and in order:
      a value seen before has its count raised by one, a new value is
      appended with count one (`*entry(v).or_insert(0) += 1`). */
  function TallyInto(t: seq<Entry<int, nat>>, xs: seq<int>): seq<Entry<int, nat>>
    decreases |xs|
  {
    if |xs| == 0 then t
    else TallyInto(Put(t, xs[0], CountOf(t, xs[0]) + 1), xs[1..])
  }

  /** How many times each value occurs, as a table. */
  function Tally(xs: seq<int>): (r: seq<Entry<int, nat>>)
    ensures UniqueKeys(r)
  {
    TallyIntoUnique([], xs);
    TallyInto([], xs)
  }

  /** Counting keeps the keys unique. */
  lemma {:induction false} TallyIntoUnique(t: seq<Entry<int, nat>>, xs: seq<int>)
    requires UniqueKeys(t)
    ensures UniqueKeys(TallyInto(t, xs))
    decreases |xs|
  {
    if |xs| > 0 {
      TallyIntoUnique(Put(t, xs[0], CountOf(t, xs[0]) + 1), xs[1..]);
    }
  }

  /** Counting `xs` into `t` adds each value's multiplicity to its count;
      a value is absent afterwards exactly when it was absent before and
      does not occur in `xs`. */
  lemma {:induction false} TallyIntoCounts(t: seq<Entry<int, nat>>, xs: seq<int>, y: int)
    ensures CountOf(TallyInto(t, xs), y) == CountOf(t, y) + multiset(xs)[y]
    ensures Get(TallyInto(t, xs), y).None? <==> Get(t, y).None? && multiset(xs)[y] == 0
    decreases |xs|
  {
    if |xs| > 0 {
      TallyIntoCounts(Put(t, xs[0], CountOf(t, xs[0]) + 1), xs[1..], y);
      TallyStep(t, xs[0], y);
      MultisetHead(xs, y);
    }
  }

  /** One counting step: only `x`'s count rises, by one, and only `x`
      can become present. */
  lemma TallyStep(t: seq<Entry<int, nat>>, x: int, y: int)
    ensures CountOf(Put(t, x, CountOf(t, x) + 1), y) == CountOf(t, y) + (if x == y then 1 else 0)
    ensures Get(Put(t, x, CountOf(t, x) + 1), y).None? <==> Get(t, y).None? && x != y
  {
    PutGet(t, x, CountOf(t, x) + 1, y);
  }

  /** The multiplicity of `y` in a sequence, split at its head. */
  lemma MultisetHead(xs: seq<int>, y: int)
    requires |xs| > 0
    ensures multiset(xs)[y] == multiset(xs[1..])[y] + (if xs[0] == y then 1 else 0)
  {
    assert xs == [xs[0]] + xs[1..];
  }

  /** A value's count in the tally is its multiplicity, and values that do
      not occur are absent. */
  lemma TallyCounts(xs: seq<int>, y: int)
    ensures Get(Tally(xs), y) == if y in multiset(xs) then Some(multiset(xs)[y]) else None
  {
    TallyIntoCounts([], xs, y);
  }

  /** The records found for the statistics keys, in statistics order. Its
      bound is a side fact; what it finds is `KnownDevicesAreLookups`. */
  function KnownDevices(m: Monitor, stats: seq<Entry<string, DeviceStatistics>>): (r: seq<UsbDeviceInfo>)
    ensures |r| <= |stats|
    decreases |stats|
  {
    if |stats| == 0 then []
    else
      var rest := KnownDevices(m, stats[1..]);
      match DeviceInfoFromKey(m, stats[0].key)
      case None => rest
      case Some(d) => [d] + rest
  }

  /** The previous-table records of the statistics keys that have one, in
      statistics order. */
  function Lookups(prev: seq<Entry<string, UsbDeviceInfo>>, stats: seq<Entry<string, DeviceStatistics>>)
    : (r: seq<UsbDeviceInfo>)
    ensures |r| <= |stats|
    ensures forall d :: d in r <==> exists i :: 0 <= i < |stats| && Get(prev, stats[i].key) == Some(d)
    decreases |stats|
  {
    if |stats| == 0 then []
    else
      var rest := Lookups(prev, stats[1..]);
      assert forall i :: 0 < i < |stats| ==> stats[i] == stats[1..][i - 1];
      assert forall i :: 0 <= i < |stats| - 1 ==> stats[1..][i] == stats[i + 1];
      match Get(prev, stats[0].key)
      case None => rest
      case Some(d) => [d] + rest
  }

  /** In a valid monitor the known devices are exactly the previous
      table's records of the statistics keys, in statistics order: the
      fallback identity scan adds nothing. */
  lemma {:induction false} KnownDevicesAreLookups(m: Monitor, stats: seq<Entry<string, DeviceStatistics>>)
    requires Valid(m)
    ensures KnownDevices(m, stats) == Lookups(m.previous, stats)
    decreases |stats|
  {
    if |stats| > 0 {
      InfoFromKeyIsLookup(m, stats[0].key);
      KnownDevicesAreLookups(m, stats[1..]);
    }
  }

  function Classes(devs: seq<UsbDeviceInfo>): (r: seq<int>)
    ensures |r| == |devs| && forall i :: 0 <= i < |devs| ==> r[i] == devs[i].deviceClass
  {
    seq(|devs|, i requires 0 <= i < |devs| => devs[i].deviceClass as int)
  }

  function Vendors(devs: seq<UsbDeviceInfo>): (r: seq<int>)
    ensures |r| == |devs| && forall i :: 0 <= i < |devs| ==> r[i] == devs[i].vendorId
  {
    seq(|devs|, i requires 0 <= i < |devs| => devs[i].vendorId as int)
  }

  /** The sum of `total_blocked` over the statistics. */
  function BlockedTotal(stats: seq<Entry<string, DeviceStatistics>>): (n: nat)
    ensures n == 0 <==> forall i :: 0 <= i < |stats| ==> stats[i].value.totalBlocked == 0
    ensures forall i :: 0 <= i < |stats| ==> stats[i].value.totalBlocked <= n
    decreases |stats|
  {
    if |stats| == 0 then 0
    else
      var rest := BlockedTotal(stats[1..]);
      assert forall i :: 0 < i < |stats| ==> stats[i] == stats[1..][i - 1];
      stats[0].value.totalBlocked + rest
  }

  datatype DeviceAnalytics = DeviceAnalytics(
    deviceClassDistribution: seq<Entry<int, nat>>,
    vendorDistribution: seq<Entry<int, nat>>,
    connectionFrequency: seq<(int, nat)>,
    totalDevicesSeen: nat,
    uniqueDevices: nat,
    blockedDevices: nat,
    securityViolations: nat)

  /** `get_device_analytics`. */
  function GetDeviceAnalytics(m: Monitor, now: nat): (r: DeviceAnalytics)
    ensures HourlyBuckets(m.history, now, r.connectionFrequency)
    ensures BucketTotal(r.connectionFrequency, BucketCount) == ConnectedIn(m.history, now - DaySeconds, now)
    ensures r.securityViolations == |m.securityEvents|
    ensures r.totalDevicesSeen == |m.history|
    ensures r.uniqueDevices == |Keys(m.statistics)|
    ensures r.blockedDevices == BlockedTotal(m.statistics)
  {
    var devs := KnownDevices(m, m.statistics);
    var classes := Classes(devs);
    DeviceAnalytics(
      Tally(classes),
      Tally(Vendors(devs)),
      ConnectionFrequency(m.history, now),
      |m.history|,
      |Keys(m.statistics)|,
      BlockedTotal(m.statistics),
      |m.securityEvents|)
  }

  /** In a valid monitor, the unique-device count is the number of
      statistics records, and every count in the class distribution is the
      number of known devices of that class; only class codes `0..=255`
      appear. */
  lemma AnalyticsCounts(m: Monitor, now: nat, c: int)
    requires Valid(m)
    ensures GetDeviceAnalytics(m, now).uniqueDevices == |m.statistics|
    ensures Get(GetDeviceAnalytics(m, now).deviceClassDistribution, c).Some? ==> 0 <= c < 0x100
    ensures var classes := Classes(KnownDevices(m, m.statistics));
      Get(GetDeviceAnalytics(m, now).deviceClassDistribution, c)
        == if c in multiset(classes) then Some(multiset(classes)[c]) else None
  {
    KeyCount(m.statistics);
    TallyCounts(Classes(KnownDevices(m, m.statistics)), c);
  }

  /** Every count in the vendor distribution is the number of known
      devices of that vendor; only ids `0..=65535` appear. */
  lemma VendorCounts(m: Monitor, now: nat, v: int)
    ensures Get(GetDeviceAnalytics(m, now).vendorDistribution, v).Some? ==> 0 <= v < 0x1_0000
    ensures var vendors := Vendors(KnownDevices(m, m.statistics));
      Get(GetDeviceAnalytics(m, now).vendorDistribution, v)
        == if v in multiset(vendors) then Some(multiset(vendors)[v]) else None
  {
    TallyCounts(Vendors(KnownDevices(m, m.statistics)), v);
  }
}

=== FILE: bounded_log.dfy ===
/** The capped logs of src/usb_monitor.rs: the connection history and the
    security-event log each keep at most 1000 entries, dropping the oldest
    (index 0) when a push makes them overflow. */
module BoundedLog {

  /** The cap on both logs. */
  const MaxEntries: nat := 1000

  /** The newest `n` entries of `s` (all of `s` when it is shorter). */
  function Newest<T>(s: seq<T>, n: nat): (r: seq<T>)
    ensures |r| == if |s| < n then |s| else n
  {
    if |s| <= n then s else s[|s| - n..]
  }

  /** Append `x`, then drop the oldest entry if the log has grown past the
      cap. A log within the cap stays within it and keeps exactly its newest
      entries, `x` last. */
  function Push<T>(log: seq<T>, x: T): (r: seq<T>)
    ensures |r| > 0 && r[|r| - 1] == x
    ensures |log| <= MaxEntries ==> r == Newest(log + [x], MaxEntries)
    ensures |log| <= MaxEntries ==> |r| <= MaxEntries
  {
    var s := log + [x];
    if |s| > MaxEntries then s[1..] else s
  }

  /** Push each of `xs` in order. */
  function PushAll<T>(log: seq<T>, xs: seq<T>): seq<T>
    decreases |xs|
  {
    if |xs| == 0 then log else PushAll(Push(log, xs[0]), xs[1..])
  }

  /** Keeping the newest `n` entries, then appending, then keeping the
      newest `n` again is the same as appending and keeping the newest `n`. */
  lemma NewestAbsorbs<T>(a: seq<T>, b: seq<T>, n: nat)
    ensures Newest(Newest(a, n) + b, n) == Newest(a + b, n)
  {
    var a' := Newest(a, n);
    assert a' == a[|a| - |a'|..];
    assert a' + b == (a + b)[|a| - |a'|..];
  }

  /** Pushing one entry and then keeping the newest entries of what follows
      is keeping the newest entries of the whole. */
  lemma PushThenNewest<T>(log: seq<T>, x: T, rest: seq<T>)
    requires |log| <= MaxEntries
    ensures Newest(Push(log, x) + rest, MaxEntries) == Newest(log + ([x] + rest), MaxEntries)
  {
    NewestAbsorbs(log + [x], rest, MaxEntries);
    assert log + [x] + rest == log + ([x] + rest);
  }

  /** FIFO eviction: however many entries are pushed, a log within the cap
      ends up holding exactly the newest `MaxEntries` of everything it has
      held, in arrival order. */
  lemma {:induction false} PushAllKeepsNewest<T>(log: seq<T>, xs: seq<T>)
    requires |log| <= MaxEntries
    ensures PushAll(log, xs) == Newest(log + xs, MaxEntries)
    ensures |PushAll(log, xs)| <= MaxEntries
    decreases |xs|
  {
    if |xs| > 0 {
      PushAllKeepsNewest(Push(log, xs[0]), xs[1..]);
      PushThenNewest(log, xs[0], xs[1..]);
      assert [xs[0]] + xs[1..] == xs;
    }
  }
}

=== FILE: communication.dfy ===
/** The channels between the GUI and the monitoring service
    (src/communication.rs), modelled sequentially: the command queue
    (GUI to service), the event queue (service to GUI), the status and
    device list the service mirrors for the GUI, and the shutdown flag.

    A channel send fails only when the other end has been dropped; the two
    liveness flags stand for "the service still holds its receiver" and
    "the GUI still holds its hub". */
module Communication {
  import opened Wrappers
  import opened Device
  import Errors

  datatype MonitorCommand =
    | StartMonitoring
    | StopMonitoring
    | RefreshDevices
    | SetFilter(filter: Option<string>)
    | SetPollingInterval(millis: nat)
    | Shutdown

  datatype MonitorEvent =
    | DevicesLoaded(devices: seq<UsbDeviceInfo>)
    | DevicesUpdated(devices: seq<UsbDeviceInfo>)
    | DeviceChanged(change: UsbDeviceChange)
    | DevicesChanged(changes: seq<UsbDeviceChange>)
    | MonitoringStarted
    | MonitoringStopped
    | MonitoringError(msg: string)
    | PermissionError(msg: string)
    | UsbUnavailable(msg: string)

  datatype MonitoringStatus = Stopped | Starting | Running | Stopping | Error(msg: string)

  /** Both halves of `CommunicationHub::new` in one record: the queued
      commands and events (oldest first), the mirrored status and device
      list, and which ends are still alive. */
  datatype Hub = Hub(
    commands: seq<MonitorCommand>,
    events: seq<MonitorEvent>,
    status: MonitoringStatus,
    devices: seq<UsbDeviceInfo>,
    serviceAlive: bool,
    guiAlive: bool)

  /** `CommunicationHub::new`. */
  function NewHub(): (h: Hub)
    ensures h.status == Stopped && h.devices == []
    ensures h.commands == [] && h.events == []
    ensures h.serviceAlive && h.guiAlive
  {
    Hub([], [], Stopped, [], true, true)
  }

  // ---------------------------------------------------------------------
  // GUI side
  // ---------------------------------------------------------------------

  const CommandSendFailure: string := "Failed to send command to monitoring thread"
  const EventSendFailure: string := "Failed to send event to GUI thread"

  /** `send_command`: enqueue at the back, or fail once the service has
      dropped its receiver. */
  function SendCommand(h: Hub, c: MonitorCommand): (r: Result<Hub, Errors.IronWatchError>)
    ensures r.Ok? <==> h.serviceAlive
    ensures r.Err? ==> r.error == Errors.GuiCommunicationError(CommandSendFailure)
    ensures r.Ok? ==> r.value.commands == h.commands + [c]
    ensures r.Ok? ==> r.value.(commands := h.commands) == h
  {
    if h.serviceAlive then Ok(h.(commands := h.commands + [c]))
    else Err(Errors.GuiCommunicationError(CommandSendFailure))
  }

  /** The hub's helpers (`start_monitoring`, `stop_monitoring`,
      `refresh_devices`, `set_filter`, `shutdown`): each sends its command. */
  function HubStartMonitoring(h: Hub): Result<Hub, Errors.IronWatchError> { SendCommand(h, StartMonitoring) }
  function HubStopMonitoring(h: Hub): Result<Hub, Errors.IronWatchError> { SendCommand(h, StopMonitoring) }
  function HubRefreshDevices(h: Hub): Result<Hub, Errors.IronWatchError> { SendCommand(h, RefreshDevices) }
  function HubSetFilter(h: Hub, filter: Option<string>): Result<Hub, Errors.IronWatchError> { SendCommand(h, SetFilter(filter)) }
  function HubShutdown(h: Hub): Result<Hub, Errors.IronWatchError> { SendCommand(h, Shutdown) }

  /** Each helper enqueues exactly its own command at the back of the
      queue. */
  lemma HelpersEnqueue(h: Hub, filter: Option<string>)
    requires h.serviceAlive
    ensures HubStartMonitoring(h).value.commands == h.commands + [StartMonitoring]
    ensures HubStopMonitoring(h).value.commands == h.commands + [StopMonitoring]
    ensures HubRefreshDevices(h).value.commands == h.commands + [RefreshDevices]
    ensures HubSetFilter(h, filter).value.commands == h.commands + [SetFilter(filter)]
    ensures HubShutdown(h).value.commands == h.commands + [Shutdown]
  {
  }

  /** `try_recv_event`: the oldest queued event, if any. (The GUI-side lock
      that can make this return nothing under contention is not modelled.) */
  function TryRecvEvent(h: Hub): (r: (Option<MonitorEvent>, Hub))
    ensures r.0.None? <==> h.events == []
    ensures r.0.Some? ==> h.events == [r.0.value] + r.1.events
    ensures r.1.(events := h.events) == h
  {
    if h.events == [] then (None, h)
    else (Some(h.events[0]), h.(events := h.events[1..]))
  }

  // ---------------------------------------------------------------------
  // Service side
  // ---------------------------------------------------------------------

  /** The result of `recv_command`: a command, the end of the channel (the
      queue is empty and every sender is gone), or nothing yet (the call
      would wait). */
  datatype Received = Got(command: MonitorCommand, hub: Hub) | Closed | Pending

  /** `recv_command`: queued commands are delivered even after the GUI has
      gone; only an empty queue with no sender left reports the end. */
  function RecvCommand(h: Hub): (r: Received)
    ensures r.Got? <==> h.commands != []
    ensures r.Closed? <==> h.commands == [] && !h.guiAlive
    ensures r.Got? ==> h.commands == [r.command] + r.hub.commands && r.hub.(commands := h.commands) == h
  {
    if h.commands != [] then Got(h.commands[0], h.(commands := h.commands[1..]))
    else if !h.guiAlive then Closed
    else Pending
  }

  /** `try_recv_command`: the oldest queued command, if any. */
  function TryRecvCommand(h: Hub): (r: (Option<MonitorCommand>, Hub))
    ensures r.0.None? <==> h.commands == []
    ensures r.0.Some? ==> h.commands == [r.0.value] + r.1.commands
    ensures r.1.(commands := h.commands) == h
  {
    if h.commands == [] then (None, h)
    else (Some(h.commands[0]), h.(commands := h.commands[1..]))
  }

  /** `update_status`: the mirrored status becomes `s`. */
  function UpdateStatus(h: Hub, s: MonitoringStatus): (r: Hub)
    ensures r.status == s
    ensures r.(status := h.status) == h
  {
    h.(status := s)
  }

  /** The mirror update `send_event` performs before sending. */
  function Mirror(h: Hub, e: MonitorEvent): (r: Hub)
    ensures r.commands == h.commands && r.events == h.events
    ensures r.serviceAlive == h.serviceAlive && r.guiAlive == h.guiAlive
    ensures e.DevicesLoaded? || e.DevicesUpdated? ==> r.devices == e.devices && r.status == h.status
    ensures e == MonitoringStarted ==> r.status == Running && r.devices == h.devices
    ensures e == MonitoringStopped ==> r.status == Stopped && r.devices == h.devices
    ensures e.MonitoringError? ==> r.status == Error(e.msg) && r.devices == h.devices
    ensures e.PermissionError? ==> r.status == Error("Permission: " + e.msg) && r.devices == h.devices
    ensures e.UsbUnavailable? ==> r.status == Error("USB Unavailable: " + e.msg) && r.devices == h.devices
    ensures e.DeviceChanged? || e.DevicesChanged? ==> r == h
  {
    match e
    case DevicesLoaded(ds) => h.(devices := ds)
    case DevicesUpdated(ds) => h.(devices := ds)
    case MonitoringStarted => UpdateStatus(h, Running)
    case MonitoringStopped => UpdateStatus(h, Stopped)
    case MonitoringError(msg) => UpdateStatus(h, Error(msg))
    case PermissionError(msg) => UpdateStatus(h, Error("Permission: " + msg))
    case UsbUnavailable(msg) => UpdateStatus(h, Error("USB Unavailable: " + msg))
    case DeviceChanged(_) => h
    case DevicesChanged(_) => h
  }

  /** `send_event`: update the mirror, then enqueue the event. When the GUI
      has gone the send fails, but the mirror has already been updated. */
  function SendEvent(h: Hub, e: MonitorEvent): (r: (Hub, Result<Unit, Errors.IronWatchError>))
    ensures r.1.Ok? <==> h.guiAlive
    ensures r.1.Err? ==> r.1.error == Errors.GuiCommunicationError(EventSendFailure)
    ensures r.0.events == if h.guiAlive then h.events + [e] else h.events
    ensures r.0.(events := h.events) == Mirror(h, e)
  {
    var h' := Mirror(h, e);
    if h.guiAlive then (h'.(events := h'.events + [e]), Ok(Unit))
    else (h', Err(Errors.GuiCommunicationError(EventSendFailure)))
  }

  /** The receiver's helpers: each sends its own event. */
  function SendMonitoringStarted(h: Hub): (Hub, Result<Unit, Errors.IronWatchError>) { SendEvent(h, MonitoringStarted) }
  function SendMonitoringStopped(h: Hub): (Hub, Result<Unit, Errors.IronWatchError>) { SendEvent(h, MonitoringStopped) }
  function SendError(h: Hub, msg: string): (Hub, Result<Unit, Errors.IronWatchError>) { SendEvent(h, MonitoringError(msg)) }
  function SendPermissionError(h: Hub, msg: string): (Hub, Result<Unit, Errors.IronWatchError>) { SendEvent(h, PermissionError(msg)) }
  function SendDevicesLoaded(h: Hub, ds: seq<UsbDeviceInfo>): (Hub, Result<Unit, Errors.IronWatchError>) { SendEvent(h, DevicesLoaded(ds)) }
  function SendDevicesUpdated(h: Hub, ds: seq<UsbDeviceInfo>): (Hub, Result<Unit, Errors.IronWatchError>) { SendEvent(h, DevicesUpdated(ds)) }
  function SendDeviceChange(h: Hub, c: UsbDeviceChange): (Hub, Result<Unit, Errors.IronWatchError>) { SendEvent(h, DeviceChanged(c)) }

  // ---------------------------------------------------------------------
  // FIFO order
  // ---------------------------------------------------------------------

  /** Send events in order while the GUI is alive. */
  function SendEvents(h: Hub, es: seq<MonitorEvent>): Hub
    decreases |es|
  {
    if |es| == 0 then h else SendEvents(SendEvent(h, es[0]).0, es[1..])
  }

  /** Drain the event queue, oldest first. */
  function DrainEvents(h: Hub): (r: seq<MonitorEvent>)
    decreases |h.events|
  {
    match TryRecvEvent(h)
    case (None, _) => []
    case (Some(e), h') => [e] + DrainEvents(h')
  }

  /** Draining yields exactly the queued events in queue order. */
  lemma {:induction false} DrainIsQueue(h: Hub)
    ensures DrainEvents(h) == h.events
    decreases |h.events|
  {
    if h.events != [] {
      DrainIsQueue(TryRecvEvent(h).1);
    }
  }

  /** Events reach the GUI in send order, behind those already queued, and
      the sends leave the queue liveness unchanged. */
  lemma EventsFifo(h: Hub, es: seq<MonitorEvent>)
    requires h.guiAlive
    ensures SendEvents(h, es).events == h.events + es
    ensures DrainEvents(SendEvents(h, es)) == h.events + es
    ensures SendEvents(h, es).guiAlive && SendEvents(h, es).commands == h.commands
  {
    SendEventsQueue(h, es);
    DrainIsQueue(SendEvents(h, es));
  }

  /** Sending while the GUI is alive appends to the event queue and leaves
      the command queue and both liveness flags as they were. */
  lemma {:induction false} SendEventsQueue(h: Hub, es: seq<MonitorEvent>)
    requires h.guiAlive
    ensures SendEvents(h, es).events == h.events + es
    ensures SendEvents(h, es).guiAlive && SendEvents(h, es).commands == h.commands
    decreases |es|
  {
    if |es| > 0 {
      SendEventsQueue(SendEvent(h, es[0]).0, es[1..]);
      assert h.events + [es[0]] + es[1..] == h.events + es;
    } else {
      assert h.events + es == h.events;
    }
  }

  /** Send commands in order while the service is alive. */
  function SendCommands(h: Hub, cs: seq<MonitorCommand>): Result<Hub, Errors.IronWatchError>
    decreases |cs|
  {
    if |cs| == 0 then Ok(h)
    else match SendCommand(h, cs[0])
      case Err(e) => Err(e)
      case Ok(h') => SendCommands(h', cs[1..])
  }

  /** Drain the command queue, oldest first. */
  function DrainCommands(h: Hub): seq<MonitorCommand>
    decreases |h.commands|
  {
    match TryRecvCommand(h)
    case (None, _) => []
    case (Some(c), h') => [c] + DrainCommands(h')
  }

  /** Commands reach the service in send order, behind those already
      queued. */
  lemma {:induction false} CommandsFifo(h: Hub, cs: seq<MonitorCommand>)
    requires h.serviceAlive
    ensures SendCommands(h, cs).Ok?
    ensures DrainCommands(SendCommands(h, cs).value) == h.commands + cs
    decreases |cs|
  {
    if |cs| > 0 {
      CommandsFifo(SendCommand(h, cs[0]).value, cs[1..]);
      assert h.commands + [cs[0]] + cs[1..] == h.commands + cs;
    } else {
      DrainCommandsIsQueue(h);
    }
  }

  lemma {:induction false} DrainCommandsIsQueue(h: Hub)
    ensures DrainCommands(h) == h.commands
    decreases |h.commands|
  {
    if h.commands != [] {
      DrainCommandsIsQueue(TryRecvCommand(h).1);
    }
  }

  // ---------------------------------------------------------------------
  // Shutdown flag
  // ---------------------------------------------------------------------

  /** `ShutdownCoordinator`: a flag that can only be raised. */
  datatype ShutdownCoordinator = ShutdownCoordinator(signaled: bool)

  function NewShutdownCoordinator(): (c: ShutdownCoordinator)
    ensures !c.signaled
  {
    ShutdownCoordinator(false)
  }

  function SignalShutdown(c: ShutdownCoordinator): (r: ShutdownCoordinator)
    ensures r.signaled
  {
    ShutdownCoordinator(true)
  }

  /** The operations on the coordinator: raising it, or querying it. */
  datatype ShutdownOp = Signal | Query

  function ApplyShutdownOps(c: ShutdownCoordinator, ops: seq<ShutdownOp>): ShutdownCoordinator
    decreases |ops|
  {
    if |ops| == 0 then c
    else ApplyShutdownOps(if ops[0] == Signal then SignalShutdown(c) else c, ops[1..])
  }

  /** The flag is monotone: once raised it stays raised, and it is raised
      after a run exactly when it was raised before or the run signals. */
  lemma {:induction false} ShutdownMonotone(c: ShutdownCoordinator, ops: seq<ShutdownOp>)
    ensures ApplyShutdownOps(c, ops).signaled <==> c.signaled || Signal in ops
    decreases |ops|
  {
    if |ops| > 0 {
      ShutdownMonotone(if ops[0] == Signal then SignalShutdown(c) else c, ops[1..]);
      assert Signal in ops <==> ops[0] == Signal || Signal in ops[1..];
    }
  }
}

=== FILE: config.dfy ===
/** The configuration record and the device-rule policy of src/config.rs:
    rule matching, the whitelist/blacklist decision, rule-list editing,
    key/value access and validation. Loading and saving the file are not
    part of this model. */
module Config {
  import opened Wrappers
  import opened MachineInts
  import opened Device
  import Text

  // ---------------------------------------------------------------------
  // Device rules
  // ---------------------------------------------------------------------

  /** `DeviceRule`: every matcher is optional; an absent matcher is a
      wildcard. `createdAt` is in seconds. */
  datatype DeviceRule = DeviceRule(
    vendorId: Option<U16>,
    productId: Option<U16>,
    deviceClass: Option<U8>,
    manufacturer: Option<string>,
    productName: Option<string>,
    serialNumber: Option<string>,
    reason: string,
    createdAt: nat,
    enabled: bool)

  /** `DeviceRule::new`: no matchers, empty reason, enabled. */
  function NewRule(now: nat): DeviceRule {
    DeviceRule(None, None, None, None, None, None, "", now, true)
  }

  /** An exact-match matcher: absent, or equal to the device's value. */
  predicate IdMatches(want: Option<int>, have: int) {
    want.None? || want.value == have
  }

  /** A text matcher: absent, or the device has the field and it contains
      the matcher case-insensitively. A present matcher never matches an
      absent field. */
  predicate TextMatches(want: Option<string>, have: Option<string>) {
    want.None? || (have.Some? && Text.ContainsIgnoringCase(have.value, want.value))
  }

  /** `DeviceRule::matches_device`, written as the source's sequence of
      early rejections. The rule matches exactly when every present
      matcher accepts the device. */
  function MatchesDevice(rule: DeviceRule, d: UsbDeviceInfo): (b: bool)
    ensures b <==>
      && IdMatches(rule.vendorId, d.vendorId)
      && IdMatches(rule.productId, d.productId)
      && IdMatches(rule.deviceClass, d.deviceClass)
      && TextMatches(rule.manufacturer, d.manufacturer)
      && TextMatches(rule.productName, d.product)
      && TextMatches(rule.serialNumber, d.serialNumber)
  {
    if rule.vendorId.Some? && d.vendorId != rule.vendorId.value then false
    else if rule.productId.Some? && d.productId != rule.productId.value then false
    else if rule.deviceClass.Some? && d.deviceClass != rule.deviceClass.value then false
    else if rule.manufacturer.Some? && (d.manufacturer.None?
      || !Text.ContainsIgnoringCase(d.manufacturer.value, rule.manufacturer.value)) then false
    else if rule.productName.Some? && (d.product.None?
      || !Text.ContainsIgnoringCase(d.product.value, rule.productName.value)) then false
    else if rule.serialNumber.Some? && (d.serialNumber.None?
      || !Text.ContainsIgnoringCase(d.serialNumber.value, rule.serialNumber.value)) then false
    else true
  }

  /** A rule without matchers matches every device, whatever its reason,
      timestamp or enabled flag; in particular a fresh rule does. */
  lemma WildcardRuleMatchesAll(rule: DeviceRule, d: UsbDeviceInfo)
    requires rule.vendorId.None? && rule.productId.None? && rule.deviceClass.None?
    requires rule.manufacturer.None? && rule.productName.None? && rule.serialNumber.None?
    ensures MatchesDevice(rule, d)
    ensures MatchesDevice(NewRule(rule.createdAt), d)
  {
  }

  /** A present text matcher fails against a device that lacks the field,
      even when the matcher is the empty string. */
  lemma AbsentFieldNeverMatches(rule: DeviceRule, d: UsbDeviceInfo)
    requires (rule.manufacturer.Some? && d.manufacturer.None?)
          || (rule.productName.Some? && d.product.None?)
          || (rule.serialNumber.Some? && d.serialNumber.None?)
    ensures !MatchesDevice(rule, d)
  {
  }

  /** A rule that is enabled and matches the device. */
  predicate Fires(rule: DeviceRule, d: UsbDeviceInfo) {
    rule.enabled && MatchesDevice(rule, d)
  }

  /** Some rule of the list fires for the device. */
  ghost predicate AnyFires(rules: seq<DeviceRule>, d: UsbDeviceInfo) {
    exists i :: 0 <= i < |rules| && Fires(rules[i], d)
  }

  /** The index of the first rule that fires, scanning in list order. */
  function FirstFiring(rules: seq<DeviceRule>, d: UsbDeviceInfo): (r: Option<nat>)
    ensures r.Some? ==> r.value < |rules| && Fires(rules[r.value], d)
    ensures r.Some? ==> forall j :: 0 <= j < r.value ==> !Fires(rules[j], d)
    ensures r.None? <==> !AnyFires(rules, d)
    decreases |rules|
  {
    if |rules| == 0 then None
    else if Fires(rules[0], d) then Some(0)
    else
      var rest := FirstFiring(rules[1..], d);
      assert forall j :: 0 < j < |rules| ==> rules[j] == rules[1..][j - 1];
      if rest.Some? then Some(rest.value + 1) else None
  }

  // ---------------------------------------------------------------------
  // Configuration record
  // ---------------------------------------------------------------------

  datatype MonitoringConfig = MonitoringConfig(
    pollIntervalMs: U64,
    autoStart: bool,
    trackInputEvents: bool,
    detectSuspiciousActivity: bool)

  datatype OutputConfig = OutputConfig(
    defaultFormat: string,
    timestampFormat: string,
    includeMetadata: bool,
    colorOutput: bool,
    maxLogEntries: nat)

  datatype LoggingConfig = LoggingConfig(
    level: string,
    fileLogging: bool,
    logFilePath: Option<string>,
    maxLogFileSizeMb: U64,
    rotateLogs: bool)

  datatype FilterConfig = FilterConfig(
    ignoredVendors: seq<U16>,
    ignoredProducts: seq<U16>,
    allowedDeviceClasses: Option<seq<U8>>,
    namePatterns: seq<string>)

  datatype DeviceRulesConfig = DeviceRulesConfig(
    blacklistEnabled: bool,
    whitelistEnabled: bool,
    blacklistedDevices: seq<DeviceRule>,
    whitelistedDevices: seq<DeviceRule>,
    autoBlockSuspicious: bool,
    blockThreshold: nat)

  datatype Config = Config(
    monitoring: MonitoringConfig,
    output: OutputConfig,
    logging: LoggingConfig,
    filters: FilterConfig,
    deviceRules: DeviceRulesConfig)

  /** `Config::default`. */
  function DefaultConfig(): Config {
    Config(
      MonitoringConfig(500, false, true, true),
      OutputConfig("table", "%Y-%m-%d %H:%M:%S UTC", true, true, 1000),
      LoggingConfig("info", false, None, 10, true),
      FilterConfig([], [], None, []),
      DeviceRulesConfig(true, false, [], [], false, 5))
  }

  const OutputFormats: set<string> := {"json", "table", "csv"}
  const LogLevels: set<string> := {"error", "warn", "info", "debug", "trace"}

  // ---------------------------------------------------------------------
  // Security decision
  // ---------------------------------------------------------------------

  /** `ConfigManager::should_block_device`. With the whitelist on, a device
      no enabled whitelist rule matches is blocked as "Device not in
      whitelist" and the blacklist is not consulted. Otherwise, with the
      blacklist on, the first enabled matching blacklist rule blocks with
      its own reason. Otherwise the device is allowed with no reason. */
  function ShouldBlockDevice(c: Config, d: UsbDeviceInfo): (r: (bool, Option<string>))
    ensures var rules := c.deviceRules;
      rules.whitelistEnabled && !AnyFires(rules.whitelistedDevices, d) ==>
        r == (true, Some("Device not in whitelist"))
    ensures var rules := c.deviceRules;
      (!rules.whitelistEnabled || AnyFires(rules.whitelistedDevices, d)) ==>
        if rules.blacklistEnabled && AnyFires(rules.blacklistedDevices, d) then
          exists i :: 0 <= i < |rules.blacklistedDevices|
            && Fires(rules.blacklistedDevices[i], d)
            && (forall j :: 0 <= j < i ==> !Fires(rules.blacklistedDevices[j], d))
            && r == (true, Some(rules.blacklistedDevices[i].reason))
        else r == (false, None)
    ensures r.0 <==> r.1.Some?
  {
    var rules := c.deviceRules;
    if rules.whitelistEnabled && FirstFiring(rules.whitelistedDevices, d).None? then
      (true, Some("Device not in whitelist"))
    else if rules.blacklistEnabled && FirstFiring(rules.blacklistedDevices, d).Some? then
      (true, Some(rules.blacklistedDevices[FirstFiring(rules.blacklistedDevices, d).value].reason))
    else
      (false, None)
  }

  /** With both lists off every device is allowed; so is every device when
      the whitelist is off and no blacklist rule is enabled. */
  lemma DisabledRulesNeverBlock(c: Config, d: UsbDeviceInfo)
    requires !c.deviceRules.whitelistEnabled
    requires !c.deviceRules.blacklistEnabled
          || forall i :: 0 <= i < |c.deviceRules.blacklistedDevices| ==> !c.deviceRules.blacklistedDevices[i].enabled
    ensures ShouldBlockDevice(c, d) == (false, None)
  {
  }

  /** A blacklist rule that pins only the vendor blocks every device of
      that vendor with the rule's reason, unless the whitelist excludes the
      device first; devices of other vendors pass. */
  lemma VendorRuleBlocks(c: Config, d: UsbDeviceInfo, vid: U16, reason: string, now: nat)
    requires c.deviceRules.blacklistEnabled && !c.deviceRules.whitelistEnabled
    requires c.deviceRules.blacklistedDevices == [NewRule(now).(vendorId := Some(vid), reason := reason)]
    ensures ShouldBlockDevice(c, d) ==
      if d.vendorId == vid then (true, Some(reason)) else (false, None)
  {
    var rules := c.deviceRules.blacklistedDevices;
    if d.vendorId != vid {
      assert !Fires(rules[0], d);
      assert !AnyFires(rules, d);
    } else {
      assert Fires(rules[0], d);
    }
  }

  /** The default configuration is valid, has the blacklist on and the
      whitelist off with both lists empty, polls every 500 ms, and so
      blocks no device. */
  lemma DefaultConfigProperties(d: UsbDeviceInfo)
    ensures Validate(DefaultConfig()).Ok?
    ensures DefaultConfig().deviceRules.blacklistEnabled
    ensures !DefaultConfig().deviceRules.whitelistEnabled
    ensures DefaultConfig().deviceRules.blacklistedDevices == []
    ensures DefaultConfig().deviceRules.whitelistedDevices == []
    ensures DefaultConfig().monitoring.pollIntervalMs == 500
    ensures ShouldBlockDevice(DefaultConfig(), d) == (false, None)
  {
    assert "table" in OutputFormats;
    assert "info" in LogLevels;
  }

  // ---------------------------------------------------------------------
  // Rule-list editing
  // ---------------------------------------------------------------------

  datatype RuleList = Blacklist | Whitelist

  function ListOf(c: Config, which: RuleList): seq<DeviceRule> {
    if which == Blacklist then c.deviceRules.blacklistedDevices else c.deviceRules.whitelistedDevices
  }

  function ListEnabled(c: Config, which: RuleList): bool {
    if which == Blacklist then c.deviceRules.blacklistEnabled else c.deviceRules.whitelistEnabled
  }

  function WithList(c: Config, which: RuleList, rules: seq<DeviceRule>): (r: Config)
    ensures ListOf(r, which) == rules
    ensures ListOf(r, if which == Blacklist then Whitelist else Blacklist) == ListOf(c, if which == Blacklist then Whitelist else Blacklist)
  {
    if which == Blacklist then c.(deviceRules := c.deviceRules.(blacklistedDevices := rules))
    else c.(deviceRules := c.deviceRules.(whitelistedDevices := rules))
  }

  /** `add_blacklisted_device` / `add_whitelisted_device`: refused when the
      list is disabled or an identical rule is already listed; otherwise the
      rule is appended at the end and nothing else changes. */
  function AddRule(c: Config, which: RuleList, rule: DeviceRule): (r: Result<Config, string>)
    ensures r.Ok? <==> ListEnabled(c, which) && rule !in ListOf(c, which)
    ensures !ListEnabled(c, which) ==>
      r == Err(if which == Blacklist then "Blacklist is not enabled" else "Whitelist is not enabled")
    ensures ListEnabled(c, which) && rule in ListOf(c, which) ==>
      r == Err(if which == Blacklist then "Device is already blacklisted" else "Device is already whitelisted")
    ensures r.Ok? ==> ListOf(r.value, which) == ListOf(c, which) + [rule]
    ensures r.Ok? ==> r.value == WithList(c, which, ListOf(c, which) + [rule])
  {
    if !ListEnabled(c, which) then
      Err(if which == Blacklist then "Blacklist is not enabled" else "Whitelist is not enabled")
    else if rule in ListOf(c, which) then
      Err(if which == Blacklist then "Device is already blacklisted" else "Device is already whitelisted")
    else
      Ok(WithList(c, which, ListOf(c, which) + [rule]))
  }

  /** `remove_blacklisted_device` / `remove_whitelisted_device`: refused
      for an index past the end; otherwise exactly that rule is removed and
      the others keep their order. */
  function RemoveRule(c: Config, which: RuleList, index: nat): (r: Result<Config, string>)
    ensures r.Ok? <==> index < |ListOf(c, which)|
    ensures index >= |ListOf(c, which)| ==>
      r == Err(if which == Blacklist then "Invalid blacklist index" else "Invalid whitelist index")
    ensures r.Ok? ==> |ListOf(r.value, which)| == |ListOf(c, which)| - 1
    ensures r.Ok? ==> forall j :: 0 <= j < index ==> ListOf(r.value, which)[j] == ListOf(c, which)[j]
    ensures r.Ok? ==> forall j :: index <= j < |ListOf(r.value, which)| ==>
      ListOf(r.value, which)[j] == ListOf(c, which)[j + 1]
    ensures r.Ok? ==> multiset(ListOf(r.value, which)) + multiset{ListOf(c, which)[index]} == multiset(ListOf(c, which))
  {
    var rules := ListOf(c, which);
    if index >= |rules| then
      Err(if which == Blacklist then "Invalid blacklist index" else "Invalid whitelist index")
    else
      assert rules == rules[..index] + [rules[index]] + rules[index + 1..];
      Ok(WithList(c, which, rules[..index] + rules[index + 1..]))
  }

  /** Adding a rule and then removing the last entry restores the
      configuration. */
  lemma AddThenRemoveRestores(c: Config, which: RuleList, rule: DeviceRule)
    requires AddRule(c, which, rule).Ok?
    ensures RemoveRule(AddRule(c, which, rule).value, which, |ListOf(c, which)|) == Ok(c)
  {
    var rules := ListOf(c, which);
    assert (rules + [rule])[..|rules|] + (rules + [rule])[|rules| + 1..] == rules;
  }

  // ---------------------------------------------------------------------
  // Key/value access and validation
  // ---------------------------------------------------------------------

  /** The nine settings `set_value` and `get_value` address by dotted path. */
  datatype ConfigKey =
    | PollIntervalMs | AutoStart | TrackInputEvents | DetectSuspiciousActivity
    | DefaultFormat | ColorOutput | IncludeMetadata | LogLevel | FileLogging

  /** The dotted path of a setting. */
  function KeyPath(k: ConfigKey): string {
    match k
    case PollIntervalMs => "monitoring.poll_interval_ms"
    case AutoStart => "monitoring.auto_start"
    case TrackInputEvents => "monitoring.track_input_events"
    case DetectSuspiciousActivity => "monitoring.detect_suspicious_activity"
    case DefaultFormat => "output.default_format"
    case ColorOutput => "output.color_output"
    case IncludeMetadata => "output.include_metadata"
    case LogLevel => "logging.level"
    case FileLogging => "logging.file_logging"
  }

  /** The field name used in the parse-failure message of a numeric or
      boolean setting (`Invalid <field> value`). */
  function FieldName(k: ConfigKey): string {
    match k
    case PollIntervalMs => "poll_interval_ms"
    case AutoStart => "auto_start"
    case TrackInputEvents => "track_input_events"
    case DetectSuspiciousActivity => "detect_suspicious_activity"
    case DefaultFormat => "default_format"
    case ColorOutput => "color_output"
    case IncludeMetadata => "include_metadata"
    case LogLevel => "level"
    case FileLogging => "file_logging"
  }

  /** The settings whose value is a boolean. */
  predicate IsBoolKey(k: ConfigKey) {
    k in {AutoStart, TrackInputEvents, DetectSuspiciousActivity, ColorOutput, IncludeMetadata, FileLogging}
  }

  /** The setting a dotted path names, if any: exactly the inverse of
      `KeyPath`. */
  function ParseKey(path: string): (r: Option<ConfigKey>)
    ensures r.Some? ==> KeyPath(r.value) == path
    ensures r.None? ==> forall k: ConfigKey :: KeyPath(k) != path
  {
    if path == "monitoring.poll_interval_ms" then Some(PollIntervalMs)
    else if path == "monitoring.auto_start" then Some(AutoStart)
    else if path == "monitoring.track_input_events" then Some(TrackInputEvents)
    else if path == "monitoring.detect_suspicious_activity" then Some(DetectSuspiciousActivity)
    else if path == "output.default_format" then Some(DefaultFormat)
    else if path == "output.color_output" then Some(ColorOutput)
    else if path == "output.include_metadata" then Some(IncludeMetadata)
    else if path == "logging.level" then Some(LogLevel)
    else if path == "logging.file_logging" then Some(FileLogging)
    else None
  }

  /** Distinct settings have distinct paths, and every path parses back to
      its setting. */
  lemma KeyPathRoundTrip(k: ConfigKey, k': ConfigKey)
    ensures ParseKey(KeyPath(k)) == Some(k)
    ensures KeyPath(k) == KeyPath(k') <==> k == k'
  {
    ParsesBack(k);
    ParsesBack(k');
  }

  /** Each path parses back to its own setting. */
  lemma ParsesBack(k: ConfigKey)
    ensures ParseKey(KeyPath(k)) == Some(k)
  {
    match k
    case PollIntervalMs =>
    case AutoStart =>
    case TrackInputEvents =>
    case DetectSuspiciousActivity =>
    case DefaultFormat =>
    case ColorOutput =>
    case IncludeMetadata =>
    case LogLevel =>
    case FileLogging =>
  }

  /** One setting's current value in display form. */
  function GetField(c: Config, k: ConfigKey): string {
    match k
    case PollIntervalMs => Text.Decimal(c.monitoring.pollIntervalMs)
    case AutoStart => Text.BoolText(c.monitoring.autoStart)
    case TrackInputEvents => Text.BoolText(c.monitoring.trackInputEvents)
    case DetectSuspiciousActivity => Text.BoolText(c.monitoring.detectSuspiciousActivity)
    case DefaultFormat => c.output.defaultFormat
    case ColorOutput => Text.BoolText(c.output.colorOutput)
    case IncludeMetadata => Text.BoolText(c.output.includeMetadata)
    case LogLevel => c.logging.level
    case FileLogging => Text.BoolText(c.logging.fileLogging)
  }

  /** Store a parsed boolean into a boolean setting. */
  function PutBool(c: Config, k: ConfigKey, b: bool): Config
    requires IsBoolKey(k)
  {
    match k
    case AutoStart => c.(monitoring := c.monitoring.(autoStart := b))
    case TrackInputEvents => c.(monitoring := c.monitoring.(trackInputEvents := b))
    case DetectSuspiciousActivity => c.(monitoring := c.monitoring.(detectSuspiciousActivity := b))
    case ColorOutput => c.(output := c.output.(colorOutput := b))
    case IncludeMetadata => c.(output := c.output.(includeMetadata := b))
    case FileLogging => c.(logging := c.logging.(fileLogging := b))
  }

  /** Parse `value` for one setting and store it, or report the setting's
      own error. */
  function SetField(c: Config, k: ConfigKey, value: string): (r: Result<Config, string>)
    ensures k == PollIntervalMs ==> (r.Ok? <==> Text.ParseU64(value).Some?)
    ensures IsBoolKey(k) ==> (r.Ok? <==> value == "true" || value == "false")
    ensures k == DefaultFormat ==> (r.Ok? <==> value in OutputFormats)
    ensures k == LogLevel ==> (r.Ok? <==> value in LogLevels)
    ensures r.Ok? ==> r.value.filters == c.filters && r.value.deviceRules == c.deviceRules
  {
    match k
    case PollIntervalMs =>
      (match Text.ParseU64(value)
       case None => Err("Invalid poll_interval_ms value")
       case Some(n) => Ok(c.(monitoring := c.monitoring.(pollIntervalMs := n))))
    case DefaultFormat =>
      if value !in OutputFormats then Err("Invalid output format. Must be: json, table, or csv")
      else Ok(c.(output := c.output.(defaultFormat := value)))
    case LogLevel =>
      if value !in LogLevels then Err("Invalid log level. Must be: error, warn, info, debug, or trace")
      else Ok(c.(logging := c.logging.(level := value)))
    case _ =>
      match Text.ParseBool(value)
      case None => Err("Invalid " + FieldName(k) + " value")
      case Some(b) => Ok(PutBool(c, k, b))
  }

  /** `ConfigManager::set_value`. */
  function SetValue(c: Config, path: string, value: string): (r: Result<Config, string>)
    ensures ParseKey(path).None? ==> r == Err("Unknown configuration key: " + path)
    ensures ParseKey(path).Some? ==> r == SetField(c, ParseKey(path).value, value)
  {
    match ParseKey(path)
    case None => Err("Unknown configuration key: " + path)
    case Some(k) => SetField(c, k, value)
  }

  /** `ConfigManager::get_value`: numbers and booleans in their display
      form, strings as stored. */
  function GetValue(c: Config, path: string): (r: Result<string, string>)
    ensures r.Ok? <==> exists k: ConfigKey :: KeyPath(k) == path
    ensures ParseKey(path).None? ==> r == Err("Unknown configuration key: " + path)
  {
    match ParseKey(path)
    case None => Err("Unknown configuration key: " + path)
    case Some(k) => Ok(GetField(c, k))
  }

  /** Setting one key leaves every other key's value as it was. */
  lemma SetValueFrame(c: Config, k: ConfigKey, k': ConfigKey, value: string)
    requires SetValue(c, KeyPath(k), value).Ok?
    requires k' != k
    ensures GetValue(SetValue(c, KeyPath(k), value).value, KeyPath(k')) == GetValue(c, KeyPath(k'))
  {
    ParsesBack(k);
    ParsesBack(k');
    SetFieldFrame(c, k, k', value);
  }

  /** Storing one setting leaves every other setting's value unchanged. */
  lemma SetFieldFrame(c: Config, k: ConfigKey, k': ConfigKey, value: string)
    requires SetField(c, k, value).Ok?
    requires k' != k
    ensures GetField(SetField(c, k, value).value, k') == GetField(c, k')
  {
    var c' := SetField(c, k, value).value;
    if IsBoolKey(k) {
      assert c' == PutBool(c, k, Text.ParseBool(value).value);
    }
  }

  /** A value that was set reads back: text keys return it verbatim,
      numeric and boolean keys return its canonical display form, and
      writing that form back changes nothing. */
  lemma SetThenGet(c: Config, k: ConfigKey, value: string)
    requires SetValue(c, KeyPath(k), value).Ok?
    ensures var c' := SetValue(c, KeyPath(k), value).value;
      && (k != PollIntervalMs ==> GetValue(c', KeyPath(k)) == Ok(value))
      && (k == PollIntervalMs ==>
            GetValue(c', KeyPath(k)) == Ok(Text.Decimal(Text.ParseU64(value).value)))
      && SetValue(c', KeyPath(k), GetValue(c', KeyPath(k)).value) == Ok(c')
  {
    ParsesBack(k);
    SetFieldThenGet(c, k, value);
  }

  /** `SetThenGet` for one setting, before paths are involved. */
  lemma SetFieldThenGet(c: Config, k: ConfigKey, value: string)
    requires SetField(c, k, value).Ok?
    ensures var c' := SetField(c, k, value).value;
      && (k != PollIntervalMs ==> GetField(c', k) == value)
      && (k == PollIntervalMs ==> GetField(c', k) == Text.Decimal(Text.ParseU64(value).value))
      && SetField(c', k, GetField(c', k)) == Ok(c')
  {
    var c' := SetField(c, k, value).value;
    if k == PollIntervalMs {
      Text.ParseDecimalRoundTrip(c'.monitoring.pollIntervalMs);
    } else if IsBoolKey(k) {
      assert c' == PutBool(c, k, Text.ParseBool(value).value);
    }
  }

  /** Writing back the value read from a valid configuration changes
      nothing. */
  lemma GetThenSet(c: Config, k: ConfigKey)
    requires Validate(c).Ok?
    ensures SetValue(c, KeyPath(k), GetValue(c, KeyPath(k)).value) == Ok(c)
  {
    ParsesBack(k);
    GetFieldThenSet(c, k);
  }

  /** `GetThenSet` for one setting, before paths are involved. */
  lemma GetFieldThenSet(c: Config, k: ConfigKey)
    requires Validate(c).Ok?
    ensures SetField(c, k, GetField(c, k)) == Ok(c)
  {
    if k == PollIntervalMs {
      Text.ParseDecimalRoundTrip(c.monitoring.pollIntervalMs);
    }
  }

  /** `set_blacklist_enabled` and `set_whitelist_enabled`: only the chosen
      list's switch changes. */
  function SetListEnabled(c: Config, which: RuleList, enabled: bool): (r: Config)
    ensures ListEnabled(r, which) == enabled
    ensures ListOf(r, Blacklist) == ListOf(c, Blacklist) && ListOf(r, Whitelist) == ListOf(c, Whitelist)
    ensures ListEnabled(r, if which == Blacklist then Whitelist else Blacklist)
         == ListEnabled(c, if which == Blacklist then Whitelist else Blacklist)
  {
    if which == Blacklist then c.(deviceRules := c.deviceRules.(blacklistEnabled := enabled))
    else c.(deviceRules := c.deviceRules.(whitelistEnabled := enabled))
  }

  /** `ConfigManager::validate`: the poll interval must be at least 100 ms,
      the output format one of json/table/csv and the log level one of the
      five levels; the first violated check is reported. */
  function Validate(c: Config): (r: Result<Unit, string>)
    ensures r.Ok? <==>
      c.monitoring.pollIntervalMs >= 100
      && c.output.defaultFormat in OutputFormats
      && c.logging.level in LogLevels
    ensures c.monitoring.pollIntervalMs < 100 ==> r == Err("Poll interval must be at least 100ms")
  {
    if c.monitoring.pollIntervalMs < 100 then Err("Poll interval must be at least 100ms")
    else if c.output.defaultFormat !in OutputFormats then Err("Invalid default output format")
    else if c.logging.level !in LogLevels then Err("Invalid log level")
    else Ok(Unit)
  }

  /** `set_value` keeps a valid configuration valid, except when it lowers
      the poll interval below 100 ms. */
  lemma SetValuePreservesValidity(c: Config, path: string, value: string)
    requires Validate(c).Ok?
    requires SetValue(c, path, value).Ok?
    ensures Validate(SetValue(c, path, value).value).Ok? <==>
      (path != KeyPath(PollIntervalMs) || Text.ParseU64(value).value >= 100)
  {
    ParsesBack(PollIntervalMs);
    SetFieldPreservesValidity(c, ParseKey(path).value, value);
  }

  /** Storing a setting keeps a valid configuration valid unless it is a
      poll interval below 100 ms. */
  lemma SetFieldPreservesValidity(c: Config, k: ConfigKey, value: string)
    requires Validate(c).Ok?
    requires SetField(c, k, value).Ok?
    ensures Validate(SetField(c, k, value).value).Ok? <==>
      (k != PollIntervalMs || Text.ParseU64(value).value >= 100)
  {
    var c' := SetField(c, k, value).value;
    if IsBoolKey(k) {
      assert c'.monitoring.pollIntervalMs == c.monitoring.pollIntervalMs;
    }
  }
}

=== FILE: device.dfy ===
/** The device record of src/usb_monitor.rs, its connection status, the
    change event that wraps it, and the identity key that correlates a
    device across polls. */
module Device {
  import opened Wrappers
  import opened MachineInts
  import Text

  datatype ConnectionStatus = Connected | Disconnected | Reconnected | Blocked

  /** `UsbDeviceInfo`: one device as seen at one poll. The descriptor fields
      keep their source widths; `timestamp` is in seconds. */
  datatype UsbDeviceInfo = UsbDeviceInfo(
    busNumber: U8,
    deviceAddress: U8,
    vendorId: U16,
    productId: U16,
    deviceVersion: U16,
    manufacturer: Option<string>,
    product: Option<string>,
    serialNumber: Option<string>,
    deviceClass: U8,
    deviceSubclass: U8,
    deviceProtocol: U8,
    maxPacketSize: U8,
    numConfigurations: U8,
    timestamp: nat,
    connectionStatus: ConnectionStatus)

  /** `UsbDeviceChange`: the source's four variants (Connected, Disconnected,
      Reconnected, Blocked), each wrapping one record, written as the
      variant tag `kind` plus the record. `info` is `get_device_info`. */
  datatype UsbDeviceChange = UsbDeviceChange(kind: ConnectionStatus, info: UsbDeviceInfo)

  /** `get_change_type`. */
  function ChangeType(c: UsbDeviceChange): string {
    match c.kind
    case Connected => "CONNECTED"
    case Disconnected => "DISCONNECTED"
    case Reconnected => "RECONNECTED"
    case Blocked => "BLOCKED"
  }

  /** The change-type label identifies the variant: two changes have the
      same label exactly when they are of the same kind. */
  lemma ChangeTypeIdentifiesKind(a: UsbDeviceChange, b: UsbDeviceChange)
    ensures ChangeType(a) == ChangeType(b) <==> a.kind == b.kind
  {
  }

  // ---------------------------------------------------------------------
  // Identity key
  // ---------------------------------------------------------------------

  /** `create_device_key`: `vendor:product:bus:address`, each in decimal. */
  function DeviceKey(d: UsbDeviceInfo): string {
    Text.Decimal(d.vendorId) + ":" + Text.Decimal(d.productId) + ":"
    + Text.Decimal(d.busNumber) + ":" + Text.Decimal(d.deviceAddress)
  }

  /** The four fields that make up a device's identity. */
  predicate SameIdentity(a: UsbDeviceInfo, b: UsbDeviceInfo) {
    && a.vendorId == b.vendorId
    && a.productId == b.productId
    && a.busNumber == b.busNumber
    && a.deviceAddress == b.deviceAddress
  }

  /** The position of the first `:` in `s` (or `|s|` when there is none). */
  function FirstColon(s: string): (n: nat)
    ensures n <= |s|
    decreases |s|
  {
    if |s| == 0 || s[0] == ':' then 0 else 1 + FirstColon(s[1..])
  }

  lemma {:induction false} FirstColonAfterDigits(x: string, y: string)
    requires Text.AllDigits(x)
    ensures FirstColon(x + ":" + y) == |x|
    decreases |x|
  {
    if |x| > 0 {
      var s := x + ":" + y;
      assert s[1..] == x[1..] + ":" + y;
      FirstColonAfterDigits(x[1..], y);
    }
  }

  /** A digit string followed by `:` can be split off unambiguously. */
  lemma SplitAtColon(x: string, y: string, x': string, y': string)
    requires Text.AllDigits(x) && Text.AllDigits(x')
    requires x + ":" + y == x' + ":" + y'
    ensures x == x' && y == y'
  {
    var s := x + ":" + y;
    FirstColonAfterDigits(x, y);
    FirstColonAfterDigits(x', y');
    assert x == s[..|x|];
    assert x' == s[..|x'|];
    assert y == s[|x| + 1..];
    assert y' == s[|x'| + 1..];
  }

  /** The key as three splits at a colon: a bracketing step for
      `DeviceKeyIdentifies`, not a property of its own. */
  lemma KeyShape(d: UsbDeviceInfo)
    ensures DeviceKey(d) == Text.Decimal(d.vendorId) + ":" + (Text.Decimal(d.productId) + ":"
                          + (Text.Decimal(d.busNumber) + ":" + Text.Decimal(d.deviceAddress)))
  {
    var v, p, b, a := Text.Decimal(d.vendorId), Text.Decimal(d.productId),
      Text.Decimal(d.busNumber), Text.Decimal(d.deviceAddress);
    assert b + ":" + a == b + (":" + a);
    assert p + ":" + b + ":" + a == p + ":" + (b + ":" + a);
    assert v + ":" + p + ":" + b + ":" + a == v + ":" + (p + ":" + (b + ":" + a));
  }

  /** The key identifies a device exactly by vendor, product, bus and
      address: two records share a key if and only if these agree. The
      other fields (strings, status, timestamp) never affect the key. */
  lemma DeviceKeyIdentifies(a: UsbDeviceInfo, b: UsbDeviceInfo)
    ensures DeviceKey(a) == DeviceKey(b) <==> SameIdentity(a, b)
  {
    if DeviceKey(a) == DeviceKey(b) {
      var va, pa, ba, aa := Text.Decimal(a.vendorId), Text.Decimal(a.productId),
        Text.Decimal(a.busNumber), Text.Decimal(a.deviceAddress);
      var vb, pb, bb, ab := Text.Decimal(b.vendorId), Text.Decimal(b.productId),
        Text.Decimal(b.busNumber), Text.Decimal(b.deviceAddress);
      KeyShape(a);
      KeyShape(b);
      SplitAtColon(va, pa + ":" + (ba + ":" + aa), vb, pb + ":" + (bb + ":" + ab));
      SplitAtColon(pa, ba + ":" + aa, pb, bb + ":" + ab);
      SplitAtColon(ba, aa, bb, ab);
      Text.DecimalInjective(a.vendorId, b.vendorId);
      Text.DecimalInjective(a.productId, b.productId);
      Text.DecimalInjective(a.busNumber, b.busNumber);
      Text.DecimalInjective(a.deviceAddress, b.deviceAddress);
    }
  }

  /** The record with its status tag replaced; every other field, and so
      the key, is unaffected. */
  function WithStatus(d: UsbDeviceInfo, status: ConnectionStatus): (r: UsbDeviceInfo)
    ensures DeviceKey(r) == DeviceKey(d)
    ensures r.connectionStatus == status
    ensures r.(connectionStatus := d.connectionStatus) == d
  {
    d.(connectionStatus := status)
  }
}

=== FILE: errors.dfy ===
/** The application's error taxonomy (src/error.rs): the variants, their
    display texts, the conversions from library errors, the context
    rewriting of USB errors, and the user-facing messages with remedies. */
module Errors {
  import opened Wrappers
  import opened MachineInts
  import Text

  /** The kinds of error rusb reports (one per libusb error code). */
  datatype RusbErrorKind =
    | Io | InvalidParam | Access | NoDevice | NotFound | Busy | Timeout
    | Overflow | Pipe | Interrupted | NoMem | NotSupported | BadDescriptor | Other

  /** A rusb error. Its display text comes from the library, so the model
      carries it as data rather than computing it. */
  datatype RusbError = RusbError(kind: RusbErrorKind, text: string)

  datatype UsbError =
    | InitializationFailed(msg: string)
    | NoDevicesFound
    | DeviceAccessDenied(vendorId: U16, productId: U16)
    | DescriptorReadFailed(msg: string)
    | MonitoringFailed(msg: string)
    | EnumerationFailed(msg: string)

  datatype ConfigError =
    | FileNotFound(path: string)
    | InvalidFormat(msg: string)
    | ValidationFailed(msg: string)
    | SaveFailed(msg: string)
    | InvalidKey(key: string)
    | InvalidValue(key: string, value: string)

  datatype GuiError =
    | InitializationFailed(msg: string)
    | WindowCreationFailed(msg: string)
    | ResourceLoadFailed(msg: string)
    | CommunicationError(msg: string)

  datatype TrayError =
    | CreationFailed(msg: string)
    | IconUpdateFailed(msg: string)
    | NotificationFailed(msg: string)

  /** `IronWatchError`. An `std::io::Error` is represented by its display text. */
  datatype IronWatchError =
    | UsbError(usb: UsbError)
    | ConfigError(config: ConfigError)
    | GuiError(gui: GuiError)
    | TrayError(tray: TrayError)
    | IoError(ioText: string)
    | PermissionError(msg: string)

  // ---------------------------------------------------------------------
  // Display texts
  // ---------------------------------------------------------------------

  function UsbErrorText(e: UsbError): string {
    match e
    case InitializationFailed(msg) => "Failed to initialize USB context: " + msg
    case NoDevicesFound => "No USB devices found"
    case DeviceAccessDenied(vid, pid) => "Access denied to device " + Text.Hex4(vid) + ":" + Text.Hex4(pid)
    case DescriptorReadFailed(msg) => "Failed to read device descriptor: " + msg
    case MonitoringFailed(msg) => "USB monitoring failed: " + msg
    case EnumerationFailed(msg) => "Device enumeration failed: " + msg
  }

  function ConfigErrorText(e: ConfigError): string {
    match e
    case FileNotFound(path) => "Configuration file not found: " + path
    case InvalidFormat(msg) => "Invalid configuration format: " + msg
    case ValidationFailed(msg) => "Configuration validation failed: " + msg
    case SaveFailed(msg) => "Failed to save configuration: " + msg
    case InvalidKey(key) => "Invalid configuration key: " + key
    case InvalidValue(key, value) => "Invalid value '" + value + "' for key '" + key + "'"
  }

  function GuiErrorText(e: GuiError): string {
    match e
    case InitializationFailed(msg) => "GUI initialization failed: " + msg
    case WindowCreationFailed(msg) => "Window creation failed: " + msg
    case ResourceLoadFailed(msg) => "Resource loading failed: " + msg
    case CommunicationError(msg) => "GUI communication error: " + msg
  }

  function TrayErrorText(e: TrayError): string {
    match e
    case CreationFailed(msg) => "System tray creation failed: " + msg
    case IconUpdateFailed(msg) => "Tray icon update failed: " + msg
    case NotificationFailed(msg) => "Notification failed: " + msg
  }

  function ErrorText(e: IronWatchError): string {
    match e
    case UsbError(u) => "USB Error: " + UsbErrorText(u)
    case ConfigError(c) => "Configuration Error: " + ConfigErrorText(c)
    case GuiError(g) => "GUI Error: " + GuiErrorText(g)
    case TrayError(t) => "System Tray Error: " + TrayErrorText(t)
    case IoError(text) => "I/O Error: " + text
    case PermissionError(msg) => "Permission Error: " + msg
  }

  // ---------------------------------------------------------------------
  // Conversions
  // ---------------------------------------------------------------------

  /** `From<rusb::Error>`: access failures become an access denial on the
      placeholder device 0000:0000, a missing device or entity becomes
      "no devices", and every other kind an enumeration failure carrying
      the library's text. */
  function FromRusb(e: RusbError): (r: IronWatchError)
    ensures r.UsbError?
    ensures r.usb == DeviceAccessDenied(0, 0) <==> e.kind == Access
    ensures r.usb == NoDevicesFound <==> e.kind == NoDevice || e.kind == NotFound
    ensures r.usb.EnumerationFailed? <==> e.kind !in {Access, NoDevice, NotFound}
    ensures r.usb.EnumerationFailed? ==> r.usb.msg == e.text
  {
    var usb := match e.kind
      case Access => DeviceAccessDenied(0, 0)
      case NoDevice => NoDevicesFound
      case NotFound => NoDevicesFound
      case _ => EnumerationFailed(e.text);
    UsbError(usb)
  }

  /** `From<serde_json::Error>`: a JSON error, given by its display text,
      is an invalid configuration format. */
  function FromJson(text: string): (r: IronWatchError)
    ensures r.ConfigError? && r.config.InvalidFormat?
    ensures ErrorText(r) == "Configuration Error: " + ("Invalid configuration format: " + text)
  {
    ConfigError(InvalidFormat(text))
  }

  /** `From<std::io::Error>`. */
  function FromIo(text: string): IronWatchError {
    IoError(text)
  }

  /** `ErrorContext::with_context`: a USB error is rewritten into a
      monitoring failure whose message is `msg: <inner text>`; success and
      every other error pass through unchanged. */
  function WithContext<T>(r: Result<T, IronWatchError>, msg: string): (r': Result<T, IronWatchError>)
    ensures r.Ok? ==> r' == r
    ensures r.Err? && !r.error.UsbError? ==> r' == r
    ensures r.Err? && r.error.UsbError? ==>
      r'.Err? && r'.error == UsbError(MonitoringFailed(msg + ": " + UsbErrorText(r.error.usb)))
  {
    match r
    case Ok(_) => r
    case Err(e) =>
      if e.UsbError? then Err(UsbError(MonitoringFailed(msg + ": " + UsbErrorText(e.usb)))) else r
  }

  /** The rewritten error still shows the cause: its display text ends with
      the inner USB error's text and starts with the USB prefix. */
  lemma WithContextKeepsCause<T>(r: Result<T, IronWatchError>, msg: string)
    requires r.Err? && r.error.UsbError?
    ensures var e := WithContext(r, msg).error;
      var cause := UsbErrorText(r.error.usb);
      var text := ErrorText(e);
      |text| >= |cause| && text[|text| - |cause|..] == cause
      && text[..|"USB Error: "|] == "USB Error: "
  {
  }

  // ---------------------------------------------------------------------
  // Constructor helpers
  // ---------------------------------------------------------------------

  function UsbInitializationFailed(msg: string): IronWatchError {
    UsbError(UsbError.InitializationFailed(msg))
  }

  function UsbDeviceAccessDenied(vendorId: U16, productId: U16): IronWatchError {
    UsbError(DeviceAccessDenied(vendorId, productId))
  }

  function UsbMonitoringFailed(msg: string): IronWatchError {
    UsbError(MonitoringFailed(msg))
  }

  function ConfigFileNotFound(path: string): IronWatchError {
    ConfigError(FileNotFound(path))
  }

  function ConfigValidationFailed(msg: string): IronWatchError {
    ConfigError(ValidationFailed(msg))
  }

  function GuiInitializationFailed(msg: string): IronWatchError {
    GuiError(GuiError.InitializationFailed(msg))
  }

  function GuiCommunicationError(msg: string): IronWatchError {
    GuiError(CommunicationError(msg))
  }

  // ---------------------------------------------------------------------
  // User-facing messages
  // ---------------------------------------------------------------------

  /** The remedies offered to the user. */
  const AccessRemedy: string := "Try running the application as administrator or check device permissions."
  const InitRemedy: string := "Make sure you have proper USB access permissions and libusb is installed."
  const PermissionRemedy: string := "Run as administrator or add your user to the 'plugdev' group on Linux."
  const ConfigRemedy: string := "A default configuration will be created automatically."

  /** The errors for which the user is offered a remedy. */
  predicate HasRemedy(e: IronWatchError) {
    || (e.UsbError? && (e.usb.DeviceAccessDenied? || e.usb.InitializationFailed?))
    || e.PermissionError?
    || (e.ConfigError? && e.config.FileNotFound?)
  }

  /** `get_user_friendly_message`: a short message plus, for the four
      actionable errors, a suggested remedy; any other error is shown with
      its display text and no remedy. */
  function UserFriendlyMessage(e: IronWatchError): (r: (string, Option<string>))
    ensures r.1.Some? <==> HasRemedy(e)
    ensures !HasRemedy(e) ==> r.0 == ErrorText(e)
    ensures e.PermissionError? ==> r.0 == "Insufficient permissions for USB access"
  {
    if e.UsbError? && e.usb.DeviceAccessDenied? then
      ("Cannot access USB device " + Text.Hex4(e.usb.vendorId) + ":" + Text.Hex4(e.usb.productId),
       Some(AccessRemedy))
    else if e.UsbError? && e.usb.InitializationFailed? then
      ("Failed to initialize USB monitoring",
       Some(InitRemedy))
    else if e.PermissionError? then
      ("Insufficient permissions for USB access",
       Some(PermissionRemedy))
    else if e.ConfigError? && e.config.FileNotFound? then
      ("Configuration file not found",
       Some(ConfigRemedy))
    else (ErrorText(e), None)
  }

  /** The helper constructors build the variants they are named after, and
      the errors meant for the user's attention get a remedy while the
      internal ones do not. */
  lemma HelpersWrapAndClassify(msg: string, vid: U16, pid: U16)
    ensures UsbInitializationFailed(msg).usb.InitializationFailed?
    ensures UsbDeviceAccessDenied(vid, pid).usb == DeviceAccessDenied(vid, pid)
    ensures UsbMonitoringFailed(msg).usb == MonitoringFailed(msg)
    ensures ConfigFileNotFound(msg).config == FileNotFound(msg)
    ensures ConfigValidationFailed(msg).config == ValidationFailed(msg)
    ensures GuiInitializationFailed(msg).gui.InitializationFailed?
    ensures GuiCommunicationError(msg).gui == CommunicationError(msg)
    ensures HasRemedy(UsbInitializationFailed(msg)) && HasRemedy(UsbDeviceAccessDenied(vid, pid))
    ensures HasRemedy(ConfigFileNotFound(msg))
    ensures !HasRemedy(UsbMonitoringFailed(msg)) && !HasRemedy(ConfigValidationFailed(msg))
    ensures !HasRemedy(GuiInitializationFailed(msg)) && !HasRemedy(GuiCommunicationError(msg))
    ensures UserFriendlyMessage(UsbMonitoringFailed(msg)).0 == "USB Error: " + ("USB monitoring failed: " + msg)
  {
  }
}

=== FILE: machine_ints.dfy ===
/** The fixed-width unsigned integers of the source (`u8`, `u16`, `u64`) as
    subset types of `int`. Values outside the range cannot be constructed,
    so every descriptor field of the model has the width the source gives it. */
module MachineInts {
  type U8 = x: int | 0 <= x < 0x100
  type U16 = x: int | 0 <= x < 0x1_0000
  type U64 = x: int | 0 <= x < 0x1_0000_0000_0000_0000
}

=== FILE: monitoring_service.dfy ===
/** The background service of src/monitoring_service.rs as a state
    machine: its command handlers, the monitoring cycle, and the main loop.

    What the service asks of the outside world is an input (`Env`): the
    outcome of the permission probe, whether a libusb context can be
    created, the bus snapshot a poll would read, and the time. Every
    handler returns the new state together with the handler's result; the
    events it emits are the ones appended to the hub's event queue. */
module MonitoringService {
  import opened Wrappers
  import opened Device
  import Errors
  import Text
  import UsbMonitor
  import Communication

  /** `MonitoringService`; the receiver side of the channels lives in the
      hub record. */
  datatype Service = Service(
    monitor: Option<UsbMonitor.Monitor>,
    hub: Communication.Hub,
    shutdown: Communication.ShutdownCoordinator,
    pollingIntervalMs: nat,
    filter: Option<string>,
    isMonitoring: bool)

  /** What the world answers when the service asks: the permission probe
      (`check_usb_permissions`; `None` when access is fine), whether a USB
      context can be created, the bus snapshot, and the time. */
  datatype Env = Env(
    permission: Option<Errors.IronWatchError>,
    contextOk: bool,
    bus: UsbMonitor.BusSnapshot,
    now: nat)

  type Outcome = (Service, Result<Unit, Errors.IronWatchError>)

  /** `MonitoringService::new`. */
  function NewService(hub: Communication.Hub): (s: Service)
    ensures !s.isMonitoring && s.monitor.None? && s.filter.None?
    ensures s.pollingIntervalMs == 500
    ensures !s.shutdown.signaled
    ensures s.hub == hub
  {
    Service(None, hub, Communication.NewShutdownCoordinator(), 500, None, false)
  }

  /** Send one event to the GUI through the hub. */
  function Emit(s: Service, e: Communication.MonitorEvent): (r: Outcome)
    ensures r.0.(hub := s.hub) == s
    ensures r.0.hub == Communication.SendEvent(s.hub, e).0
    ensures r.1 == Communication.SendEvent(s.hub, e).1
  {
    var (hub, result) := Communication.SendEvent(s.hub, e);
    (s.(hub := hub), result)
  }

  /** Emit an event and then fail with `err`, unless the emission itself
      fails (the source's `send_…(…)?; return Err(err)`). */
  function EmitThenFail(s: Service, e: Communication.MonitorEvent, err: Errors.IronWatchError): (r: Outcome)
    ensures r.0 == Emit(s, e).0
    ensures r.1.Err?
    ensures r.1.error == if Emit(s, e).1.Err? then Emit(s, e).1.error else err
  {
    var (s', sent) := Emit(s, e);
    if sent.Err? then (s', sent) else (s', Err(err))
  }

  // ---------------------------------------------------------------------
  // Handlers
  // ---------------------------------------------------------------------

  /** `initialize_usb_monitor`. A failed permission probe is reported
      (as a permission event when it is a permission error, else as a
      monitoring error with the error's text) and returned; a context that
      cannot be created is reported and returned as an initialisation
      failure; otherwise the monitor is created with the service's filter. */
  function InitializeUsbMonitor(s: Service, env: Env): (r: Outcome)
    ensures r.0.isMonitoring == s.isMonitoring && r.0.filter == s.filter
    ensures r.0.shutdown == s.shutdown && r.0.pollingIntervalMs == s.pollingIntervalMs
    ensures r.1.Ok? <==> env.permission.None? && env.contextOk
    ensures r.1.Ok? ==> r.0.monitor.Some? && r.0.monitor.value.filter == s.filter && r.0.hub == s.hub
    ensures r.1.Err? ==> r.0.monitor == s.monitor
    ensures env.permission.Some? && env.permission.value.PermissionError? ==>
      r.0.hub == Communication.SendEvent(s.hub, Communication.PermissionError(env.permission.value.msg)).0
    ensures env.permission.Some? && !env.permission.value.PermissionError? ==>
      r.0.hub == Communication.SendEvent(s.hub,
        Communication.MonitoringError("USB initialization failed: " + Errors.ErrorText(env.permission.value))).0
    ensures env.permission.Some? && s.hub.guiAlive ==> r.1 == Err(env.permission.value)
    ensures env.permission.None? && !env.contextOk ==>
      r.0.hub == Communication.SendEvent(s.hub,
        Communication.MonitoringError("Failed to initialize USB monitor: Failed to create USB context")).0
    ensures env.permission.None? && !env.contextOk && s.hub.guiAlive ==>
      r.1 == Err(Errors.UsbInitializationFailed("Failed to initialize USB monitor: Failed to create USB context"))
    ensures r.1.Err? && !s.hub.guiAlive ==>
      r.1.error == Errors.GuiCommunicationError(Communication.EventSendFailure)
  {
    match env.permission
    case Some(e) =>
      if e.PermissionError? then EmitThenFail(s, Communication.PermissionError(e.msg), e)
      else EmitThenFail(s, Communication.MonitoringError("USB initialization failed: " + Errors.ErrorText(e)), e)
    case None =>
      match UsbMonitor.NewMonitor(env.contextOk)
      case Ok(m) => (s.(monitor := Some(UsbMonitor.SetFilter(m, s.filter))), Ok(Unit))
      case Err(msg) =>
        var text := "Failed to initialize USB monitor: " + msg;
        assert text == "Failed to initialize USB monitor: Failed to create USB context";
        EmitThenFail(s, Communication.MonitoringError(text), Errors.UsbInitializationFailed(text))
  }

  /** `refresh_devices`: with a monitor, the filtered device list is sent
      to the GUI, or a failed bus read is reported and returned; without
      one, an empty list is sent. */
  function RefreshDevices(s: Service, env: Env): (r: Outcome)
    ensures r.0.(hub := s.hub) == s
    ensures s.monitor.None? ==> r == Emit(s, Communication.DevicesUpdated([]))
    ensures s.monitor.Some? && env.bus.Ok? ==>
      r == Emit(s, Communication.DevicesUpdated(UsbMonitor.ConnectedDevices(s.monitor.value.filter, env.bus).value))
    ensures s.monitor.Some? && env.bus.Err? ==>
      r.0 == Emit(s, Communication.MonitoringError("Failed to get device list: " + "Failed to get device list")).0
      && r.1.Err?
    ensures s.monitor.Some? && env.bus.Err? && s.hub.guiAlive ==>
      r.1 == Err(Errors.UsbMonitoringFailed("Failed to get device list: Failed to get device list"))
    ensures r.1.Err? && !s.hub.guiAlive ==>
      r.1.error == Errors.GuiCommunicationError(Communication.EventSendFailure)
  {
    match s.monitor
    case None => Emit(s, Communication.DevicesUpdated([]))
    case Some(m) =>
      match UsbMonitor.ConnectedDevices(m.filter, env.bus)
      case Ok(devices) => Emit(s, Communication.DevicesUpdated(devices))
      case Err(e) =>
        assert e == "Failed to get device list";
        var text := "Failed to get device list: " + e;
        assert text == "Failed to get device list: Failed to get device list";
        EmitThenFail(s, Communication.MonitoringError(text), Errors.UsbMonitoringFailed(text))
  }

  /** `start_monitoring`. Already monitoring: nothing happens. Otherwise the
      monitor is created if missing (a failure is returned with the flag
      still down); then the flag is raised, MonitoringStarted is sent, and
      the device list is refreshed. */
  function StartMonitoring(s: Service, env: Env): (r: Outcome)
    ensures s.isMonitoring ==> r == (s, Ok(Unit))
    ensures !s.isMonitoring && s.monitor.None? && InitializeUsbMonitor(s, env).1.Err? ==>
      r == InitializeUsbMonitor(s, env) && !r.0.isMonitoring
    ensures r.0.shutdown == s.shutdown && r.0.filter == s.filter
    ensures r.0.isMonitoring <==> s.isMonitoring || s.monitor.Some? || InitializeUsbMonitor(s, env).1.Ok?
  {
    if s.isMonitoring then (s, Ok(Unit))
    else
      var (s1, init) := if s.monitor.None? then InitializeUsbMonitor(s, env) else (s, Ok(Unit));
      if init.Err? then (s1, init)
      else
        var (s2, sent) := Emit(s1.(isMonitoring := true), Communication.MonitoringStarted);
        if sent.Err? then (s2, sent)
        else RefreshDevices(s2, env)
  }

  /** `stop_monitoring`: a no-op when not monitoring; otherwise the flag
      is lowered and MonitoringStopped is sent. */
  function StopMonitoring(s: Service): (r: Outcome)
    ensures !r.0.isMonitoring
    ensures !s.isMonitoring ==> r == (s, Ok(Unit))
    ensures s.isMonitoring ==> r == Emit(s.(isMonitoring := false), Communication.MonitoringStopped)
  {
    if !s.isMonitoring then (s, Ok(Unit))
    else Emit(s.(isMonitoring := false), Communication.MonitoringStopped)
  }

  /** `set_filter`: the filter is always stored; with a monitor it is also
      handed to the monitor and the device list is refreshed. */
  function SetFilter(s: Service, filter: Option<string>, env: Env): (r: Outcome)
    ensures r.0.filter == filter
    ensures s.monitor.None? ==> r == (s.(filter := filter), Ok(Unit))
    ensures s.monitor.Some? ==>
      r == RefreshDevices(s.(filter := filter, monitor := Some(UsbMonitor.SetFilter(s.monitor.value, filter))), env)
  {
    var s' := s.(filter := filter);
    match s.monitor
    case None => (s', Ok(Unit))
    case Some(m) => RefreshDevices(s'.(monitor := Some(UsbMonitor.SetFilter(m, filter))), env)
  }

  /** `set_polling_interval`: only the stored value changes (the running
      loop's timer is not rebuilt). */
  function SetPollingInterval(s: Service, millis: nat): (r: Outcome)
    ensures r.0.pollingIntervalMs == millis && r.1.Ok?
    ensures r.0.(pollingIntervalMs := s.pollingIntervalMs) == s
  {
    (s.(pollingIntervalMs := millis), Ok(Unit))
  }

  /** Send one DeviceChanged event per change, in order, stopping at the
      first failed send. */
  function EmitChanges(s: Service, changes: seq<UsbDeviceChange>): (r: Outcome)
    ensures r.0.(hub := s.hub) == s
    decreases |changes|
  {
    if |changes| == 0 then (s, Ok(Unit))
    else
      var (s', sent) := Emit(s, Communication.DeviceChanged(changes[0]));
      if sent.Err? then (s', sent) else EmitChanges(s', changes[1..])
  }

  /** The events announcing a batch of changes. */
  function ChangeEvents(changes: seq<UsbDeviceChange>): (es: seq<Communication.MonitorEvent>)
    ensures |es| == |changes|
    ensures forall i :: 0 <= i < |changes| ==> es[i] == Communication.DeviceChanged(changes[i])
  {
    seq(|changes|, i requires 0 <= i < |changes| => Communication.DeviceChanged(changes[i]))
  }

  /** While the GUI is alive, a batch is announced as one DeviceChanged
      event per change, in batch order, and nothing else changes. */
  lemma {:induction false} EmitChangesInOrder(s: Service, changes: seq<UsbDeviceChange>)
    requires s.hub.guiAlive
    ensures EmitChanges(s, changes).1.Ok?
    ensures EmitChanges(s, changes).0.hub.events == s.hub.events + ChangeEvents(changes)
    ensures EmitChanges(s, changes).0.hub.(events := s.hub.events) == s.hub
    decreases |changes|
  {
    if |changes| > 0 {
      var e := Communication.DeviceChanged(changes[0]);
      var s' := Emit(s, e).0;
      assert s'.hub.events == s.hub.events + [e];
      assert s'.hub.(events := s.hub.events) == s.hub;
      assert EmitChanges(s, changes) == EmitChanges(s', changes[1..]);
      EmitChangesInOrder(s', changes[1..]);
      assert ChangeEvents(changes) == [e] + ChangeEvents(changes[1..]);
    }
  }

  /** The permission test of `perform_monitoring_cycle`. */
  predicate LooksLikePermissionProblem(text: string) {
    Text.Contains(text, "Access") || Text.Contains(text, "Permission")
  }

  /** `perform_monitoring_cycle`: without a monitor nothing happens. A
      successful poll stores the updated monitor and announces each change;
      a failed poll is reported, as a permission problem when its text
      mentions access or permission, and returned. */
  function PerformMonitoringCycle(s: Service, env: Env): (r: Outcome)
    ensures s.monitor.None? ==> r == (s, Ok(Unit))
    ensures r.0.isMonitoring == s.isMonitoring && r.0.shutdown == s.shutdown && r.0.filter == s.filter
    ensures s.monitor.Some? && UsbMonitor.MonitorChanges(s.monitor.value, env.bus, env.now).Ok? ==>
      r == EmitChanges(s.(monitor := Some(UsbMonitor.MonitorChanges(s.monitor.value, env.bus, env.now).value.0)),
                       UsbMonitor.MonitorChanges(s.monitor.value, env.bus, env.now).value.1)
    ensures s.monitor.Some? && UsbMonitor.MonitorChanges(s.monitor.value, env.bus, env.now).Err? ==>
      r.1.Err? && r.0.monitor == s.monitor
  {
    match s.monitor
    case None => (s, Ok(Unit))
    case Some(m) =>
      match UsbMonitor.MonitorChanges(m, env.bus, env.now)
      case Ok((m', changes)) => EmitChanges(s.(monitor := Some(m')), changes)
      case Err(e) =>
        var text := "Device monitoring error: " + e;
        if LooksLikePermissionProblem(text) then
          EmitThenFail(s, Communication.PermissionError(text), Errors.UsbMonitoringFailed(text))
        else
          EmitThenFail(s, Communication.MonitoringError(text), Errors.UsbMonitoringFailed(text))
  }

  /** A needle whose first character does not occur in the haystack does
      not occur in it. */
  lemma {:induction false} AbsentFirstCharNotContained(hay: string, needle: string)
    requires |needle| > 0 && needle[0] !in hay
    ensures !Text.Contains(hay, needle)
    decreases |hay|
  {
    if |hay| > 0 {
      assert hay[0] in hay;
      assert forall c :: c in hay[1..] ==> c in hay;
      AbsentFirstCharNotContained(hay[1..], needle);
    }
  }

  /** The text a failed poll is reported with. */
  lemma BusFailureTextIsQuiet()
    ensures !LooksLikePermissionProblem("Device monitoring error: " + "Failed to get device list")
  {
    var head := "Device monitoring error: ";
    var tail := "Failed to get device list";
    assert 'A' !in head && 'A' !in tail;
    assert 'P' !in head && 'P' !in tail;
    AbsentFirstCharNotContained(head + tail, "Access");
    AbsentFirstCharNotContained(head + tail, "Permission");
  }

  /** The permission branch of the monitoring cycle never fires for a bus
      failure: the poll's error text is only its context message, which
      mentions neither access nor permission, so the failure is always
      reported as a monitoring error. */
  lemma BusFailureIsMonitoringError(s: Service, env: Env)
    requires s.monitor.Some? && env.bus.Err?
    ensures PerformMonitoringCycle(s, env).0
         == Emit(s, Communication.MonitoringError("Device monitoring error: " + "Failed to get device list")).0
    ensures PerformMonitoringCycle(s, env).1 == Err(Errors.UsbMonitoringFailed("Device monitoring error: " + "Failed to get device list"))
      || !s.hub.guiAlive
  {
    BusFailureTextIsQuiet();
  }

  /** `handle_command`: dispatch to the handler; Shutdown only raises the
      shutdown flag. */
  function HandleCommand(s: Service, c: Communication.MonitorCommand, env: Env): (r: Outcome)
    ensures c == Communication.Shutdown ==>
      r == (s.(shutdown := Communication.SignalShutdown(s.shutdown)), Ok(Unit))
    ensures c != Communication.Shutdown ==> r.0.shutdown == s.shutdown
  {
    match c
    case StartMonitoring => StartMonitoring(s, env)
    case StopMonitoring => StopMonitoring(s)
    case RefreshDevices => RefreshDevices(s, env)
    case SetFilter(f) => SetFilter(s, f, env)
    case SetPollingInterval(ms) => SetPollingInterval(s, ms)
    case Shutdown => (s.(shutdown := Communication.SignalShutdown(s.shutdown)), Ok(Unit))
  }

  // ---------------------------------------------------------------------
  // Main loop
  // ---------------------------------------------------------------------

  /** The three branches of the loop's `select!`. */
  datatype Branch = ShutdownSignal | CommandReady | Tick

  /** A branch can be chosen: the shutdown wait completes once the flag is
      raised, the command receive once a command is queued or the channel
      has closed, and the poll tick only while monitoring. */
  predicate Enabled(s: Service, b: Branch) {
    match b
    case ShutdownSignal => s.shutdown.signaled
    case CommandReady => !Communication.RecvCommand(s.hub).Pending?
    case Tick => s.isMonitoring
  }

  /** Where the loop stands: still running, or left (to clean up). */
  datatype LoopState = Looping(service: Service) | Left(service: Service)

  /** One turn of the loop on a chosen branch. Handler and cycle errors are
      logged and the loop goes on. */
  function LoopStep(s: Service, b: Branch, env: Env): (r: LoopState)
    requires Enabled(s, b)
    ensures r.Left? <==> b == ShutdownSignal || (b == CommandReady && Communication.RecvCommand(s.hub).Closed?)
    ensures s.shutdown.signaled ==> r.service.shutdown.signaled
  {
    match b
    case ShutdownSignal => Left(s)
    case CommandReady =>
      (match Communication.RecvCommand(s.hub)
       case Got(c, hub) => Looping(HandleCommand(s.(hub := hub), c, env).0)
       case Closed => Left(s))
    case Tick => Looping(PerformMonitoringCycle(s, env).0)
  }

  /** Run the loop on a schedule of branch choices (a choice whose branch is
      not ready is passed over) until it is left or the schedule ends. */
  function RunLoop(st: LoopState, schedule: seq<(Branch, Env)>): LoopState
    decreases |schedule|
  {
    if |schedule| == 0 || st.Left? then st
    else
      var (b, env) := schedule[0];
      var next := if Enabled(st.service, b) then LoopStep(st.service, b, env) else st;
      RunLoop(next, schedule[1..])
  }

  /** The shutdown flag is sticky across the loop: once raised, every later
      state has it raised. */
  lemma {:induction false} ShutdownSticky(st: LoopState, schedule: seq<(Branch, Env)>)
    requires st.service.shutdown.signaled
    ensures RunLoop(st, schedule).service.shutdown.signaled
    decreases |schedule|
  {
    if |schedule| > 0 && st.Looping? {
      var (b, env) := schedule[0];
      var next := if Enabled(st.service, b) then LoopStep(st.service, b, env) else st;
      ShutdownSticky(next, schedule[1..]);
    }
  }

  /** A raised flag makes the shutdown branch ready, and choosing it
      leaves the loop at once. */
  lemma ShutdownLeaves(s: Service, env: Env)
    requires s.shutdown.signaled
    ensures Enabled(s, ShutdownSignal)
    ensures LoopStep(s, ShutdownSignal, env) == Left(s)
  {
  }

  /** Leaving the loop: monitoring is stopped (sending MonitoringStopped if
      it was on) and the service drops its end of the channels. */
  function Finish(s: Service): (r: Outcome)
    ensures !r.0.isMonitoring && !r.0.hub.serviceAlive
    ensures r.1 == StopMonitoring(s).1
    ensures r.0.hub.events == StopMonitoring(s).0.hub.events
  {
    var (s', result) := StopMonitoring(s);
    (s'.(hub := s'.hub.(serviceAlive := false)), result)
  }

  /** `run`: try to create the monitor (a failure leaves the service in
      degraded mode), loop, and clean up if the loop was left. */
  function Run(s: Service, startEnv: Env, schedule: seq<(Branch, Env)>): (r: LoopState)
    ensures r.Left? ==> !r.service.isMonitoring && !r.service.hub.serviceAlive
  {
    var s0 := InitializeUsbMonitor(s, startEnv).0;
    match RunLoop(Looping(s0), schedule)
    case Looping(s') => Looping(s')
    case Left(s') => Left(Finish(s').0)
  }

  /** Starting an idle service that already has its monitor, while the GUI
      listens and the bus answers: the GUI receives MonitoringStarted and
      then the filtered device list, its cache reads Running with that
      list, and the flag is raised; the commands and the shutdown flag are
      untouched. */
  lemma StartMonitoringEmits(s: Service, env: Env)
    requires !s.isMonitoring && s.monitor.Some? && s.hub.guiAlive && env.bus.Ok?
    ensures var r := StartMonitoring(s, env);
      var devs := UsbMonitor.ConnectedDevices(s.monitor.value.filter, env.bus).value;
      && r.1.Ok? && r.0.isMonitoring
      && r.0.hub.events == s.hub.events + [Communication.MonitoringStarted, Communication.DevicesUpdated(devs)]
      && r.0.hub.status == Communication.Running && r.0.hub.devices == devs
      && r.0.hub.commands == s.hub.commands && r.0.hub.guiAlive
      && r.0.shutdown == s.shutdown && r.0.monitor == s.monitor
  {
    var started := Emit(s.(isMonitoring := true), Communication.MonitoringStarted).0;
    assert started.hub.events == s.hub.events + [Communication.MonitoringStarted];
    assert started.hub.status == Communication.Running;
  }

  /** Leaving the loop while monitoring: the GUI receives MonitoringStopped
      last and its cache reads Stopped; the device list is kept. */
  lemma FinishStopsMonitoring(s: Service)
    requires s.isMonitoring && s.hub.guiAlive
    ensures var r := Finish(s).0;
      && r.hub.events == s.hub.events + [Communication.MonitoringStopped]
      && r.hub.status == Communication.Stopped && r.hub.devices == s.hub.devices
  {
  }

  /** A service started normally and sent [StartMonitoring, Shutdown]
      leaves the loop once the shutdown branch is taken; the GUI has then
      seen MonitoringStarted, the initial device list and MonitoringStopped,
      in that order, and its status cache reads Stopped. */
  lemma StartThenShutdown(hub: Communication.Hub, env: Env)
    requires hub.guiAlive && hub.commands == [] && hub.events == []
    requires env.permission.None? && env.contextOk && env.bus.Ok?
    ensures var s := NewService(hub.(commands := [Communication.StartMonitoring, Communication.Shutdown]));
      var r := Run(s, env, [(CommandReady, env), (CommandReady, env), (ShutdownSignal, env)]);
      var devs := UsbMonitor.ConnectedDevices(None, env.bus).value;
      && r.Left?
      && r.service.hub.events == [Communication.MonitoringStarted, Communication.DevicesUpdated(devs),
                                 Communication.MonitoringStopped]
      && r.service.hub.status == Communication.Stopped
      && r.service.hub.devices == devs
  {
    var s := NewService(hub.(commands := [Communication.StartMonitoring, Communication.Shutdown]));
    // Start-up: the monitor is created without a filter.
    var s0 := InitializeUsbMonitor(s, env).0;
    var schedule := [(CommandReady, env), (CommandReady, env), (ShutdownSignal, env)];
    StartThenShutdownLoop(s0, env);
    FinishStopsMonitoring(RunLoop(Looping(s0), schedule).service);
  }

  /** The loop of an idle service with a monitor, sent [StartMonitoring,
      Shutdown]: the two commands are handled in turn and the loop is left
      on the shutdown branch, monitoring, with the GUI holding
      MonitoringStarted and the device list. */
  lemma StartThenShutdownLoop(s0: Service, env: Env)
    requires s0.monitor.Some? && !s0.isMonitoring && env.bus.Ok?
    requires s0.hub.guiAlive && s0.hub.events == []
    requires s0.hub.commands == [Communication.StartMonitoring, Communication.Shutdown]
    ensures var r := RunLoop(Looping(s0), [(CommandReady, env), (CommandReady, env), (ShutdownSignal, env)]);
      var devs := UsbMonitor.ConnectedDevices(s0.monitor.value.filter, env.bus).value;
      && r.Left? && r.service.isMonitoring && r.service.hub.guiAlive
      && r.service.hub.events == [Communication.MonitoringStarted, Communication.DevicesUpdated(devs)]
      && r.service.hub.devices == devs
  {
    // First turn: StartMonitoring.
    var hub1 := s0.hub.(commands := [Communication.Shutdown]);
    assert Communication.RecvCommand(s0.hub) == Communication.Got(Communication.StartMonitoring, hub1);
    var s1 := StartMonitoring(s0.(hub := hub1), env).0;
    StartMonitoringEmits(s0.(hub := hub1), env);
    assert LoopStep(s0, CommandReady, env) == Looping(s1);
    // Second turn: Shutdown.
    var s2 := s1.(hub := s1.hub.(commands := []), shutdown := Communication.SignalShutdown(s1.shutdown));
    assert LoopStep(s1, CommandReady, env) == Looping(s2);
    // Third turn: the shutdown branch.
    var schedule := [(CommandReady, env), (CommandReady, env), (ShutdownSignal, env)];
    assert RunLoop(Looping(s2), schedule[2..]) == Left(s2);
    assert RunLoop(Looping(s1), schedule[1..]) == RunLoop(Looping(s2), schedule[2..]);
    assert RunLoop(Looping(s0), schedule) == RunLoop(Looping(s1), schedule[1..]);
  }
}

=== FILE: ordered_map.dfy ===
/** Keyed tables with a definite iteration order.

    The source keeps its device maps in Rust `HashMap`s, whose iteration
    order is unspecified. The model keeps them as association lists in
    insertion order: one admissible iteration order among all those a
    `HashMap` may produce. Every property the model proves about a diff is
    stated per key, so it does not depend on the order chosen here. */
module OrderedMap {
  import opened Wrappers

  datatype Entry<K, V> = Entry(key: K, value: V)

  function Keys<K(==), V>(t: seq<Entry<K, V>>): (ks: set<K>)
    ensures forall i :: 0 <= i < |t| ==> t[i].key in ks
    decreases |t|
  {
    if |t| == 0 then {}
    else
      var rest := Keys(t[1..]);
      assert forall i :: 0 < i < |t| ==> t[i] == t[1..][i - 1];
      {t[0].key} + rest
  }

  /** No key appears twice: the table denotes a finite map. */
  predicate UniqueKeys<K(==), V>(t: seq<Entry<K, V>>)
    decreases |t|
  {
    |t| == 0 || (t[0].key !in Keys(t[1..]) && UniqueKeys(t[1..]))
  }

  /** The value stored under `k`, if any (`HashMap::get`). */
  function Get<K(==), V>(t: seq<Entry<K, V>>, k: K): (r: Option<V>)
    ensures r.None? <==> k !in Keys(t)
    ensures r.Some? ==> Entry(k, r.value) in t
    decreases |t|
  {
    if |t| == 0 then None
    else if t[0].key == k then Some(t[0].value)
    else Get(t[1..], k)
  }

  /** In a table with unique keys, every entry is what `Get` finds. */
  lemma {:induction false} GetEntry<K, V>(t: seq<Entry<K, V>>, i: int)
    requires UniqueKeys(t)
    requires 0 <= i < |t|
    ensures Get(t, t[i].key) == Some(t[i].value)
    decreases |t|
  {
    if i > 0 {
      var tail := t[1..];
      assert t[i] == tail[i - 1];
      assert t[i].key in Keys(tail);
      GetEntry(tail, i - 1);
    }
  }

  /** `HashMap::insert`: overwrite the value of an existing key in place,
      or append a new entry. */
  function Put<K(==,!new), V>(t: seq<Entry<K, V>>, k: K, v: V): (r: seq<Entry<K, V>>)
    ensures Keys(r) == Keys(t) + {k}
    ensures UniqueKeys(t) ==> UniqueKeys(r)
    ensures Get(r, k) == Some(v)
    ensures forall k' :: k' != k ==> Get(r, k') == Get(t, k')
    ensures k in Keys(t) ==> |r| == |t|
    ensures k !in Keys(t) ==> |r| == |t| + 1
    ensures forall e :: e in r ==> e in t || e == Entry(k, v)
    decreases |t|
  {
    if |t| == 0 then [Entry(k, v)]
    else if t[0].key == k then
      var r := [Entry(k, v)] + t[1..];
      assert r[1..] == t[1..];
      r
    else
      var r := [t[0]] + Put(t[1..], k, v);
      assert r[1..] == Put(t[1..], k, v);
      r
  }

  /** A lookup after an insertion: the inserted value under its key, the
      old lookup under every other key. */
  lemma PutGet<K(!new), V>(t: seq<Entry<K, V>>, k: K, v: V, k': K)
    ensures Get(Put(t, k, v), k') == if k' == k then Some(v) else Get(t, k')
  {
  }

  /** A table with unique keys has exactly as many keys as entries. */
  lemma {:induction false} KeyCount<K, V>(t: seq<Entry<K, V>>)
    requires UniqueKeys(t)
    ensures |Keys(t)| == |t|
    decreases |t|
  {
    if |t| > 0 {
      KeyCount(t[1..]);
    }
  }

  /** The values of a table, in table order. */
  function Values<K, V>(t: seq<Entry<K, V>>): (vs: seq<V>)
    ensures |vs| == |t|
    ensures forall i :: 0 <= i < |t| ==> vs[i] == t[i].value
  {
    seq(|t|, i requires 0 <= i < |t| => t[i].value)
  }

  /** The keys of concatenated tables are the union of their keys. */
  lemma {:induction false} ConcatKeys<K, V>(a: seq<Entry<K, V>>, b: seq<Entry<K, V>>)
    ensures Keys(a + b) == Keys(a) + Keys(b)
    decreases |a|
  {
    if |a| > 0 {
      assert (a + b)[1..] == a[1..] + b;
      ConcatKeys(a[1..], b);
    } else {
      assert a + b == b;
    }
  }

  /** A lookup in concatenated tables prefers the first table. */
  lemma {:induction false} ConcatGet<K, V>(a: seq<Entry<K, V>>, b: seq<Entry<K, V>>, k: K)
    ensures Get(a + b, k) == if k in Keys(a) then Get(a, k) else Get(b, k)
    decreases |a|
  {
    if |a| > 0 {
      assert (a + b)[1..] == a[1..] + b;
      ConcatGet(a[1..], b, k);
    } else {
      assert a + b == b;
    }
  }

  /** Concatenated tables have unique keys exactly when each part does and
      the parts share no key. */
  lemma {:induction false} ConcatUnique<K, V>(a: seq<Entry<K, V>>, b: seq<Entry<K, V>>)
    ensures UniqueKeys(a + b) <==> UniqueKeys(a) && UniqueKeys(b) && Keys(a) !! Keys(b)
    decreases |a|
  {
    if |a| > 0 {
      assert (a + b)[1..] == a[1..] + b;
      ConcatUnique(a[1..], b);
      ConcatKeys(a[1..], b);
    } else {
      assert a + b == b;
    }
  }

  /** Unique keys means pairwise distinct keys. */
  lemma {:induction false} UniqueKeysDistinct<K, V>(t: seq<Entry<K, V>>)
    ensures UniqueKeys(t) <==> forall i, j :: 0 <= i < j < |t| ==> t[i].key != t[j].key
    decreases |t|
  {
    if |t| > 0 {
      var tail := t[1..];
      UniqueKeysDistinct(tail);
      assert forall i :: 0 < i < |t| ==> t[i] == tail[i - 1];
      if UniqueKeys(t) {
        forall i, j | 0 <= i < j < |t| ensures t[i].key != t[j].key {
          if i > 0 {
            assert t[i].key == tail[i - 1].key && t[j].key == tail[j - 1].key;
          }
        }
      }
      if forall i, j :: 0 <= i < j < |t| ==> t[i].key != t[j].key {
        forall i | 0 <= i < |tail| ensures tail[i].key != t[0].key {
          assert tail[i] == t[i + 1];
        }
        KeysMember(tail, t[0].key);
      }
    }
  }

  /** A key is in the table exactly when some entry carries it. */
  lemma {:induction false} KeysMember<K, V>(t: seq<Entry<K, V>>, k: K)
    ensures k in Keys(t) <==> exists i :: 0 <= i < |t| && t[i].key == k
    decreases |t|
  {
    if |t| > 0 {
      KeysMember(t[1..], k);
      if k in Keys(t[1..]) {
        var i :| 0 <= i < |t[1..]| && t[1..][i].key == k;
        assert t[i + 1].key == k;
      }
    }
  }
}

=== FILE: output.dfy ===
/** The two text helpers of src/output.rs that shape report fields:
    `truncate_string`, which shortens the manufacturer and product columns
    of the table report, and `escape_csv_field`, which quotes a CSV field
    holding a comma, a double quote or a line feed and doubles its quotes
    (the quote doubling of rule 7 of section 2 of RFC 4180; a carriage
    return alone does not trigger quoting).

    Text is the UTF-8 byte sequence of a Rust `&str`, because the source
    measures and slices it in bytes. */
module Output {
  import opened Wrappers
  import opened MachineInts

  type Bytes = seq<U8>

  const Quote: U8 := 0x22
  const Comma: U8 := 0x2C
  const Newline: U8 := 0x0A
  const Dot: U8 := 0x2E

  /** The "..." that marks a truncated field. */
  const Ellipsis: Bytes := [Dot, Dot, Dot]

  // ---------------------------------------------------------------------
  // Truncation
  // ---------------------------------------------------------------------

  /** `usize::saturating_sub(max_len, 3)`. */
  function KeepLength(maxLen: nat): (n: nat)
    ensures maxLen >= 3 ==> n + 3 == maxLen
    ensures maxLen < 3 ==> n == 0
  {
    if maxLen >= 3 then maxLen - 3 else 0
  }

  /** `str::is_char_boundary`: the ends of the text, and every index whose
      byte is not a UTF-8 continuation byte (`10xxxxxx`). */
  predicate IsCharBoundary(s: Bytes, i: nat) {
    i == 0 || i == |s| || (i < |s| && !(0x80 <= s[i] < 0xC0))
  }

  /** `truncate_string` exactly as written: `&s[..n]` panics (here `None`)
      when byte `n` falls inside a multi-byte character. */
  function TruncateAsWritten(s: Bytes, maxLen: nat): (r: Option<Bytes>)
    ensures |s| <= maxLen ==> r == Some(s)
    ensures |s| > maxLen ==> (r.Some? <==> IsCharBoundary(s, KeepLength(maxLen)))
    ensures |s| > maxLen && r.Some? ==> r.value == s[..KeepLength(maxLen)] + Ellipsis
  {
    if |s| <= maxLen then Some(s)
    else
      var n := KeepLength(maxLen);
      if IsCharBoundary(s, n) then Some(s[..n] + Ellipsis) else None
  }

  /** The text "ééé" (each character two bytes) cut to four bytes: the cut
      after one byte lands inside the first character, so the helper
      panics on input like this. Its only callers pass a limit of 25 and
      names read as ASCII descriptor strings, on which it never panics
      (`TruncateAscii`), so the panic is latent. */
  lemma TruncatePanicsMidCharacter()
    ensures TruncateAsWritten([0xC3, 0xA9, 0xC3, 0xA9, 0xC3, 0xA9], 4).None?
  {
    var s: Bytes := [0xC3, 0xA9, 0xC3, 0xA9, 0xC3, 0xA9];
    assert s[1] == 0xA9;
  }

  /** The greatest character boundary at or below `i` (`floor_char_boundary`). */
  function FloorBoundary(s: Bytes, i: nat): (b: nat)
    requires i <= |s|
    ensures b <= i && IsCharBoundary(s, b)
    ensures forall j :: b < j <= i ==> !IsCharBoundary(s, j)
  {
    if IsCharBoundary(s, i) then i else FloorBoundary(s, i - 1)
  }

  /** `truncate_string` as intended: a text within `maxLen` bytes is
      returned unchanged; a longer one is cut at the last character
      boundary that leaves room for "..." and the marker is appended. */
  function Truncate(s: Bytes, maxLen: nat): (r: Bytes)
    ensures |s| <= maxLen ==> r == s
    ensures |s| > maxLen ==> exists cut: nat :: (cut <= KeepLength(maxLen) && IsCharBoundary(s, cut)
                                            && r == s[..cut] + Ellipsis)
    ensures |s| > maxLen && maxLen >= 3 ==> |r| <= maxLen
    ensures |s| > maxLen && maxLen < 3 ==> r == Ellipsis
  {
    if |s| <= maxLen then s
    else
      var cut := FloorBoundary(s, KeepLength(maxLen));
      s[..cut] + Ellipsis
  }

  /** The corrected helper differs from the source only where the source
      panics; where the source returns, the two agree. In particular, when
      the cut lands on a boundary the result is exactly `maxLen` bytes for
      `maxLen >= 3`. */
  lemma {:induction false} TruncateAgreesWhereDefined(s: Bytes, maxLen: nat)
    ensures TruncateAsWritten(s, maxLen).Some? ==> TruncateAsWritten(s, maxLen).value == Truncate(s, maxLen)
    ensures |s| > maxLen && maxLen >= 3 && IsCharBoundary(s, KeepLength(maxLen)) ==> |Truncate(s, maxLen)| == maxLen
  {
    if |s| > maxLen && IsCharBoundary(s, KeepLength(maxLen)) {
      assert FloorBoundary(s, KeepLength(maxLen)) == KeepLength(maxLen);
    }
  }

  /** On ASCII text every index is a character boundary, so the helper as
      written does not panic, and both it and the corrected helper give
      exactly the first `maxLen - 3` bytes and "...". */
  lemma TruncateAscii(s: Bytes, maxLen: nat)
    requires forall i :: 0 <= i < |s| ==> s[i] < 0x80
    requires |s| > maxLen
    ensures Truncate(s, maxLen) == s[..KeepLength(maxLen)] + Ellipsis
    ensures TruncateAsWritten(s, maxLen) == Some(s[..KeepLength(maxLen)] + Ellipsis)
  {
    TruncateAgreesWhereDefined(s, maxLen);
  }

  // ---------------------------------------------------------------------
  // CSV escaping
  // ---------------------------------------------------------------------

  /** A field must be quoted when it holds a comma, a double quote or a
      line feed. */
  predicate NeedsQuoting(f: Bytes) {
    Comma in f || Quote in f || Newline in f
  }

  /** `field.replace('"', "\"\"")`: every double quote doubled. */
  function DoubleQuotes(f: Bytes): (r: Bytes)
    ensures Quote !in f ==> r == f
    ensures |r| >= |f|
    decreases |f|
  {
    if |f| == 0 then []
    else (if f[0] == Quote then [Quote, Quote] else [f[0]]) + DoubleQuotes(f[1..])
  }

  /** `escape_csv_field`. */
  function EscapeCsvField(f: Bytes): (r: Bytes)
    ensures !NeedsQuoting(f) <==> r == f
    ensures NeedsQuoting(f) ==> r == [Quote] + DoubleQuotes(f) + [Quote]
  {
    if NeedsQuoting(f) then [Quote] + DoubleQuotes(f) + [Quote] else f
  }

  /** Collapse each doubled quote back to one. */
  function CollapseQuotes(g: Bytes): Bytes
    decreases |g|
  {
    if |g| == 0 then []
    else if |g| >= 2 && g[0] == Quote && g[1] == Quote then [Quote] + CollapseQuotes(g[2..])
    else [g[0]] + CollapseQuotes(g[1..])
  }

  /** Reading a field back: a quoted field loses its outer quotes and its
      doubled quotes are collapsed; any other field is taken as it is. */
  function UnescapeCsvField(g: Bytes): Bytes {
    if |g| >= 2 && g[0] == Quote && g[|g| - 1] == Quote then CollapseQuotes(g[1..|g| - 1])
    else g
  }

  /** Collapsing undoes doubling. */
  lemma {:induction false} CollapseDoubled(f: Bytes)
    ensures CollapseQuotes(DoubleQuotes(f)) == f
    decreases |f|
  {
    if |f| > 0 {
      CollapseDoubled(f[1..]);
      var rest := DoubleQuotes(f[1..]);
      if f[0] == Quote {
        assert DoubleQuotes(f) == [Quote, Quote] + rest;
        assert (DoubleQuotes(f))[2..] == rest;
      } else {
        assert DoubleQuotes(f) == [f[0]] + rest;
        assert (DoubleQuotes(f))[1..] == rest;
      }
    }
  }

  /** Inside the quotes of an escaped field no quote stands alone: the
      doubled text splits into ordinary bytes and quote pairs. */
  predicate QuotesPaired(g: Bytes)
    decreases |g|
  {
    if |g| == 0 then true
    else if g[0] == Quote then |g| >= 2 && g[1] == Quote && QuotesPaired(g[2..])
    else QuotesPaired(g[1..])
  }

  lemma {:induction false} DoubledQuotesPaired(f: Bytes)
    ensures QuotesPaired(DoubleQuotes(f))
    decreases |f|
  {
    if |f| > 0 {
      DoubledQuotesPaired(f[1..]);
      var rest := DoubleQuotes(f[1..]);
      if f[0] == Quote {
        assert DoubleQuotes(f)[2..] == rest;
      } else {
        assert DoubleQuotes(f)[1..] == rest;
      }
    }
  }

  /** Escaping is undone by reading the field back, and a quoted field's
      body has every quote doubled, as rule 7 of section 2 of RFC 4180
      asks. */
  lemma EscapeRoundTrip(f: Bytes)
    ensures UnescapeCsvField(EscapeCsvField(f)) == f
    ensures NeedsQuoting(f) ==> QuotesPaired(EscapeCsvField(f)[1..|EscapeCsvField(f)| - 1])
  {
    if NeedsQuoting(f) {
      var g := EscapeCsvField(f);
      assert g[1..|g| - 1] == DoubleQuotes(f);
      CollapseDoubled(f);
      DoubledQuotesPaired(f);
    } else if |f| >= 2 {
      assert f[0] in f;
    }
  }
}

=== FILE: text.dfy ===
/** Text primitives the source takes from Rust's standard library:
    substring search (`str::contains`), ASCII case folding
    (`str::to_lowercase` restricted to ASCII), decimal rendering of
    integers (`to_string`, `{}`), parsing of unsigned integers and booleans
    (`str::parse`), and zero-padded lower-case hexadecimal (`{:04x}`). */
module Text {
  import opened Wrappers

  // ---------------------------------------------------------------------
  // Substring search
  // ---------------------------------------------------------------------

  /** `needle` occurs in `hay` starting at position `i`. */
  ghost predicate OccursAt<T>(needle: seq<T>, hay: seq<T>, i: int) {
    0 <= i && i + |needle| <= |hay| && hay[i..i + |needle|] == needle
  }

  predicate IsPrefix<T(==)>(p: seq<T>, s: seq<T>) {
    |p| <= |s| && s[..|p|] == p
  }

  /** Rust's `str::contains`: the empty needle occurs everywhere. */
  function Contains<T(==)>(hay: seq<T>, needle: seq<T>): bool
    decreases |hay|
  {
    if IsPrefix(needle, hay) then true
    else if |hay| == 0 then false
    else Contains(hay[1..], needle)
  }

  /** An occurrence at position 0 is a prefix. */
  lemma OccursAtZeroIsPrefix<T>(needle: seq<T>, hay: seq<T>)
    ensures OccursAt(needle, hay, 0) <==> IsPrefix(needle, hay)
  {
    if |needle| <= |hay| {
      assert hay[0..|needle|] == hay[..|needle|];
    }
  }

  /** `Contains` is exactly substring occurrence. */
  lemma {:induction false} ContainsIffOccurs<T>(hay: seq<T>, needle: seq<T>)
    ensures Contains(hay, needle) <==> exists i :: OccursAt(needle, hay, i)
    decreases |hay|
  {
    OccursAtZeroIsPrefix(needle, hay);
    if IsPrefix(needle, hay) {
      assert OccursAt(needle, hay, 0);
    } else if |hay| == 0 {
      assert forall i :: OccursAt(needle, hay, i) ==> i == 0;
    } else {
      var tail := hay[1..];
      ContainsIffOccurs(tail, needle);
      forall j | OccursAt(needle, tail, j)
        ensures OccursAt(needle, hay, j + 1)
      {
        assert hay[j + 1..j + 1 + |needle|] == tail[j..j + |needle|];
      }
      forall i | OccursAt(needle, hay, i) && i > 0
        ensures OccursAt(needle, tail, i - 1)
      {
        assert tail[i - 1..i - 1 + |needle|] == hay[i..i + |needle|];
      }
    }
  }

  // ---------------------------------------------------------------------
  // ASCII case folding
  // ---------------------------------------------------------------------

  predicate IsUpper(c: char) {
    'A' <= c <= 'Z'
  }

  function LowerChar(c: char): char {
    if IsUpper(c) then (c as int + 32) as char else c
  }

  /** ASCII lower-casing: the result has no upper-case letter left, every
      other character is kept where it was, and each upper-case letter
      becomes the letter 32 code points above it. */
  function Lower(s: string): (r: string)
    ensures |r| == |s|
    ensures forall i :: 0 <= i < |r| ==> !IsUpper(r[i])
    ensures forall i :: 0 <= i < |s| && !IsUpper(s[i]) ==> r[i] == s[i]
    ensures forall i :: 0 <= i < |s| && IsUpper(s[i]) ==> r[i] as int == s[i] as int + 32 && 'a' <= r[i] <= 'z'
  {
    seq(|s|, i requires 0 <= i < |s| => LowerChar(s[i]))
  }

  /** Lower-casing twice is lower-casing once, and text without upper-case
      letters is left alone. */
  lemma LowerIdempotent(s: string)
    ensures Lower(Lower(s)) == Lower(s)
    ensures (forall i :: 0 <= i < |s| ==> !IsUpper(s[i])) ==> Lower(s) == s
  {
  }

  /** `hay.to_lowercase().contains(&needle.to_lowercase())`. */
  predicate ContainsIgnoringCase(hay: string, needle: string) {
    Contains(Lower(hay), Lower(needle))
  }

  /** Case-insensitive search does not see the case of either side:
      lower-casing the text or the needle first changes nothing. */
  lemma IgnoringCaseOfLowered(hay: string, needle: string)
    ensures ContainsIgnoringCase(Lower(hay), needle) == ContainsIgnoringCase(hay, needle)
    ensures ContainsIgnoringCase(hay, Lower(needle)) == ContainsIgnoringCase(hay, needle)
  {
    LowerIdempotent(hay);
    LowerIdempotent(needle);
  }

  // ---------------------------------------------------------------------
  // Decimal rendering and parsing
  // ---------------------------------------------------------------------

  predicate IsDigit(c: char) {
    '0' <= c <= '9'
  }

  predicate AllDigits(s: string) {
    forall i :: 0 <= i < |s| ==> IsDigit(s[i])
  }

  function DigitChar(d: nat): (c: char)
    requires d < 10
    ensures IsDigit(c)
  {
    ('0' as int + d) as char
  }

  /** The decimal rendering of `n` (Rust's `Display` for unsigned integers). */
  function Decimal(n: nat): (s: string)
    ensures |s| >= 1
    ensures AllDigits(s)
    decreases n
  {
    if n < 10 then [DigitChar(n)] else Decimal(n / 10) + [DigitChar(n % 10)]
  }

  /** The number a string of decimal digits denotes. */
  function DigitsValue(s: string): nat
    requires AllDigits(s)
  {
    if |s| == 0 then 0
    else DigitsValue(s[..|s| - 1]) * 10 + (s[|s| - 1] as int - '0' as int)
  }

  lemma {:induction false} DecimalRoundTrip(n: nat)
    ensures DigitsValue(Decimal(n)) == n
    decreases n
  {
    if n >= 10 {
      var s := Decimal(n);
      DecimalRoundTrip(n / 10);
      assert s[..|s| - 1] == Decimal(n / 10);
    }
  }

  /** Two numbers render the same exactly when they are equal. */
  lemma DecimalInjective(a: nat, b: nat)
    ensures Decimal(a) == Decimal(b) <==> a == b
  {
    DecimalRoundTrip(a);
    DecimalRoundTrip(b);
  }

  /** The exclusive upper bound of Rust's `u64`. */
  const U64Limit: nat := 0x1_0000_0000_0000_0000

  /** Rust's `u64::from_str`: an optional leading `+`, then at least one
      ASCII digit, and a value that fits in 64 bits. */
  function ParseU64(s: string): (r: Option<nat>)
    ensures r.Some? ==> r.value < U64Limit
  {
    var digits := if |s| > 0 && s[0] == '+' then s[1..] else s;
    if |digits| == 0 || !AllDigits(digits) then None
    else if DigitsValue(digits) >= U64Limit then None
    else Some(DigitsValue(digits))
  }

  /** Rendering a 64-bit value and parsing it back yields the value. */
  lemma ParseDecimalRoundTrip(n: nat)
    requires n < U64Limit
    ensures ParseU64(Decimal(n)) == Some(n)
  {
    DecimalRoundTrip(n);
  }

  /** Rust's `bool::from_str`: exactly `true` or `false`. */
  function ParseBool(s: string): (r: Option<bool>)
    ensures r.Some? <==> s == "true" || s == "false"
    ensures r.Some? ==> BoolText(r.value) == s
  {
    if s == "true" then Some(true)
    else if s == "false" then Some(false)
    else None
  }

  /** Rust's `Display` for `bool`. */
  function BoolText(b: bool): string {
    if b then "true" else "false"
  }

  // ---------------------------------------------------------------------
  // Hexadecimal rendering ({:04x})
  // ---------------------------------------------------------------------

  function HexDigit(d: nat): char
    requires d < 16
  {
    if d < 10 then DigitChar(d) else ('a' as int + d - 10) as char
  }

  /** A 16-bit value as four lower-case hexadecimal digits, zero-padded. */
  function Hex4(n: nat): (s: string)
    requires n < 0x1_0000
    ensures |s| == 4
  {
    [HexDigit(n / 0x1000), HexDigit(n / 0x100 % 16), HexDigit(n / 0x10 % 16), HexDigit(n % 16)]
  }
}

=== FILE: usb_monitor.dfy ===
/** The change-detection engine of src/usb_monitor.rs: the name filter
    applied to a bus snapshot, the per-device security check against the
    configured rules, the diff of the previous poll against the current
    one, and the per-device statistics and capped logs it maintains.

    The bus is an input: a snapshot is either the library's failure or one
    entry per device, `None` for a device whose descriptor could not be
    read. Timestamps are one `now` (seconds) per call. */
module UsbMonitor {
  import opened Wrappers
  import opened Device
  import opened OrderedMap
  import opened BoundedLog
  import Errors
  import Config
  import Text

  // ---------------------------------------------------------------------
  // State
  // ---------------------------------------------------------------------

  /** `DeviceStatistics`. Times and the connection duration are in
      seconds. */
  datatype DeviceStatistics = DeviceStatistics(
    totalConnections: nat,
    totalDisconnections: nat,
    totalBlocked: nat,
    firstSeen: nat,
    lastSeen: nat,
    connectionDuration: nat,
    connectionCount: nat)

  /** One `connection_history` entry: when, which device key, which status. */
  datatype HistoryEntry = HistoryEntry(time: nat, key: string, status: ConnectionStatus)

  datatype SecurityEventType = DeviceBlocked | DeviceAllowed | RuleViolation | SuspiciousActivity

  /** `SecurityAction`; the constructors carry an `Action` prefix so that
      they do not collide with the connection statuses of the same name. */
  datatype SecurityAction = ActionBlocked | ActionAllowed | ActionWarned | ActionLogged

  datatype SecurityEvent = SecurityEvent(
    time: nat,
    eventType: SecurityEventType,
    deviceInfo: UsbDeviceInfo,
    reason: string,
    actionTaken: SecurityAction)

  /** `UsbMonitor` without its libusb context. `config` is the configuration
      a config manager would supply, or `None` when none was set. */
  datatype Monitor = Monitor(
    previous: seq<Entry<string, UsbDeviceInfo>>,
    filter: Option<string>,
    statistics: seq<Entry<string, DeviceStatistics>>,
    history: seq<HistoryEntry>,
    securityEvents: seq<SecurityEvent>,
    config: Option<Config.Config>)

  /** A bus snapshot: the library's error, or one entry per device with
      `None` where the device's descriptor could not be read. */
  type BusSnapshot = Result<seq<Option<UsbDeviceInfo>>, Errors.RusbError>

  /** `UsbMonitor::new`: fails with the context's message when libusb cannot
      be initialised (`contextOk` is false); otherwise all tables and logs
      are empty and there is neither filter nor configuration. */
  function NewMonitor(contextOk: bool): (r: Result<Monitor, string>)
    ensures r.Err? <==> !contextOk
    ensures r.Err? ==> r.error == "Failed to create USB context"
    ensures r.Ok? ==> Valid(r.value) && r.value.filter.None? && r.value.config.None?
    ensures r.Ok? ==> r.value.previous == [] && r.value.statistics == []
    ensures r.Ok? ==> r.value.history == [] && r.value.securityEvents == []
  {
    if contextOk then Ok(Monitor([], None, [], [], [], None))
    else Err("Failed to create USB context")
  }

  /** `set_filter` (and `set_config_manager` for `config`). */
  function SetFilter(m: Monitor, filter: Option<string>): (r: Monitor)
    ensures r.filter == filter
    ensures r.(filter := m.filter) == m
  {
    m.(filter := filter)
  }

  // ---------------------------------------------------------------------
  // Invariant
  // ---------------------------------------------------------------------

  /** Every table entry is filed under its device's key. */
  ghost predicate KeyedByIdentity(t: seq<Entry<string, UsbDeviceInfo>>) {
    forall i :: 0 <= i < |t| ==> t[i].key == DeviceKey(t[i].value)
  }

  /** The floor on `connection_count` keeps it at most `total_connections`. */
  ghost predicate StatsSane(t: seq<Entry<string, DeviceStatistics>>) {
    forall i :: 0 <= i < |t| ==> t[i].value.connectionCount <= t[i].value.totalConnections
  }

  /** What every operation on a monitor preserves: the tables are maps
      keyed by device identity, both logs are within the cap, and no
      device has more live connections than it ever had connections. */
  ghost predicate Valid(m: Monitor) {
    && UniqueKeys(m.previous)
    && KeyedByIdentity(m.previous)
    && UniqueKeys(m.statistics)
    && StatsSane(m.statistics)
    && |m.history| <= MaxEntries
    && |m.securityEvents| <= MaxEntries
  }

  // ---------------------------------------------------------------------
  // Name filter and enumeration
  // ---------------------------------------------------------------------

  /** The filter of `get_connected_devices` as written: a device with a
      product string must contain the filter there; a device without one
      but with a manufacturer string is compared with its own manufacturer,
      which always succeeds; a device with neither is dropped. */
  predicate PassesFilterAsWritten(filter: Option<string>, d: UsbDeviceInfo) {
    match filter
    case None => true
    case Some(f) =>
      if d.product.Some? then Text.ContainsIgnoringCase(d.product.value, f)
      else if d.manufacturer.Some? then Text.ContainsIgnoringCase(d.manufacturer.value, d.manufacturer.value)
      else false
  }

  /** The filter as evidently intended: the manufacturer fallback tests
      the filter text. The poll and the service's device listing in this
      model are built on this one; `ConnectedDevicesAsWritten` is the
      listing the code as written produces. */
  predicate PassesFilter(filter: Option<string>, d: UsbDeviceInfo) {
    match filter
    case None => true
    case Some(f) =>
      if d.product.Some? then Text.ContainsIgnoringCase(d.product.value, f)
      else if d.manufacturer.Some? then Text.ContainsIgnoringCase(d.manufacturer.value, f)
      else false
  }

  /** Every string contains itself. */
  lemma ContainsSelf(s: string)
    ensures Text.ContainsIgnoringCase(s, s)
  {
  }

  /** The two filters disagree exactly on devices that have a manufacturer
      but no product string and whose manufacturer does not contain the
      filter: the code as written lets all of those through. */
  lemma FilterDiscrepancy(filter: Option<string>, d: UsbDeviceInfo)
    ensures PassesFilterAsWritten(filter, d) != PassesFilter(filter, d) <==>
      filter.Some? && d.product.None? && d.manufacturer.Some?
      && !Text.ContainsIgnoringCase(d.manufacturer.value, filter.value)
    ensures PassesFilter(filter, d) ==> PassesFilterAsWritten(filter, d)
  {
    if d.manufacturer.Some? {
      ContainsSelf(d.manufacturer.value);
    }
  }

  /** A needle longer than the haystack never occurs in it. */
  lemma {:induction false} LongerNeverContained(hay: string, needle: string)
    requires |needle| > |hay|
    ensures !Text.Contains(hay, needle)
    decreases |hay|
  {
    if |hay| > 0 {
      LongerNeverContained(hay[1..], needle);
    }
  }

  /** A concrete instance: with filter "Logitech", a device reporting only
      the manufacturer "Acme" is shown by the code as written and hidden by
      the intended filter. */
  lemma FilterDiscrepancyExample(d: UsbDeviceInfo)
    requires d.product.None? && d.manufacturer == Some("Acme")
    ensures PassesFilterAsWritten(Some("Logitech"), d)
    ensures !PassesFilter(Some("Logitech"), d)
  {
    ContainsSelf("Acme");
    LongerNeverContained(Text.Lower("Acme"), Text.Lower("Logitech"));
  }

  /** One of the two filters: the code as written or the intended one. */
  predicate Passes(filter: Option<string>, asWritten: bool, d: UsbDeviceInfo) {
    if asWritten then PassesFilterAsWritten(filter, d) else PassesFilter(filter, d)
  }

  /** The readable devices of a snapshot that pass the filter, in bus
      order. */
  function Readable(entries: seq<Option<UsbDeviceInfo>>, filter: Option<string>, asWritten: bool)
    : (r: seq<UsbDeviceInfo>)
    ensures |r| <= |entries|
    ensures forall d :: d in r ==> Some(d) in entries && Passes(filter, asWritten, d)
    ensures forall i :: 0 <= i < |entries| && entries[i].Some? && Passes(filter, asWritten, entries[i].value) ==>
      entries[i].value in r
    decreases |entries|
  {
    if |entries| == 0 then []
    else
      var rest := Readable(entries[1..], filter, asWritten);
      assert forall i :: 0 < i < |entries| ==> entries[i] == entries[1..][i - 1];
      if entries[0].Some? && Passes(filter, asWritten, entries[0].value) then [entries[0].value] + rest
      else rest
  }

  /** The listing of one bus entry: its device when it was read and
      passes, nothing otherwise. */
  lemma ReadableSingle(e: Option<UsbDeviceInfo>, filter: Option<string>, asWritten: bool)
    ensures Readable([e], filter, asWritten) == if e.Some? && Passes(filter, asWritten, e.value) then [e.value] else []
  {
    assert [e][1..] == [];
  }

  /** Listing two runs of the bus is listing each and concatenating: the
      listing keeps bus order, and each passing entry appears once per
      occurrence. */
  lemma {:induction false} ReadableAppend(x: seq<Option<UsbDeviceInfo>>, y: seq<Option<UsbDeviceInfo>>,
                                          filter: Option<string>, asWritten: bool)
    ensures Readable(x + y, filter, asWritten) == Readable(x, filter, asWritten) + Readable(y, filter, asWritten)
    decreases |x|
  {
    if |x| == 0 {
      assert x + y == y;
    } else {
      assert (x + y)[0] == x[0];
      assert (x + y)[1..] == x[1..] + y;
      ReadableAppend(x[1..], y, filter, asWritten);
    }
  }

  /** `get_connected_devices` with the intended filter: a failed bus read
      is reported with the context message only (the library's own text is
      not shown); devices whose descriptor cannot be read are skipped. */
  function ConnectedDevices(filter: Option<string>, bus: BusSnapshot): (r: Result<seq<UsbDeviceInfo>, string>)
    ensures r.Err? <==> bus.Err?
    ensures r.Err? ==> r.error == "Failed to get device list"
    ensures r.Ok? ==> forall d :: d in r.value <==> Some(d) in bus.value && PassesFilter(filter, d)
  {
    match bus
    case Err(_) => Err("Failed to get device list")
    case Ok(entries) => Ok(Readable(entries, filter, false))
  }

  /** `get_connected_devices` exactly as written, manufacturer
      self-comparison included. */
  function ConnectedDevicesAsWritten(filter: Option<string>, bus: BusSnapshot)
    : (r: Result<seq<UsbDeviceInfo>, string>)
    ensures r.Err? <==> bus.Err?
    ensures r.Err? ==> r.error == "Failed to get device list"
    ensures r.Ok? ==> forall d :: d in r.value <==> Some(d) in bus.value && PassesFilterAsWritten(filter, d)
  {
    match bus
    case Err(_) => Err("Failed to get device list")
    case Ok(entries) => Ok(Readable(entries, filter, true))
  }

  /** Both listings keep bus order and list a read, passing device once
      per bus entry: the listing of a bus is the listings of its parts
      concatenated, and a one-entry bus lists its device exactly when it
      was read and passes. */
  lemma ListingInBusOrder(filter: Option<string>, x: seq<Option<UsbDeviceInfo>>,
                          y: seq<Option<UsbDeviceInfo>>, e: Option<UsbDeviceInfo>)
    ensures ConnectedDevices(filter, Ok(x + y)).value
         == ConnectedDevices(filter, Ok(x)).value + ConnectedDevices(filter, Ok(y)).value
    ensures ConnectedDevicesAsWritten(filter, Ok(x + y)).value
         == ConnectedDevicesAsWritten(filter, Ok(x)).value + ConnectedDevicesAsWritten(filter, Ok(y)).value
    ensures ConnectedDevices(filter, Ok([e])).value == if e.Some? && PassesFilter(filter, e.value) then [e.value] else []
    ensures ConnectedDevicesAsWritten(filter, Ok([e])).value
         == if e.Some? && PassesFilterAsWritten(filter, e.value) then [e.value] else []
  {
    ReadableAppend(x, y, filter, false);
    ReadableAppend(x, y, filter, true);
    ReadableSingle(e, filter, false);
    ReadableSingle(e, filter, true);
  }

  /** The listing as written holds every device of the intended listing,
      plus exactly the readable devices that have a manufacturer but no
      product string and whose manufacturer does not contain the filter. */
  lemma ListingDiscrepancy(filter: Option<string>, bus: BusSnapshot)
    ensures ConnectedDevicesAsWritten(filter, bus).Err? <==> ConnectedDevices(filter, bus).Err?
    ensures bus.Ok? ==> forall d :: d in ConnectedDevicesAsWritten(filter, bus).value <==>
      || d in ConnectedDevices(filter, bus).value
      || (&& Some(d) in bus.value && filter.Some? && d.product.None? && d.manufacturer.Some?
          && !Text.ContainsIgnoringCase(d.manufacturer.value, filter.value))
  {
    if bus.Ok? {
      forall d: UsbDeviceInfo {
        FilterDiscrepancy(filter, d);
      }
    }
  }

  /** The current poll keyed by device identity; a later record with the
      same key replaces an earlier one (`HashMap::insert`). */
  function BuildTable(devs: seq<UsbDeviceInfo>): (r: seq<Entry<string, UsbDeviceInfo>>)
    ensures UniqueKeys(r)
    ensures KeyedByIdentity(r)
    decreases |devs|
  {
    if |devs| == 0 then []
    else
      var d := devs[|devs| - 1];
      var t := BuildTable(devs[..|devs| - 1]);
      var r := Put(t, DeviceKey(d), d);
      assert forall i :: 0 <= i < |r| ==> r[i] in t || r[i] == Entry(DeviceKey(d), d);
      r
  }

  /** Every record of the poll has its key in the table, and every value
      in the table is a record of the poll. */
  lemma {:induction false} BuildTableContents(devs: seq<UsbDeviceInfo>)
    ensures forall i :: 0 <= i < |devs| ==> DeviceKey(devs[i]) in Keys(BuildTable(devs))
    ensures forall e :: e in BuildTable(devs) ==> e.value in devs
    decreases |devs|
  {
    if |devs| > 0 {
      var init := devs[..|devs| - 1];
      var d := devs[|devs| - 1];
      BuildTableContents(init);
      assert devs == init + [d];
      assert BuildTable(devs) == Put(BuildTable(init), DeviceKey(d), d);
    }
  }

  /** The last record of a key in the poll is the one the table keeps. */
  lemma {:induction false} BuildTableLastWins(devs: seq<UsbDeviceInfo>, i: int)
    requires 0 <= i < |devs|
    requires forall j :: i < j < |devs| ==> DeviceKey(devs[j]) != DeviceKey(devs[i])
    ensures Get(BuildTable(devs), DeviceKey(devs[i])) == Some(devs[i])
    decreases |devs|
  {
    if i < |devs| - 1 {
      var init := devs[..|devs| - 1];
      assert init[i] == devs[i];
      BuildTableLastWins(init, i);
    }
  }

  // ---------------------------------------------------------------------
  // Security check
  // ---------------------------------------------------------------------

  /** The configured rules block the device (never, without a configuration). */
  predicate Blocks(config: Option<Config.Config>, d: UsbDeviceInfo) {
    config.Some? && Config.ShouldBlockDevice(config.value, d).0
  }

  /** The event `check_device_security` records for a device under a
      configuration. */
  function SecurityEventFor(c: Config.Config, d: UsbDeviceInfo, now: nat): (e: SecurityEvent)
    ensures e.deviceInfo == d && e.time == now
    ensures e.eventType == DeviceBlocked <==> Config.ShouldBlockDevice(c, d).0
    ensures e.eventType == DeviceBlocked <==> e.actionTaken == ActionBlocked
    ensures e.eventType == DeviceBlocked || e.eventType == DeviceAllowed
    ensures e.eventType == DeviceBlocked ==> e.reason == Config.ShouldBlockDevice(c, d).1.value
    ensures e.eventType == DeviceAllowed ==> e.reason == "Device passed security checks"
  {
    var (block, reason) := Config.ShouldBlockDevice(c, d);
    if block then
      SecurityEvent(now, DeviceBlocked, d,
        match reason case Some(text) => text case None => "Unknown reason",
        ActionBlocked)
    else
      SecurityEvent(now, DeviceAllowed, d, "Device passed security checks", ActionAllowed)
  }

  /** The outcome of one security check: the monitor with its event log
      updated, the decision, the rule's reason, and the action. */
  datatype SecurityCheck = SecurityCheck(
    monitor: Monitor, blocked: bool, reason: Option<string>, action: SecurityAction)

  /** `check_device_security`. With a configuration, exactly one event is
      appended to the capped log and the decision is the rules' decision;
      without one, nothing is logged and the device is allowed. */
  function CheckDeviceSecurity(m: Monitor, d: UsbDeviceInfo, now: nat): (r: SecurityCheck)
    ensures r.blocked <==> Blocks(m.config, d)
    ensures r.blocked <==> r.action == ActionBlocked
    ensures !r.blocked ==> r.reason.None? && r.action == ActionAllowed
    ensures r.blocked ==> r.reason == Config.ShouldBlockDevice(m.config.value, d).1
    ensures m.config.None? ==> r.monitor == m
    ensures m.config.Some? ==>
      r.monitor == m.(securityEvents := Push(m.securityEvents, SecurityEventFor(m.config.value, d, now)))
    ensures Valid(m) ==> Valid(r.monitor)
  {
    match m.config
    case None => SecurityCheck(m, false, None, ActionAllowed)
    case Some(c) =>
      var (block, reason) := Config.ShouldBlockDevice(c, d);
      var m' := m.(securityEvents := Push(m.securityEvents, SecurityEventFor(c, d, now)));
      if block then SecurityCheck(m', true, reason, ActionBlocked)
      else SecurityCheck(m', false, None, ActionAllowed)
  }

  /** The events a configuration records for a sequence of checks. */
  function EventsFor(c: Config.Config, devs: seq<UsbDeviceInfo>, now: nat): (es: seq<SecurityEvent>)
    ensures |es| == |devs|
    ensures forall i :: 0 <= i < |devs| ==> es[i] == SecurityEventFor(c, devs[i], now)
  {
    seq(|devs|, i requires 0 <= i < |devs| => SecurityEventFor(c, devs[i], now))
  }

  /** Check each device in turn. */
  function CheckAll(m: Monitor, devs: seq<UsbDeviceInfo>, now: nat): Monitor
    decreases |devs|
  {
    if |devs| == 0 then m
    else CheckAll(CheckDeviceSecurity(m, devs[0], now).monitor, devs[1..], now)
  }

  /** Checking devices in turn only appends their events, in order, to the
      capped log; nothing else about the monitor changes, and without a
      configuration nothing changes at all. */
  lemma {:induction false} CheckAllLogs(m: Monitor, devs: seq<UsbDeviceInfo>, now: nat)
    ensures m.config.None? ==> CheckAll(m, devs, now) == m
    ensures m.config.Some? ==>
      CheckAll(m, devs, now) == m.(securityEvents := PushAll(m.securityEvents, EventsFor(m.config.value, devs, now)))
    decreases |devs|
  {
    if |devs| > 0 {
      var m' := CheckDeviceSecurity(m, devs[0], now).monitor;
      CheckAllLogs(m', devs[1..], now);
      if m.config.Some? {
        var es := EventsFor(m.config.value, devs, now);
        assert es[1..] == EventsFor(m.config.value, devs[1..], now);
      }
    }
  }

  // ---------------------------------------------------------------------
  // The diff
  // ---------------------------------------------------------------------

  /** A departed device's record: status Disconnected, stamped now. */
  function Disconnect(d: UsbDeviceInfo, now: nat): (r: UsbDeviceInfo)
    ensures DeviceKey(r) == DeviceKey(d)
    ensures r.connectionStatus == Disconnected && r.timestamp == now
    ensures r.(connectionStatus := d.connectionStatus, timestamp := d.timestamp) == d
  {
    d.(connectionStatus := Disconnected, timestamp := now)
  }

  /** The change a key should produce, given its previous record and its
      record in this poll (either may be missing): a departure is a
      Disconnected change; an arrival is Blocked when the rules block it and
      Connected otherwise; a key present in both polls is Reconnected when
      its previous record is marked Disconnected and silent otherwise. This
      is the per-key reference the diff is proved against. */
  function ExpectedChange(prev: Option<UsbDeviceInfo>, cur: Option<UsbDeviceInfo>,
                          config: Option<Config.Config>, now: nat): Option<UsbDeviceChange>
  {
    match (prev, cur)
    case (None, None) => None
    case (Some(p), None) => Some(UsbDeviceChange(Disconnected, Disconnect(p, now)))
    case (None, Some(c)) =>
      var kind := if Blocks(config, c) then Blocked else Connected;
      Some(UsbDeviceChange(kind, WithStatus(c, kind)))
    case (Some(p), Some(c)) =>
      if p.connectionStatus == Disconnected then Some(UsbDeviceChange(Reconnected, WithStatus(c, Reconnected)))
      else None
  }

  /** Every change of a batch is filed under its device's key. */
  ghost predicate ChangesKeyed(b: seq<Entry<string, UsbDeviceChange>>) {
    forall i :: 0 <= i < |b| ==> b[i].key == DeviceKey(b[i].value.info)
  }

  /** The departures: every previous entry whose key is not in this poll,
      in previous-table order. */
  function Departures(prev: seq<Entry<string, UsbDeviceInfo>>, curKeys: set<string>, now: nat)
    : (r: seq<Entry<string, UsbDeviceChange>>)
    ensures Keys(r) == Keys(prev) - curKeys
    ensures forall i :: 0 <= i < |r| ==> r[i].value.kind == Disconnected
    decreases |prev|
  {
    if |prev| == 0 then []
    else
      var e := prev[0];
      var rest := Departures(prev[1..], curKeys, now);
      var head := if e.key in curKeys then [] else [Entry(e.key, UsbDeviceChange(Disconnected, Disconnect(e.value, now)))];
      assert Keys(head + rest) == Keys(head) + Keys(rest) by {
        ConcatKeys(head, rest);
      }
      head + rest
  }

  /** A table with unique keys gives departures with unique keys. */
  lemma {:induction false} DeparturesUnique(prev: seq<Entry<string, UsbDeviceInfo>>, curKeys: set<string>, now: nat)
    requires UniqueKeys(prev)
    ensures UniqueKeys(Departures(prev, curKeys, now))
    decreases |prev|
  {
    if |prev| > 0 {
      var e := prev[0];
      DeparturesUnique(prev[1..], curKeys, now);
      var rest := Departures(prev[1..], curKeys, now);
      var head := if e.key in curKeys then [] else [Entry(e.key, UsbDeviceChange(Disconnected, Disconnect(e.value, now)))];
      assert Departures(prev, curKeys, now) == head + rest;
      ConcatUnique(head, rest);
    }
  }

  /** A departed key's change in the departures is the expected
      Disconnected change. */
  lemma {:induction false} DeparturesGet(prev: seq<Entry<string, UsbDeviceInfo>>, curKeys: set<string>, now: nat, k: string)
    requires k in Keys(Departures(prev, curKeys, now))
    ensures Get(Departures(prev, curKeys, now), k) == ExpectedChange(Get(prev, k), None, None, now)
    decreases |prev|
  {
    var e := prev[0];
    var rest := Departures(prev[1..], curKeys, now);
    var head := if e.key in curKeys then [] else [Entry(e.key, UsbDeviceChange(Disconnected, Disconnect(e.value, now)))];
    assert Departures(prev, curKeys, now) == head + rest;
    ConcatGet(head, rest, k);
    if k !in Keys(head) {
      DeparturesGet(prev[1..], curKeys, now, k);
    }
  }

  /** The arrivals and reconnections, in current-table order. */
  function Arrivals(cur: seq<Entry<string, UsbDeviceInfo>>, prev: seq<Entry<string, UsbDeviceInfo>>,
                    config: Option<Config.Config>): (r: seq<Entry<string, UsbDeviceChange>>)
    ensures Keys(r) <= Keys(cur)
    ensures forall i :: 0 <= i < |r| ==> r[i].value.kind != Disconnected
    decreases |cur|
  {
    if |cur| == 0 then []
    else
      var e := cur[0];
      var rest := Arrivals(cur[1..], prev, config);
      var head := ArrivalHead(e, prev, config);
      assert Keys(head + rest) == Keys(head) + Keys(rest) by {
        ConcatKeys(head, rest);
      }
      head + rest
  }

  /** The change (if any) one current entry contributes to the arrivals. */
  function ArrivalHead(e: Entry<string, UsbDeviceInfo>, prev: seq<Entry<string, UsbDeviceInfo>>,
                       config: Option<Config.Config>): seq<Entry<string, UsbDeviceChange>>
  {
    match ExpectedChange(Get(prev, e.key), Some(e.value), config, 0)
    case None => []
    case Some(change) => [Entry(e.key, change)]
  }

  /** A table with unique keys gives arrivals with unique keys. */
  lemma {:induction false} ArrivalsUnique(cur: seq<Entry<string, UsbDeviceInfo>>, prev: seq<Entry<string, UsbDeviceInfo>>,
                                          config: Option<Config.Config>)
    requires UniqueKeys(cur)
    ensures UniqueKeys(Arrivals(cur, prev, config))
    decreases |cur|
  {
    if |cur| > 0 {
      ArrivalsUnique(cur[1..], prev, config);
      var rest := Arrivals(cur[1..], prev, config);
      var head := ArrivalHead(cur[0], prev, config);
      assert Arrivals(cur, prev, config) == head + rest;
      ConcatUnique(head, rest);
    }
  }

  /** Per key of this poll, the arrivals hold the expected change. */
  lemma {:induction false} ArrivalsGet(cur: seq<Entry<string, UsbDeviceInfo>>, prev: seq<Entry<string, UsbDeviceInfo>>,
                                       config: Option<Config.Config>, k: string)
    requires UniqueKeys(cur) && k in Keys(cur)
    ensures Get(Arrivals(cur, prev, config), k) == ExpectedChange(Get(prev, k), Get(cur, k), config, 0)
    decreases |cur|
  {
    var rest := Arrivals(cur[1..], prev, config);
    var head := ArrivalHead(cur[0], prev, config);
    assert Arrivals(cur, prev, config) == head + rest;
    ConcatGet(head, rest, k);
    if k != cur[0].key {
      ArrivalsGet(cur[1..], prev, config, k);
    } else {
      assert k !in Keys(rest);
    }
  }

  /** Departures of a table keyed by identity are filed under their
      devices' keys. */
  lemma {:induction false} DeparturesKeyed(prev: seq<Entry<string, UsbDeviceInfo>>, curKeys: set<string>, now: nat)
    requires KeyedByIdentity(prev)
    ensures ChangesKeyed(Departures(prev, curKeys, now))
    decreases |prev|
  {
    if |prev| > 0 {
      KeyedTail(prev);
      DeparturesKeyed(prev[1..], curKeys, now);
    }
  }

  /** Arrivals from a table keyed by identity are filed under their
      devices' keys. */
  lemma {:induction false} ArrivalsKeyed(cur: seq<Entry<string, UsbDeviceInfo>>, prev: seq<Entry<string, UsbDeviceInfo>>,
                                         config: Option<Config.Config>)
    requires KeyedByIdentity(cur)
    ensures ChangesKeyed(Arrivals(cur, prev, config))
    decreases |cur|
  {
    if |cur| > 0 {
      KeyedTail(cur);
      ArrivalsKeyed(cur[1..], prev, config);
      var head := ArrivalHead(cur[0], prev, config);
      ArrivalHeadKeyed(cur[0], prev, config);
      ChangesKeyedAppend(head, Arrivals(cur[1..], prev, config));
    }
  }

  /** The tail of a table keyed by identity is keyed by identity. */
  lemma KeyedTail(t: seq<Entry<string, UsbDeviceInfo>>)
    requires KeyedByIdentity(t) && |t| > 0
    ensures KeyedByIdentity(t[1..]) && t[0].key == DeviceKey(t[0].value)
  {
    forall i | 0 <= i < |t[1..]| ensures t[1..][i].key == DeviceKey(t[1..][i].value) {
      assert t[1..][i] == t[i + 1];
    }
  }

  /** A current entry filed under its device's key contributes a change
      filed under the same key. */
  lemma ArrivalHeadKeyed(e: Entry<string, UsbDeviceInfo>, prev: seq<Entry<string, UsbDeviceInfo>>,
                         config: Option<Config.Config>)
    requires e.key == DeviceKey(e.value)
    ensures ChangesKeyed(ArrivalHead(e, prev, config))
  {
  }

  /** Against a previous table with no Disconnected record, no arrival is a
      reconnection. */
  lemma {:induction false} ArrivalsNeverReconnect(cur: seq<Entry<string, UsbDeviceInfo>>,
                                                  prev: seq<Entry<string, UsbDeviceInfo>>,
                                                  config: Option<Config.Config>)
    requires NoDisconnectedRecords(prev)
    ensures forall i :: 0 <= i < |Arrivals(cur, prev, config)| ==> Arrivals(cur, prev, config)[i].value.kind != Reconnected
    decreases |cur|
  {
    if |cur| > 0 {
      ArrivalsNeverReconnect(cur[1..], prev, config);
      var p := Get(prev, cur[0].key);
      if p.Some? {
        assert Entry(cur[0].key, p.value) in prev;
      }
    }
  }

  /** The full batch of one poll, each change filed under its device key:
      all departures, then all arrivals and reconnections. */
  function Batch(prev: seq<Entry<string, UsbDeviceInfo>>, cur: seq<Entry<string, UsbDeviceInfo>>,
                 config: Option<Config.Config>, now: nat): seq<Entry<string, UsbDeviceChange>>
  {
    Departures(prev, Keys(cur), now) + Arrivals(cur, prev, config)
  }

  /** Per key, the batch holds exactly the expected change: at most one
      change per key, a Disconnected change for every departed key, a
      Connected or Blocked change for every new key, and a Reconnected change
      only for a key whose previous record is marked Disconnected. */
  lemma BatchPerKey(prev: seq<Entry<string, UsbDeviceInfo>>, cur: seq<Entry<string, UsbDeviceInfo>>,
                    config: Option<Config.Config>, now: nat, k: string)
    requires UniqueKeys(prev) && UniqueKeys(cur)
    ensures UniqueKeys(Batch(prev, cur, config, now))
    ensures Get(Batch(prev, cur, config, now), k) == ExpectedChange(Get(prev, k), Get(cur, k), config, now)
  {
    var d := Departures(prev, Keys(cur), now);
    var a := Arrivals(cur, prev, config);
    DeparturesUnique(prev, Keys(cur), now);
    ArrivalsUnique(cur, prev, config);
    ConcatUnique(d, a);
    ConcatGet(d, a, k);
    assert Keys(d) !! Keys(a);
    if k in Keys(d) {
      DeparturesGet(prev, Keys(cur), now, k);
      assert Get(cur, k).None?;
    } else if k in Keys(cur) {
      ArrivalsGet(cur, prev, config, k);
    } else {
      assert Get(prev, k).None? && Get(cur, k).None?;
      assert k !in Keys(a);
    }
  }

  /** Every Disconnected change of a batch comes before every other change. */
  lemma BatchDeparturesFirst(prev: seq<Entry<string, UsbDeviceInfo>>, cur: seq<Entry<string, UsbDeviceInfo>>,
                             config: Option<Config.Config>, now: nat)
    ensures var b := Batch(prev, cur, config, now);
      forall i, j :: 0 <= i < j < |b| && b[j].value.kind == Disconnected ==> b[i].value.kind == Disconnected
  {
    var d := Departures(prev, Keys(cur), now);
    var a := Arrivals(cur, prev, config);
    var b := d + a;
    forall i, j | 0 <= i < j < |b| && b[j].value.kind == Disconnected
      ensures b[i].value.kind == Disconnected
    {
      assert j < |d|;
      assert b[i] == d[i];
    }
  }

  /** The devices that are new in this poll (no previous entry), in
      current-table order: the ones the security check is run on. */
  function NewDevices(cur: seq<Entry<string, UsbDeviceInfo>>, prev: seq<Entry<string, UsbDeviceInfo>>)
    : (r: seq<UsbDeviceInfo>)
    ensures forall d :: d in r ==> exists e :: e in cur && e.value == d && e.key !in Keys(prev)
    ensures |r| <= |cur|
    decreases |cur|
  {
    if |cur| == 0 then []
    else
      var rest := NewDevices(cur[1..], prev);
      assert forall e :: e in cur[1..] ==> e in cur;
      if cur[0].key !in Keys(prev) then [cur[0].value] + rest else rest
  }

  // ---------------------------------------------------------------------
  // Statistics
  // ---------------------------------------------------------------------

  /** The record a device gets the first time it is counted. */
  function FreshStats(now: nat): DeviceStatistics {
    DeviceStatistics(0, 0, 0, now, now, 0, 0)
  }

  /** The counter update for one status change: connections and
      reconnections raise both the total and the live count, a
      disconnection raises its total and lowers the live count unless it is
      already zero, and a block raises only the block total. */
  function Bump(s: DeviceStatistics, status: ConnectionStatus): (r: DeviceStatistics)
    ensures r.totalConnections + r.totalDisconnections + r.totalBlocked
         == s.totalConnections + s.totalDisconnections + s.totalBlocked + 1
    ensures s.connectionCount <= s.totalConnections ==> r.connectionCount <= r.totalConnections
    ensures r.connectionCount >= s.connectionCount <==> status != Disconnected || s.connectionCount == 0
    ensures r.totalConnections == s.totalConnections + if status in {Connected, Reconnected} then 1 else 0
    ensures r.totalDisconnections == s.totalDisconnections + if status == Disconnected then 1 else 0
    ensures r.totalBlocked == s.totalBlocked + if status == Blocked then 1 else 0
    ensures status in {Connected, Reconnected} ==> r.connectionCount == s.connectionCount + 1
    ensures status == Disconnected && s.connectionCount > 0 ==> r.connectionCount + 1 == s.connectionCount
    ensures status == Disconnected && s.connectionCount == 0 ==> r.connectionCount == 0
    ensures status == Blocked ==> r.connectionCount == s.connectionCount
    ensures r.firstSeen == s.firstSeen && r.lastSeen == s.lastSeen
    ensures r.connectionDuration == s.connectionDuration
  {
    match status
    case Connected => s.(totalConnections := s.totalConnections + 1, connectionCount := s.connectionCount + 1)
    case Reconnected => s.(totalConnections := s.totalConnections + 1, connectionCount := s.connectionCount + 1)
    case Disconnected =>
      s.(totalDisconnections := s.totalDisconnections + 1,
         connectionCount := if s.connectionCount > 0 then s.connectionCount - 1 else 0)
    case Blocked => s.(totalBlocked := s.totalBlocked + 1)
  }

  /** The time of the oldest Connected entry for `key` still in the
      history. */
  function FirstConnected(history: seq<HistoryEntry>, key: string): (r: Option<nat>)
    ensures r.Some? <==> exists i :: 0 <= i < |history| && history[i].key == key && history[i].status == Connected
    ensures r.Some? ==> exists i :: (0 <= i < |history| && history[i] == HistoryEntry(r.value, key, Connected)
      && forall j :: 0 <= j < i ==> !(history[j].key == key && history[j].status == Connected))
    decreases |history|
  {
    if |history| == 0 then None
    else if history[0].key == key && history[0].status == Connected then Some(history[0].time)
    else
      var rest := FirstConnected(history[1..], key);
      assert forall i :: 0 < i < |history| ==> history[i] == history[1..][i - 1];
      if rest.Some? then
        assert exists i :: (1 <= i < |history| && history[i] == HistoryEntry(rest.value, key, Connected)
          && forall j :: 0 <= j < i ==> !(history[j].key == key && history[j].status == Connected));
        rest
      else rest
  }

  /** `now - since` as a duration, zero when `since` lies in the future. */
  function Elapsed(now: nat, since: nat): (d: nat)
    ensures since <= now ==> since + d == now
    ensures since > now ==> d == 0
  {
    if since <= now then now - since else 0
  }

  /** `update_device_statistics`. */
  function UpdateStatistics(m: Monitor, key: string, status: ConnectionStatus, now: nat): (r: Monitor)
    ensures r.history == Push(m.history, HistoryEntry(now, key, status))
    ensures r.(history := m.history, statistics := m.statistics) == m
    ensures Keys(r.statistics) == Keys(m.statistics) + {key}
    ensures forall k :: k != key ==> Get(r.statistics, k) == Get(m.statistics, k)
    ensures var s := Get(r.statistics, key).value;
      && s.lastSeen == now
      && s.firstSeen == (if key in Keys(m.statistics) then Get(m.statistics, key).value.firstSeen else now)
      && s.totalConnections + s.totalDisconnections + s.totalBlocked ==
         (if key in Keys(m.statistics) then
            var o := Get(m.statistics, key).value; o.totalConnections + o.totalDisconnections + o.totalBlocked
          else 0) + 1
    ensures var before := if key in Keys(m.statistics) then Get(m.statistics, key).value else FreshStats(now);
      var first := FirstConnected(r.history, key);
      Get(r.statistics, key) == Some(Bump(before, status).(
        lastSeen := now,
        connectionDuration := if first.Some? then Elapsed(now, first.value) else before.connectionDuration))
    ensures Valid(m) ==> Valid(r)
  {
    var history := Push(m.history, HistoryEntry(now, key, status));
    var before := match Get(m.statistics, key) case None => FreshStats(now) case Some(s) => s;
    var bumped := Bump(before, status).(lastSeen := now);
    var s := match FirstConnected(history, key)
      case None => bumped
      case Some(t) => bumped.(connectionDuration := Elapsed(now, t));
    var stats := Put(m.statistics, key, s);
    assert Valid(m) ==> StatsSane(stats) by {
      if Valid(m) {
        if Get(m.statistics, key).Some? {
          assert Entry(key, before) in m.statistics;
        }
        forall i | 0 <= i < |stats| ensures stats[i].value.connectionCount <= stats[i].value.totalConnections {
          assert stats[i] in stats;
        }
      }
    }
    m.(history := history, statistics := stats)
  }

  /** Apply one statistics update per entry, in order. */
  function UpdateAll(m: Monitor, updates: seq<Entry<string, ConnectionStatus>>, now: nat): (r: Monitor)
    ensures r.(history := m.history, statistics := m.statistics) == m
    ensures Valid(m) ==> Valid(r)
    decreases |updates|
  {
    if |updates| == 0 then m
    else UpdateAll(UpdateStatistics(m, updates[0].key, updates[0].value, now), updates[1..], now)
  }

  /** Running two lists of updates one after the other is running their
      concatenation. */
  lemma {:induction false} UpdateAllAppend(m: Monitor, a: seq<Entry<string, ConnectionStatus>>,
                                           b: seq<Entry<string, ConnectionStatus>>, now: nat)
    ensures UpdateAll(m, a + b, now) == UpdateAll(UpdateAll(m, a, now), b, now)
    decreases |a|
  {
    if |a| == 0 {
      assert a + b == b;
    } else {
      assert (a + b)[0] == a[0];
      assert (a + b)[1..] == a[1..] + b;
      UpdateAllAppend(UpdateStatistics(m, a[0].key, a[0].value, now), a[1..], b, now);
    }
  }

  /** A key's (connections, disconnections, blocks) totals, zero for a key
      without a record. */
  function TotalsOf(stats: seq<Entry<string, DeviceStatistics>>, key: string): (nat, nat, nat) {
    match Get(stats, key)
    case None => (0, 0, 0)
    case Some(s) => (s.totalConnections, s.totalDisconnections, s.totalBlocked)
  }

  /** The number of updates for `key` whose status is one of `kinds`. */
  function CountUpdates(updates: seq<Entry<string, ConnectionStatus>>, key: string, kinds: set<ConnectionStatus>)
    : (n: nat)
    ensures n <= |updates|
    decreases |updates|
  {
    if |updates| == 0 then 0
    else
      var here := if updates[0].key == key && updates[0].value in kinds then 1 else 0;
      here + CountUpdates(updates[1..], key, kinds)
  }

  lemma CountUpdatesCons(updates: seq<Entry<string, ConnectionStatus>>, key: string, kinds: set<ConnectionStatus>)
    requires |updates| > 0
    ensures CountUpdates(updates, key, kinds)
         == (if updates[0].key == key && updates[0].value in kinds then 1 else 0) + CountUpdates(updates[1..], key, kinds)
  {
  }

  /** One update moves only the updated key's totals, by one in the
      counter its status names. */
  lemma UpdateStatisticsTotals(m: Monitor, u: Entry<string, ConnectionStatus>, now: nat, key: string)
    ensures var t0 := TotalsOf(m.statistics, key);
      var t1 := TotalsOf(UpdateStatistics(m, u.key, u.value, now).statistics, key);
      var hit := u.key == key;
      && t1.0 == t0.0 + (if hit && u.value in {Connected, Reconnected} then 1 else 0)
      && t1.1 == t0.1 + (if hit && u.value == Disconnected then 1 else 0)
      && t1.2 == t0.2 + (if hit && u.value == Blocked then 1 else 0)
  {
    if u.key == key && Get(m.statistics, key).Some? {
      KeysMember(m.statistics, key);
    }
  }

  /** Over a run of updates, a key's connection total grows by exactly the
      number of its Connected and Reconnected updates, its disconnection
      total by its Disconnected updates and its block total by its Blocked
      updates. */
  lemma {:induction false} UpdateAllTotals(m: Monitor, updates: seq<Entry<string, ConnectionStatus>>,
                                           now: nat, key: string)
    ensures var t0 := TotalsOf(m.statistics, key);
      var t1 := TotalsOf(UpdateAll(m, updates, now).statistics, key);
      && t1.0 == t0.0 + CountUpdates(updates, key, {Connected, Reconnected})
      && t1.1 == t0.1 + CountUpdates(updates, key, {Disconnected})
      && t1.2 == t0.2 + CountUpdates(updates, key, {Blocked})
    decreases |updates|
  {
    if |updates| > 0 {
      var m' := UpdateStatistics(m, updates[0].key, updates[0].value, now);
      assert UpdateAll(m, updates, now) == UpdateAll(m', updates[1..], now);
      UpdateStatisticsTotals(m, updates[0], now, key);
      UpdateAllTotals(m', updates[1..], now, key);
      CountUpdatesCons(updates, key, {Connected, Reconnected});
      CountUpdatesCons(updates, key, {Disconnected});
      CountUpdatesCons(updates, key, {Blocked});
    }
  }

  /** The history after a run of updates holds the newest entries of the
      old history followed by one entry per update, in order. */
  lemma {:induction false} UpdateAllHistory(m: Monitor, updates: seq<Entry<string, ConnectionStatus>>, now: nat)
    requires |m.history| <= MaxEntries
    ensures UpdateAll(m, updates, now).history == Newest(m.history + HistoryOf(updates, now), MaxEntries)
    decreases |updates|
  {
    if |updates| > 0 {
      var m' := UpdateStatistics(m, updates[0].key, updates[0].value, now);
      var x := HistoryEntry(now, updates[0].key, updates[0].value);
      assert m'.history == Push(m.history, x);
      UpdateAllHistory(m', updates[1..], now);
      HistoryOfCons(updates, now);
      PushThenNewest(m.history, x, HistoryOf(updates[1..], now));
    }
  }

  lemma HistoryOfCons(updates: seq<Entry<string, ConnectionStatus>>, now: nat)
    requires |updates| > 0
    ensures HistoryOf(updates, now)
         == [HistoryEntry(now, updates[0].key, updates[0].value)] + HistoryOf(updates[1..], now)
  {
  }

  /** The history entries a sequence of updates appends. */
  function HistoryOf(updates: seq<Entry<string, ConnectionStatus>>, now: nat): (h: seq<HistoryEntry>)
    ensures |h| == |updates|
    ensures forall i :: 0 <= i < |updates| ==> h[i] == HistoryEntry(now, updates[i].key, updates[i].value)
  {
    seq(|updates|, i requires 0 <= i < |updates| => HistoryEntry(now, updates[i].key, updates[i].value))
  }

  /** The statistics updates a batch calls for: each change's key with its
      kind as the status. */
  function StatusUpdates(b: seq<Entry<string, UsbDeviceChange>>): (u: seq<Entry<string, ConnectionStatus>>)
    ensures |u| == |b|
    ensures forall i :: 0 <= i < |b| ==> u[i] == Entry(b[i].key, b[i].value.kind)
  {
    seq(|b|, i requires 0 <= i < |b| => Entry(b[i].key, b[i].value.kind))
  }

  /** The entries of a batch whose change is (or is not) a reconnection,
      in batch order. */
  function OfKind(b: seq<Entry<string, UsbDeviceChange>>, reconnected: bool): (r: seq<Entry<string, UsbDeviceChange>>)
    ensures forall e :: e in r <==> e in b && (e.value.kind == Reconnected) == reconnected
    decreases |b|
  {
    if |b| == 0 then []
    else
      var rest := OfKind(b[1..], reconnected);
      assert forall e :: e in b <==> e == b[0] || e in b[1..];
      if (b[0].value.kind == Reconnected) == reconnected then [b[0]] + rest else rest
  }

  // ---------------------------------------------------------------------
  // One poll
  // ---------------------------------------------------------------------

  /** `monitor_changes`. A failed bus read fails the poll and leaves the
      monitor untouched. Otherwise: the new devices are security-checked
      in current-table order; the changes are the departures followed by
      the arrivals and reconnections; the statistics are updated for the
      departures, then the arrivals, then the reconnections; and the
      current poll becomes the previous one. */
  function MonitorChanges(m: Monitor, bus: BusSnapshot, now: nat)
    : (r: Result<(Monitor, seq<UsbDeviceChange>), string>)
    ensures r.Err? <==> bus.Err?
    ensures r.Err? ==> r.error == "Failed to get device list"
    ensures r.Ok? ==> var (m', changes) := r.value;
      && m'.previous == BuildTable(ConnectedDevices(m.filter, bus).value)
      && m'.filter == m.filter && m'.config == m.config
      && changes == Values(Batch(m.previous, m'.previous, m.config, now))
    ensures r.Ok? && Valid(m) ==> Valid(r.value.0)
  {
    match ConnectedDevices(m.filter, bus)
    case Err(e) => Err(e)
    case Ok(current) =>
      var cur := BuildTable(current);
      var departed := Departures(m.previous, Keys(cur), now);
      var arrived := Arrivals(cur, m.previous, m.config);
      var checked := CheckAll(m, NewDevices(cur, m.previous), now);
      CheckAllValid(m, NewDevices(cur, m.previous), now);
      var m1 := UpdateAll(checked, StatusUpdates(departed), now);
      var m2 := UpdateAll(m1, StatusUpdates(OfKind(arrived, false)), now);
      var m3 := UpdateAll(m2, StatusUpdates(OfKind(arrived, true)), now);
      Ok((m3.(previous := cur), Values(departed + arrived)))
  }

  /** Security checks keep a monitor valid. */
  lemma {:induction false} CheckAllValid(m: Monitor, devs: seq<UsbDeviceInfo>, now: nat)
    ensures CheckAll(m, devs, now).(securityEvents := m.securityEvents) == m
    ensures Valid(m) ==> Valid(CheckAll(m, devs, now))
    decreases |devs|
  {
    if |devs| > 0 {
      CheckAllValid(CheckDeviceSecurity(m, devs[0], now).monitor, devs[1..], now);
    }
  }

  /** The statistics updates one poll performs, in order: the departures,
      then the arrivals, then the reconnections. */
  function PollUpdates(departed: seq<Entry<string, UsbDeviceChange>>, arrived: seq<Entry<string, UsbDeviceChange>>)
    : seq<Entry<string, ConnectionStatus>>
  {
    StatusUpdates(departed) + StatusUpdates(OfKind(arrived, false)) + StatusUpdates(OfKind(arrived, true))
  }

  /** A successful poll is the security checks of the new devices, then
      one run of statistics updates, then the table swap. */
  lemma MonitorChangesSteps(m: Monitor, bus: BusSnapshot, now: nat)
    requires bus.Ok?
    ensures var cur := BuildTable(ConnectedDevices(m.filter, bus).value);
      var u := PollUpdates(Departures(m.previous, Keys(cur), now), Arrivals(cur, m.previous, m.config));
      MonitorChanges(m, bus, now).value.0 == UpdateAll(CheckAll(m, NewDevices(cur, m.previous), now), u, now).(previous := cur)
  {
    var cur := BuildTable(ConnectedDevices(m.filter, bus).value);
    var departed := Departures(m.previous, Keys(cur), now);
    var arrived := Arrivals(cur, m.previous, m.config);
    var checked := CheckAll(m, NewDevices(cur, m.previous), now);
    var u1, u2, u3 := StatusUpdates(departed), StatusUpdates(OfKind(arrived, false)), StatusUpdates(OfKind(arrived, true));
    var m3 := UpdateAll(UpdateAll(UpdateAll(checked, u1, now), u2, now), u3, now);
    assert MonitorChanges(m, bus, now).value.0 == m3.(previous := cur);
    UpdateAllAppend(checked, u1, u2, now);
    UpdateAllAppend(checked, u1 + u2, u3, now);
    assert PollUpdates(departed, arrived) == u1 + u2 + u3;
  }

  /** With a configuration, a successful poll appends one security event
      per new device, in current-table order; without one the security log
      is untouched. */
  lemma MonitorChangesSecurityLog(m: Monitor, bus: BusSnapshot, now: nat)
    requires bus.Ok?
    ensures var cur := BuildTable(ConnectedDevices(m.filter, bus).value);
      var log := MonitorChanges(m, bus, now).value.0.securityEvents;
      && (m.config.None? ==> log == m.securityEvents)
      && (m.config.Some? ==> log == PushAll(m.securityEvents, EventsFor(m.config.value, NewDevices(cur, m.previous), now)))
  {
    var cur := BuildTable(ConnectedDevices(m.filter, bus).value);
    MonitorChangesSteps(m, bus, now);
    CheckAllLogs(m, NewDevices(cur, m.previous), now);
  }

  /** A successful poll appends one history entry per departure, arrival
      and reconnection, in that order, keeping the newest 1000. */
  lemma MonitorChangesHistory(m: Monitor, bus: BusSnapshot, now: nat)
    requires bus.Ok? && |m.history| <= MaxEntries
    ensures var cur := BuildTable(ConnectedDevices(m.filter, bus).value);
      var u := PollUpdates(Departures(m.previous, Keys(cur), now), Arrivals(cur, m.previous, m.config));
      MonitorChanges(m, bus, now).value.0.history == Newest(m.history + HistoryOf(u, now), MaxEntries)
  {
    var cur := BuildTable(ConnectedDevices(m.filter, bus).value);
    var u := PollUpdates(Departures(m.previous, Keys(cur), now), Arrivals(cur, m.previous, m.config));
    var checked := CheckAll(m, NewDevices(cur, m.previous), now);
    MonitorChangesSteps(m, bus, now);
    CheckAllValid(m, NewDevices(cur, m.previous), now);
    UpdateAllHistory(checked, u, now);
  }

  /** After a successful poll each key's connection, disconnection and
      block totals have grown by its updates of each kind. */
  lemma MonitorChangesTotals(m: Monitor, bus: BusSnapshot, now: nat, key: string)
    requires bus.Ok?
    ensures var cur := BuildTable(ConnectedDevices(m.filter, bus).value);
      var u := PollUpdates(Departures(m.previous, Keys(cur), now), Arrivals(cur, m.previous, m.config));
      var t1 := TotalsOf(MonitorChanges(m, bus, now).value.0.statistics, key);
      var t0 := TotalsOf(m.statistics, key);
      && t1.0 == t0.0 + CountUpdates(u, key, {Connected, Reconnected})
      && t1.1 == t0.1 + CountUpdates(u, key, {Disconnected})
      && t1.2 == t0.2 + CountUpdates(u, key, {Blocked})
  {
    var cur := BuildTable(ConnectedDevices(m.filter, bus).value);
    var u := PollUpdates(Departures(m.previous, Keys(cur), now), Arrivals(cur, m.previous, m.config));
    var checked := CheckAll(m, NewDevices(cur, m.previous), now);
    MonitorChangesSteps(m, bus, now);
    CheckAllValid(m, NewDevices(cur, m.previous), now);
    UpdateAllTotals(checked, u, now, key);
  }

  // ---------------------------------------------------------------------
  // Properties of a poll
  // ---------------------------------------------------------------------

  /** Per device key, the changes of a batch between two identity-keyed
      tables are exactly the expected ones: no two changes concern the same
      device, and a change for key `k` is present exactly when
      `ExpectedChange` calls for one, in which case it is that change. */
  lemma ChangesPerKey(prev: seq<Entry<string, UsbDeviceInfo>>, cur: seq<Entry<string, UsbDeviceInfo>>,
                      config: Option<Config.Config>, now: nat, k: string)
    requires UniqueKeys(prev) && KeyedByIdentity(prev)
    requires UniqueKeys(cur) && KeyedByIdentity(cur)
    ensures var changes := Values(Batch(prev, cur, config, now));
      var expected := ExpectedChange(Get(prev, k), Get(cur, k), config, now);
      && (forall i, j :: 0 <= i < j < |changes| ==> DeviceKey(changes[i].info) != DeviceKey(changes[j].info))
      && (expected.None? <==> forall i :: 0 <= i < |changes| ==> DeviceKey(changes[i].info) != k)
      && (forall i :: 0 <= i < |changes| && DeviceKey(changes[i].info) == k ==> changes[i] == expected.value)
  {
    BatchPerKey(prev, cur, config, now, k);
    BatchKeyed(prev, cur, config, now);
    KeyedValues(Batch(prev, cur, config, now), k);
  }

  /** A batch between identity-keyed tables files each change under its
      device's key. */
  lemma BatchKeyed(prev: seq<Entry<string, UsbDeviceInfo>>, cur: seq<Entry<string, UsbDeviceInfo>>,
                   config: Option<Config.Config>, now: nat)
    requires KeyedByIdentity(prev) && KeyedByIdentity(cur)
    ensures ChangesKeyed(Batch(prev, cur, config, now))
  {
    DeparturesKeyed(prev, Keys(cur), now);
    ArrivalsKeyed(cur, prev, config);
    ChangesKeyedAppend(Departures(prev, Keys(cur), now), Arrivals(cur, prev, config));
  }

  lemma ChangesKeyedAppend(x: seq<Entry<string, UsbDeviceChange>>, y: seq<Entry<string, UsbDeviceChange>>)
    requires ChangesKeyed(x) && ChangesKeyed(y)
    ensures ChangesKeyed(x + y)
  {
    forall i | 0 <= i < |x + y| ensures (x + y)[i].key == DeviceKey((x + y)[i].value.info) {
      if i < |x| {
        assert (x + y)[i] == x[i];
      } else {
        assert (x + y)[i] == y[i - |x|];
      }
    }
  }

  /** In a table of changes filed under their device keys with unique
      keys, the changes concern distinct devices, and the changes for key
      `k` are exactly the table's entry for `k`. */
  lemma KeyedValues(b: seq<Entry<string, UsbDeviceChange>>, k: string)
    requires UniqueKeys(b) && ChangesKeyed(b)
    ensures var changes := Values(b);
      && (forall i, j :: 0 <= i < j < |changes| ==> DeviceKey(changes[i].info) != DeviceKey(changes[j].info))
      && (Get(b, k).None? <==> forall i :: 0 <= i < |changes| ==> DeviceKey(changes[i].info) != k)
      && (forall i :: 0 <= i < |changes| && DeviceKey(changes[i].info) == k ==> changes[i] == Get(b, k).value)
  {
    UniqueKeysDistinct(b);
    KeysMember(b, k);
    forall i | 0 <= i < |b| && b[i].key == k
      ensures b[i].value == Get(b, k).value
    {
      GetEntry(b, i);
    }
  }

  /** Per device key, a successful poll reports exactly the expected
      change (see `ChangesPerKey`), with the current poll's table as the
      new previous table. */
  lemma MonitorChangesPerKey(m: Monitor, bus: BusSnapshot, now: nat, k: string)
    requires Valid(m)
    requires bus.Ok?
    ensures var (m', changes) := MonitorChanges(m, bus, now).value;
      var expected := ExpectedChange(Get(m.previous, k), Get(m'.previous, k), m.config, now);
      && (forall i, j :: 0 <= i < j < |changes| ==> DeviceKey(changes[i].info) != DeviceKey(changes[j].info))
      && (expected.None? <==> forall i :: 0 <= i < |changes| ==> DeviceKey(changes[i].info) != k)
      && (forall i :: 0 <= i < |changes| && DeviceKey(changes[i].info) == k ==> changes[i] == expected.value)
  {
    var cur := BuildTable(ConnectedDevices(m.filter, bus).value);
    ChangesPerKey(m.previous, cur, m.config, now, k);
  }

  /** A key the previous poll did not hold can never be reported as
      Reconnected: a device that is unplugged and plugged back in is gone
      from the previous table by the time it returns. */
  lemma ReplugIsNotReconnection(prev: Option<UsbDeviceInfo>, cur: Option<UsbDeviceInfo>,
                                config: Option<Config.Config>, now: nat)
    requires prev.None? && cur.Some?
    ensures ExpectedChange(prev, cur, config, now).Some?
    ensures ExpectedChange(prev, cur, config, now).value.kind in {Connected, Blocked}
  {
  }

  /** No record of the table is marked Disconnected. */
  ghost predicate NoDisconnectedRecords(t: seq<Entry<string, UsbDeviceInfo>>) {
    forall i :: 0 <= i < |t| ==> t[i].value.connectionStatus != Disconnected
  }

  /** The bus reports no record marked Disconnected (records read from
      the bus always carry Connected). */
  ghost predicate LiveSnapshot(bus: BusSnapshot) {
    bus.Ok? ==> forall i :: 0 <= i < |bus.value| && bus.value[i].Some? ==>
      bus.value[i].value.connectionStatus != Disconnected
  }

  /** No change in the batch is a reconnection. */
  ghost predicate NoReconnection(b: seq<Entry<string, UsbDeviceChange>>) {
    forall i :: 0 <= i < |b| ==> b[i].value.kind != Reconnected
  }

  lemma NoReconnectionAppend(x: seq<Entry<string, UsbDeviceChange>>, y: seq<Entry<string, UsbDeviceChange>>)
    requires NoReconnection(x) && NoReconnection(y)
    ensures NoReconnection(x + y)
  {
    forall i | 0 <= i < |x + y| ensures (x + y)[i].value.kind != Reconnected {
      if i < |x| {
        assert (x + y)[i] == x[i];
      } else {
        assert (x + y)[i] == y[i - |x|];
      }
    }
  }

  /** Against a previous table with no Disconnected record, a batch holds
      no reconnection. */
  lemma BatchNeverReconnects(prev: seq<Entry<string, UsbDeviceInfo>>, cur: seq<Entry<string, UsbDeviceInfo>>,
                             config: Option<Config.Config>, now: nat)
    requires NoDisconnectedRecords(prev)
    ensures var changes := Values(Batch(prev, cur, config, now));
      forall i :: 0 <= i < |changes| ==> changes[i].kind != Reconnected
  {
    var d := Departures(prev, Keys(cur), now);
    var a := Arrivals(cur, prev, config);
    assert NoReconnection(d);
    ArrivalsNeverReconnect(cur, prev, config);
    NoReconnectionAppend(d, a);
    assert Batch(prev, cur, config, now) == d + a;
  }

  /** As long as the previous table holds no Disconnected record, a poll
      reports no reconnection; and a poll of a live snapshot leaves no
      Disconnected record behind. So, fed from the bus, the Reconnected
      branch is never taken. */
  lemma ReconnectedUnreachable(m: Monitor, bus: BusSnapshot, now: nat)
    requires NoDisconnectedRecords(m.previous)
    requires bus.Ok?
    ensures var (m', changes) := MonitorChanges(m, bus, now).value;
      forall i :: 0 <= i < |changes| ==> changes[i].kind != Reconnected
    ensures LiveSnapshot(bus) ==> NoDisconnectedRecords(MonitorChanges(m, bus, now).value.0.previous)
  {
    var cur := BuildTable(ConnectedDevices(m.filter, bus).value);
    BatchNeverReconnects(m.previous, cur, m.config, now);
    if LiveSnapshot(bus) {
      ReconnectedUnreachableTable(bus, m.filter);
    }
  }

  /** Polling the same snapshot twice: the second poll reports nothing,
      provided the snapshot holds no record marked Disconnected. */
  lemma ReplayIsQuiet(m: Monitor, bus: BusSnapshot, now: nat, later: nat)
    requires Valid(m)
    requires LiveSnapshot(bus)
    requires bus.Ok?
    ensures var m' := MonitorChanges(m, bus, now).value.0;
      MonitorChanges(m', bus, later).Ok? && MonitorChanges(m', bus, later).value.1 == []
  {
    var m' := MonitorChanges(m, bus, now).value.0;
    var cur := m'.previous;
    assert MonitorChanges(m', bus, later).value.0.previous == cur;
    var d := Departures(cur, Keys(cur), later);
    var a := Arrivals(cur, cur, m'.config);
    assert Keys(d) == {};
    ReconnectedUnreachableTable(bus, m.filter);
    forall k | k in Keys(cur) ensures Get(a, k).None? {
      ArrivalsGet(cur, cur, m'.config, k);
      var c := Get(cur, k).value;
      assert Entry(k, c) in cur;
    }
  }

  /** The table built from a live snapshot holds no Disconnected record. */
  lemma ReconnectedUnreachableTable(bus: BusSnapshot, filter: Option<string>)
    requires LiveSnapshot(bus) && bus.Ok?
    ensures NoDisconnectedRecords(BuildTable(ConnectedDevices(filter, bus).value))
  {
    var cur := BuildTable(ConnectedDevices(filter, bus).value);
    BuildTableContents(ConnectedDevices(filter, bus).value);
    forall i | 0 <= i < |cur| ensures cur[i].value.connectionStatus != Disconnected {
      assert cur[i] in cur;
      assert Some(cur[i].value) in bus.value;
    }
  }

  /** The live count is floored at zero, so counts and totals drift apart:
      a disconnection before any connection, then one connection, leaves one
      live connection with one connection and one disconnection on record. */
  lemma CountIsFloored(now: nat)
    ensures var s := Bump(Bump(FreshStats(now), Disconnected), Connected);
      s.connectionCount == 1 && s.totalConnections == 1 && s.totalDisconnections == 1
  {
  }
}

=== FILE: wrappers.dfy ===
/** Failure-compatible wrappers shared by every module of the model:
    `Option` for values that may be absent (Rust's `Option<T>`) and
    `Result` for operations that may fail (Rust's `Result<T, E>`). */
module Wrappers {

  datatype Option<+T> = None | Some(value: T)

  datatype Result<+T, +E> = Ok(value: T) | Err(error: E)

  /** The unit value carried by `Ok` when an operation returns nothing. */
  datatype Unit = Unit
}
